=== FILE: README.md ===
# MetaPulse signal pipeline in Dafny

This is a model of the in-memory core of the MetaPulse backend, with proofs about it. Every
thirty minutes the backend refreshes its market snapshot from DexScreener. Three times a day (at
00:00, 08:00 and 16:00) it runs an insight cycle: it pulls the latest token profiles from
DexScreener, and then:

- normalises those profiles and ranks them into highlights;
- stores a market snapshot;
- asks an AI gateway for an insight about the first eight tokens, under a quota of three calls
  a day;
- files the insight as a signal, newest first, keeping the twenty most recent;
- broadcasts the insight to a Telegram channel;
- posts it as a tweet, under its own quota of three posts a day.

A Telegram chat can ask for a one-time link code. Entering that code on the web console
creates a signed session, which the HTTP API authenticates.

The model is functional. The store is an immutable record threaded through pure operations.
Each external effect becomes a parameter:

- the clock, which is both an ISO text and a millisecond count;
- the uuid generator;
- the random link code;
- `jwt.sign` and `jwt.verify`;
- the HTTP answers of DexScreener, the AI service and Twitter;
- `JSON.parse`;
- the locale formatters.

Emitted events are appended to a log in the store. The rate limiter is an explicit counter
record. JavaScript values are modelled by a small `Value` datatype (module `Js`), so that
truthiness, `||` chains, `?.` lookups and `Number(...)` follow the language. Template-literal
conversion follows it for the numbers plain decimal notation covers; the exponent forms are
listed under "Left out".

Modules, one per source file plus shared support:

| file | module | models |
|---|---|---|
| `wrappers.dfy` | `Wrappers` | `Option` (`null`), `Result` (value or thrown error), `items.map` with a throwing callback |
| `js.dfy` | `Js` | JavaScript values, truthiness, `trim`, `replace`, `join`/`split`, `Number()` on strings, number-to-text |
| `number_format.dfy` | `NumberFormat` | `toFixed` and `toLocaleString('en-US', { maximumFractionDigits: 0 })` on exact reals |
| `sorting.dfy` | `Sorting` | numeric-comparator sort followed by `slice(0, k)` |
| `signals.dfy` | `Signals` | the insight, draft and stored-signal records |
| `rate_limit.dfy` | `RateLimit` | the consume / reward / expire point limiter and the guarded-call pattern |
| `store.dfy` | `Store` | `backend/store.js` |
| `dex_screener.dfy` | `DexScreener` | `backend/services/dexScreener.js` |
| `ai_engine.dfy` | `AiEngine` | `backend/services/aiEngine.js` |
| `twitter_poster.dfy` | `TwitterPoster` | `backend/services/twitterPoster.js` |
| `session_linker.dfy` | `SessionLinker` | `backend/services/sessionLinker.js` |
| `telegram_bot.dfy` | `TelegramBot` | `backend/services/telegramBot.js` |
| `scheduler.dfy` | `Scheduler` | `backend/jobs/scheduler.js` |
| `api.dfy` | `Api` | `backend/routes/api.js` |

The insight cycle is one deterministic step, `Scheduler.RunInsightCycle`. It takes the fetch
outcome, the service parameters (AI poster and parser, Twitter credentials and poster, locale
formatters) and one instant. It returns:

- the new world: the store and both quotas;
- the tokens the AI was asked about;
- the insight;
- what the Telegram notifier returned;
- what the Twitter poster did;
- the error the cycle's `catch` swallowed, if any.

Its ordering is visible in its structure and stated by its lemmas:

- the snapshot is stored first;
- the signal is stored next;
- the notification and the tweet come after, and neither touches the store (`CycleIsGenerateThenPost`).

The store refuses a link code only when `expiresAt < now`, so a code is still accepted at exactly its
expiry instant (`Store.ConsumeLinkCode`, `Api.LiveCodeLinks`).

## Model

| member | source | states |
|---|---|---|
| Store.AddSignal | backend/store.js:14-20 | the new signal, stamped with the given id and time, is first; the previous signals follow in their old order, cut so that at most 20 remain; exactly one `signals:update` event carrying the post-eviction list is emitted; nothing else in the store changes |
| Store.Evict | backend/store.js:16-18 | popping while the list is longer than 20 keeps exactly its first min(20, n) entries |
| Store.AddAllKeepsNewest | backend/store.js:12-24 | after any run of `addSignal` calls the list is the new signals newest first followed by the old ones, cut to 20: the oldest are the ones dropped |
| Store.SetMarketSnapshot | backend/store.js:26-39 | tokens are the argument if it is an array, else its `tokens` array, else `[]`; highlights and sourceTimestamp default to null; fetchedAt is the current time; one `market:update` with the new snapshot is emitted; signals, codes and sessions are untouched |
| Store.CreateLinkCode | backend/store.js:45-53 | the profile (with `expiresAt` laid over it) is stored under the code, expiring at now + 300000, with a timer for that instant; the answer is that code and expiry; only that key changes |
| Store.ConsumeLinkCode | backend/store.js:55-69 | an unknown code gives null and changes nothing; an entry with `expiresAt < now` gives null; otherwise the entry's profile without its timer; in every case the code and its timer are gone afterwards and no other code changes |
| Store.LinkCodeIsOneShot | backend/store.js:45-69 | a code presented within five minutes of issue yields its profile, and a second presentation at any later time yields null |
| Store.RedeemedKeepsProfile | backend/store.js:51-68 | the redeemed profile has every field of the chat profile (except `expiresAt` and `timeout`), the numeric `expiresAt`, no `timeout`, and nothing else |
| Store.ExpiredCodeRefused | backend/store.js:60-64 | one millisecond after its expiry a code is refused and is gone for good |
| Store.FireTimers | backend/store.js:48-50 | once the clock passes a timer's instant its code is deleted; other codes and their entries stay |
| Store.TimerRemovesCode | backend/store.js:48-50 | after the timer of a code has fired, the code is unknown even at its expiry instant |
| Store.ReissuedCodeDiesEarly | backend/store.js:46-51 | a code issued twice is deleted by the first issue's timer, before the second expiry |
| Store.RegisterSession | backend/store.js:71-73 | the session is found with the profile plus `sessionId` and `linkedAt`; other sessions and the rest of the store are untouched |
| Store.GetProfile | backend/store.js:75-77 | a profile is returned exactly when the session is registered |
| Store.RevokeSession | backend/store.js:79-81 | the session is no longer found; every other session is found as before |
| Sorting.Sort | backend/services/dexScreener.js:32-44 | the comparator sort returns a permutation of its input ordered by the key |
| Sorting.Top | backend/services/dexScreener.js:32-44 | sort then `slice(0, k)` returns min(k, n) entries, ordered, all drawn from the input |
| Sorting.TopLeavesNoBetter | backend/services/dexScreener.js:32-44 | no element left out of the top k ranks strictly ahead of any element kept |
| Sorting.SortKeepsSorted | backend/services/dexScreener.js:32-44 | input whose keys already ascend is returned as it is |
| DexScreener.SafeNumber | backend/services/dexScreener.js:5-11 | a finite `Number(value)` is returned unchanged; NaN and the infinities become 0 |
| DexScreener.SafeNumberReadsIntegerText | backend/services/dexScreener.js:5-11 | the decimal text of an integer is read back as that integer |
| DexScreener.IdentifierChain | backend/services/dexScreener.js:15 | the id is truthy exactly when one of `id`, `address`, `pairAddress`, `pairId`, `tokenAddress` is truthy; otherwise it is null; a truthy `id` wins |
| DexScreener.DisplayDefaults | backend/services/dexScreener.js:16-27 | missing name, symbol and chain read `Unknown`, `—` and `unknown`; missing pools read `[]`, present ones are kept |
| DexScreener.Entries | backend/services/dexScreener.js:56 | entries are `data` when it is an array, else `profiles` when that is an array, else none |
| DexScreener.Identified | backend/services/dexScreener.js:57 | every kept token has a truthy id; every entry whose normalised id is truthy is kept; with no such entry the list is empty |
| DexScreener.IdentifiedFromEntries | backend/services/dexScreener.js:57 | every kept token is the normalisation of some entry |
| DexScreener.IdentifiedDistributes | backend/services/dexScreener.js:57 | filtering commutes with concatenation, so input order is preserved |
| DexScreener.Movers | backend/services/dexScreener.js:32-35 | min(5, n) tokens from the input, with 24h change non-increasing |
| DexScreener.MoversAreTopChanges | backend/services/dexScreener.js:32-35 | no token left out has a larger 24h change than a mover |
| DexScreener.VolumeLeaders | backend/services/dexScreener.js:37-39 | min(5, n) tokens from the input, with 24h volume non-increasing |
| DexScreener.VolumeLeadersAreTopVolumes | backend/services/dexScreener.js:37-39 | no token left out has a larger 24h volume than a leader |
| DexScreener.SteadyOnly | backend/services/dexScreener.js:42 | the filter keeps exactly the tokens with change >= 0 and volume > 0, each as many times as it occurs in the input |
| DexScreener.SteadyGainers | backend/services/dexScreener.js:41-44 | min(5, number of steady tokens) tokens from the input, each with change >= 0 and volume > 0, with 24h change non-decreasing (ascending) |
| DexScreener.SteadyGainersAreSmallestGains | backend/services/dexScreener.js:41-44 | a steady token left out gained at least as much as every steady gainer kept |
| DexScreener.SteadyGainersExample | backend/services/dexScreener.js:41-44 | gains of 10 and 5 with volume, and a loss, give the 5 then the 10: the list ascends |
| DexScreener.FetchLatestProfiles | backend/services/dexScreener.js:53-63 | a failed request rejects with its error; otherwise the tokens are the identified normalised entries of `response.data \|\| {}`, the highlights are built from them, and the timestamp is the current time |
| RateLimit.Consume | backend/services/aiEngine.js:85 | the point is counted whether or not it is admitted; it is admitted exactly when fewer than `points` were used |
| RateLimit.Reward | backend/services/aiEngine.js:100 | one point is given back |
| RateLimit.Remaining | backend/services/aiEngine.js:95 | `max(0, points - consumed)`, or `points` without a record; never above `points` |
| RateLimit.Guard | backend/services/aiEngine.js:85-102 | the upstream call runs exactly when the quota admits it; a refusal costs a point and reports the rate limit; a failure is rethrown and its point refunded; a success keeps one point and reports the remaining quota |
| RateLimit.FailedCallIsFree | backend/services/aiEngine.js:99-102 | a failed upstream call leaves the remaining quota as it was |
| RateLimit.OnlySuccessesCount | backend/services/aiEngine.js:7-11 | while budget is left, a run of calls uses exactly one point per success |
| RateLimit.QuotaExhaustion | backend/services/aiEngine.js:7-11 | after three successes in a fresh window, the next call is refused without running |
| RateLimit.Expire | backend/services/aiEngine.js:7-11 | when the window elapses the full quota is back |
| AiEngine.PromptRows | backend/services/aiEngine.js:16-19 | the prompt table has one row per token among the first eight |
| AiEngine.PromptTableLines | backend/services/aiEngine.js:16-19 | split at newlines, the table is exactly the rows `#1`… for the first min(8, n) tokens, in order |
| AiEngine.PromptSeesEight | backend/services/aiEngine.js:15-27 | tokens past the eighth do not change the prompt |
| AiEngine.RequestInsight | backend/services/aiEngine.js:29-78 | a missing key throws `meta_ai_key_missing`; a failed request rethrows; content that cannot be read rethrows its TypeError; missing or blank content throws `meta_ai_empty_response`; non-empty trimmed content always yields a result, which is the parsed JSON or else the fallback |
| AiEngine.JsonCompletionParsed | backend/services/aiEngine.js:64-65 | content that parses is returned as parsed |
| AiEngine.BlankCompletionRefused | backend/services/aiEngine.js:59-62 | blank content throws `meta_ai_empty_response` |
| AiEngine.PlainTextFallsBack | backend/services/aiEngine.js:64-76 | content that does not parse yields the fallback built from the trimmed text |
| AiEngine.FallbackShape | backend/services/aiEngine.js:64-76 | the fallback's summary is the content, there is one insight per token for the first min(3, n) tokens with their symbols and confidence 0.4, the risk is the fixed text, and the next steps are `['Retry analysis later']` |
| AiEngine.GenerateInsight | backend/services/aiEngine.js:80-103 | no tokens throws `tokens_required` before the quota; an exhausted quota rejects without a request; a failed request is rethrown with its point refunded; an admitted call whose request succeeds always yields an insight; a result carries the AI data and meta with the time, the request id or null, and the remaining quota |
| AiEngine.FailedInsightIsFree | backend/services/aiEngine.js:99-102 | a failed request leaves the remaining quota as it was |
| AiEngine.MissingKeyIsFree | backend/services/aiEngine.js:30-32 | without a key an admitted call keeps no point and throws `meta_ai_key_missing`; an exhausted quota refuses first and costs its point; no tokens throws `tokens_required` with the quota untouched |
| AiEngine.InsightReportsQuota | backend/services/aiEngine.js:95 | `remainingToday` is one less than the quota before the call |
| TwitterPoster.PublishUpdate | backend/services/twitterPoster.js:29-50 | no client returns `skipped` and keeps the quota; blank text throws `tweet_empty` and keeps the quota; the text is sent, trimmed, exactly when there is a client, the text is not blank and the quota admits it; a refusal costs a point; an admitted tweet that fails rethrows the API's own error with the point refunded; an admitted tweet that succeeds is reported as posted, keeps its point, and carries the tweet id and the remaining quota |
| TwitterPoster.TweetId | backend/services/twitterPoster.js:43 | reading `data` of a missing answer throws, otherwise the id is read |
| TwitterPoster.PostedTextTrimmed | backend/services/twitterPoster.js:40 | the posted text is its own trim, not blank, and no longer than the input |
| TwitterPoster.FailedPostIsFree | backend/services/twitterPoster.js:46-49 | a failed post leaves the remaining quota as it was |
| TwitterPoster.PostedQuotaInRange | backend/services/twitterPoster.js:44 | the `rateLimit` after a post lies in [0, 3) |
| TwitterPoster.RemainingQuota | backend/services/twitterPoster.js:52-56 | `points` without a record, `points - consumed` while that is not negative, and 0 once the count reaches or passes `points` |
| TwitterPoster.RefusedPostLeavesNone | backend/services/twitterPoster.js:35-36 | a post the quota refuses sends nothing, and the quota reported afterwards is 0 |
| TelegramBot.EscapeMarkdownSinglePass | backend/services/telegramBot.js:10-25 | the fourteen chained replacements equal one pass that prefixes each listed character with a backslash and keeps every other character |
| TelegramBot.EscapedLength | backend/services/telegramBot.js:10-25 | the output length is the input length plus the number of listed characters |
| TelegramBot.UnescapeEscape | backend/services/telegramBot.js:10-25 | removing the inserted backslashes gives the input back |
| TelegramBot.PlainText | backend/services/telegramBot.js:10-25 | text without listed characters is unchanged |
| TelegramBot.EscapeValue | backend/services/telegramBot.js:10 | the default argument gives `''`, a string is escaped, any other value throws |
| TelegramBot.FormatSignal | backend/services/telegramBot.js:27-30 | a missing signal reads `No insights available yet.` |
| TelegramBot.FormatSignalLines | backend/services/telegramBot.js:27-53 | the message is the header, summary, one line per insight (or `Insights pending.`), risk and next steps, joined by newlines, none of them empty |
| TelegramBot.MessageHasNoEmptyLine | backend/services/telegramBot.js:40-52 | when no part holds a newline, splitting the message gives back exactly those lines, none empty |
| TelegramBot.FormatSignalDefaults | backend/services/telegramBot.js:43-49 | a missing summary or risk reads `N/A`; missing or empty next steps read `Follow up later` |
| TelegramBot.InsightLines | backend/services/telegramBot.js:31-37 | one non-empty bullet per insight item, in order |
| TelegramBot.BotFor | backend/services/telegramBot.js:55-64 | the bot is the stub exactly when the token is missing or empty; otherwise it carries the broadcast chat id |
| TelegramBot.NotifyChannel | backend/services/telegramBot.js:111-120 | the disabled stub returns no promise; without a chat id nothing is sent; a message goes only to the configured chat, with the formatted signal |
| TelegramBot.SignalListener | backend/services/telegramBot.js:122-127 | only the newest signal is forwarded, and nothing for an empty list |
| TelegramBot.ListenerForwardsNewSignal | backend/services/telegramBot.js:122-129 | after `addSignal`, the listener forwards exactly the new signal |
| TelegramBot.SignalsCommand | backend/services/telegramBot.js:72-75 | with no signals the reply is `No insights available yet.` |
| TelegramBot.TopRows | backend/services/telegramBot.js:85-87 | one row per leader, each starting with `#` |
| TelegramBot.TopCommandAsWritten | backend/services/telegramBot.js:77-92 | with tokens in the snapshot the store is untouched |
| TelegramBot.TopAfterRefetchIsEmpty | backend/services/telegramBot.js:80-84 | as written, a refetch stores bare tokens and so the reply is always `No data available.` |
| TelegramBot.TopCommand | backend/services/telegramBot.js:77-92 | the corrected refetch stores the fetched tokens and their highlights |
| TelegramBot.TopAfterRefetchLists | backend/services/telegramBot.js:80-88 | corrected, a refetch that finds named tokens replies with a `#`-numbered listing, not the empty text |
| TelegramBot.LinkCommand | backend/services/telegramBot.js:94-100 | the code issued for a chat stores its chat id, username and first name |
| SessionLinker.IssueLinkCode | backend/services/sessionLinker.js:8-10 | the code is stored with the five-minute expiry; other codes and the sessions are untouched |
| SessionLinker.LinkProfileMerge | backend/services/sessionLinker.js:8-10 | a `chatId` inside the profile overrides the argument; every other profile field is kept |
| SessionLinker.SessionPayload | backend/services/sessionLinker.js:18-23 | the payload has exactly the fresh session id, the profile's chat id, and username and first name or null when falsy |
| SessionLinker.CreateSession | backend/services/sessionLinker.js:16-27 | the returned profile is the payload and the token is its signature; other sessions and the rest of the store are untouched |
| SessionLinker.SessionRegistered | backend/services/sessionLinker.js:25-26 | looking the new session up gives the returned profile plus `linkedAt` |
| SessionLinker.SessionLifecycle | backend/services/sessionLinker.js:16-35 | a session is found after creation and not after revocation, and other sessions stay as they were |
| Scheduler.BaseLine | backend/jobs/scheduler.js:13 | the first line starts with the brief title and is never blank |
| Scheduler.HighlightLine | backend/jobs/scheduler.js:14 | the highlight line is empty exactly when the first insight is falsy |
| Scheduler.RiskText | backend/jobs/scheduler.js:15 | the risk line is empty exactly when the risk is falsy |
| Scheduler.Filled | backend/jobs/scheduler.js:17-18 | the filter keeps no blank line, keeps every line that is not blank, and never lengthens the list |
| Scheduler.KeepConcat | backend/jobs/scheduler.js:17-18 | filtering a concatenation is filtering each part, in the parts' order |
| Scheduler.KeepFive | backend/jobs/scheduler.js:17-18 | five lines with kept ends come out as the first, each middle line that is not blank in its place, and the last |
| Scheduler.FilledKeepsShown | backend/jobs/scheduler.js:17-18 | the filter drops nothing when no line is blank |
| Scheduler.TweetLines | backend/jobs/scheduler.js:11-18 | building the lines throws exactly when the defaulted summary is not a string |
| Scheduler.Truncate | backend/jobs/scheduler.js:20 | text of at most 280 units is unchanged; longer text becomes its first 275 units plus `…` |
| Scheduler.FormatTweet | backend/jobs/scheduler.js:7-21 | the tweet is 1 to 280 units long, and fails only when the lines do |
| Scheduler.FormatTweetOf | backend/jobs/scheduler.js:8-10 | a missing insight gives null; an insight gives a tweet of 1 to 280 units unless its summary is not a string |
| Scheduler.TweetLinesInOrder | backend/jobs/scheduler.js:11-18 | the tweet's lines are the base line, the summary unless blank, the highlight exactly when the first insight is truthy, the risk line exactly when the risk is truthy, and the footer, in that order |
| Scheduler.HighlightShown | backend/jobs/scheduler.js:14-18 | the filter keeps the highlight line exactly when the first insight is truthy |
| Scheduler.RiskShown | backend/jobs/scheduler.js:15-18 | the filter keeps the risk line exactly when the risk is truthy |
| Scheduler.TweetShowsRiskAndHighlight | backend/jobs/scheduler.js:14-18 | a truthy risk and a truthy first insight always appear among the tweet's lines |
| Scheduler.NumericSummaryThrows | backend/jobs/scheduler.js:12-18 | a summary that is an infinite number is truthy, is kept over the default, and has no `trim`, so the lines throw |
| Scheduler.TweetLinesRoundTrip | backend/jobs/scheduler.js:17-19 | a tweet that fits splits back into the kept lines, which start with the title line, end with the footer, and are none of them blank |
| Scheduler.LongTweetCut | backend/jobs/scheduler.js:20 | a long tweet is the first 275 units of the joined lines plus the ellipsis, 276 units in all |
| Scheduler.TweetNotBlank | backend/jobs/scheduler.js:17-20 | a formatted tweet is never blank, so the Twitter poster never refuses it as empty |
| Scheduler.Focus | backend/jobs/scheduler.js:28 | the focus is the first min(8, n) tokens |
| Scheduler.Marked | backend/jobs/scheduler.js:25-26 | the fetched tokens and highlights become the snapshot, with one `market:update` |
| Scheduler.Generate | backend/jobs/scheduler.js:25-41 | a failed fetch changes nothing and is reported; no notification or tweet happens in this part |
| Scheduler.PostTweet | backend/jobs/scheduler.js:49-56 | a tweet that cannot be formatted is reported; otherwise it is handed to the poster, whose quota is the only thing that changes |
| Scheduler.RunInsightCycle | backend/jobs/scheduler.js:23-60 | the channel is notified exactly when an insight was produced, with that insight |
| Scheduler.CycleIsGenerateThenPost | backend/jobs/scheduler.js:34-56 | the notification and the tweet do not touch the store or the AI quota, so the signal is stored before either |
| Scheduler.CycleStoresSnapshot | backend/jobs/scheduler.js:25-26 | a failed fetch leaves the world unchanged and is the reported error; a successful fetch is stored first and announced |
| Scheduler.CycleAsksAboutFirstEight | backend/jobs/scheduler.js:28-33 | the AI is asked exactly when there are tokens, about the first eight; with none the cycle stops without quota, signal, tweet or error |
| Scheduler.OneSignalPerInsight | backend/jobs/scheduler.js:34-41 | with an insight exactly one signal is added at the front, carrying the source and the insight's fields, the older ones following; without one the signals are unchanged; the 20 bound is kept |
| Scheduler.CycleQuotaCost | backend/jobs/scheduler.js:33-56 | a cycle uses at most one AI point and one tweet point, none when it stops early |
| Scheduler.CycleBroadcastsInsight | backend/jobs/scheduler.js:43-47 | with a chat id, the formatted insight is sent to it |
| Scheduler.RunInsightCycleAsWritten | backend/jobs/scheduler.js:43-56 | as written, with the disabled bot no tweet is ever posted and the tweet quota is untouched |
| Scheduler.DisabledBotSilencesTwitter | backend/jobs/scheduler.js:43-47 | as written, with the disabled bot every insight ends in a TypeError from `.catch` on `undefined`, and Twitter is never reached |
| Scheduler.NoBotTokenNoTweet | backend/jobs/scheduler.js:43-56 | as written, a backend started without a bot token never tweets from a cycle and never spends tweet quota |
| Scheduler.DisabledBotStillTweets | backend/jobs/scheduler.js:43-56 | corrected, the disabled bot changes nothing else, and a formattable insight is posted when a client and quota exist |
| Scheduler.VersionsAgreeWhenEnabled | backend/jobs/scheduler.js:43-47 | with an enabled bot the two versions agree |
| Scheduler.Bootstrap | backend/jobs/scheduler.js:74-84 | a failed first fetch changes nothing; a cycle runs exactly when the first fetch returned tokens |
| Scheduler.BootstrapRunsOnMarket | backend/jobs/scheduler.js:74-84 | a bootstrap insight is stored with source `bootstrap`; without tokens nothing but the empty snapshot is stored |
| Scheduler.MarketRefresh | backend/jobs/scheduler.js:65-72 | a failed refresh is swallowed and changes nothing; signals, codes and sessions are never touched |
| Scheduler.RefreshIsForwarded | backend/jobs/scheduler.js:86-88 | each successful refresh forwards exactly its new snapshot to the sockets |
| Scheduler.SignalIsNotForwarded | backend/jobs/scheduler.js:86-88 | adding a signal forwards no market update |
| Scheduler.ScheduleFitsQuota | backend/jobs/scheduler.js:63 | the cron fires three cycles a day, matching the AI quota of three points |
| Api.SessionToken | backend/routes/api.js:12 | a non-empty cookie wins; without cookie or header there is no token; a token is never empty |
| Api.BearerHeaderRead | backend/routes/api.js:12 | `Bearer <token>` in the header gives the token |
| Api.Authenticate | backend/routes/api.js:10-24 | no token gives 401 `not_authorized`; the request passes exactly when the token verifies, with the verified payload |
| Api.AuthErrorsDistinct | backend/routes/api.js:13-22 | a token that fails verification gives 401 `invalid_session`, distinct from `not_authorized` |
| Api.ListSignals | backend/routes/api.js:30-32 | `/signals` answers 200 with the stored list |
| Api.LatestInsight | backend/routes/api.js:81-84 | `/insights/latest` answers the newest signal, or null exactly when there are none |
| Api.MarketRoute | backend/routes/api.js:34-45 | the snapshot is refetched only when it has no tokens; a failed refetch answers 500 `market_unavailable`; sessions, codes and signals are untouched |
| Api.MissingCodeRefused | backend/routes/api.js:48-51 | a missing or falsy code answers 400 `code_required` and consumes nothing |
| Api.NonStringCodeFails | backend/routes/api.js:52-67 | a code that is not a string cannot be trimmed and answers 500 `link_failed` |
| Api.UnknownCodeRefused | backend/routes/api.js:53-56 | for any body whose `code` is a non-empty string, an unknown or expired trimmed code answers 404 `code_invalid` and creates no session |
| Api.LiveCodeLinks | backend/routes/api.js:57-64 | for any body whose `code` is a non-empty string, a live code creates the session, sets the `mp_session` cookie for seven days and returns the payload, which the registry holds with `linkedAt` |
| Api.Unlink | backend/routes/api.js:70-74 | `/unlink` answers 200 and clears the cookie, leaving signals, snapshot and codes |
| Api.Me | backend/routes/api.js:76-79 | `/me` answers 200 with the registry's profile for the token's session, or null |
| Api.Protected | backend/routes/api.js:10-24 | a route behind the middleware runs exactly when authentication passes, and otherwise the store is untouched |
| Api.TokenRoutes | backend/routes/api.js:70-79 | with a verified token `/me` reads that session and `/unlink` revokes exactly it |
| Api.MeUnlinkMe | backend/routes/api.js:70-79 | with one verified token, `/me`, `/unlink`, `/me` change the store only by revoking that session, and each `/me` reads the registry as it stands |
| Api.LinkMeUnlinkMe | backend/routes/api.js:47-79 | issue, link, `/me`, `/unlink`, `/me`: the second `/me` answers 200 with null, not 401, and the code cannot be used again |
| NumberFormat.ToFixedReadsBack | backend/services/aiEngine.js:18 | `toFixed(f)` reads back within half a unit of the last place |
| NumberFormat.LocaleIntegerDigits | backend/services/aiEngine.js:18 | with the grouping commas removed, the volume text is the rounded integer |
| NumberFormat.GroupUngroups | backend/services/aiEngine.js:18 | grouping digits by thousands and removing the commas gives the digits back |
| Js.TrimEmptyOnlyIfBlank | backend/services/twitterPoster.js:34 | trimming gives `''` exactly for whitespace-only text |
| Js.Find | backend/routes/api.js:12 | the offset found holds the pattern and no earlier offset does, and it is `|s|` exactly when the pattern does not occur |
| Js.ReplaceFirst | backend/routes/api.js:12 | `replace` with a string pattern leaves text without the pattern unchanged and otherwise swaps the first occurrence, wherever it is, for the replacement |
| Js.ReplaceInside | backend/routes/api.js:12 | an occurrence after the start is still the one replaced: `"xBearer t"` becomes `"xt"` |
| Js.SplitJoin | backend/services/telegramBot.js:37 | joining newline-free lines with newlines and splitting gives them back |
| Js.IntegerStringToNumber | backend/services/dexScreener.js:6 | `Number` of an integer's decimal text is that integer |

## Left out

- Network, Telegram, Twitter and socket I/O are outcomes passed in as parameters. So are the clock, `uuid`, `Math.random`, `jwt.sign`/`jwt.verify` and `JSON.parse`.
- `jwt.verify` includes the seven-day token expiry. Here it is an arbitrary function from token to payload.
- Event delivery: `emit` appends to a log in the store. Listener side effects beyond the forwarded value are not modelled.
- Interleaving of fire-and-forget promises is not modelled. Each cycle runs to completion at one instant: the bootstrap cycle, the notification and the tweet all complete before anything else happens.
- Timing is not modelled. The insight cron is a predicate (`Scheduler.CycleDue`). The half-hourly refresh is one `Scheduler.MarketRefresh` step per firing. The limiter's 24-hour window is the explicit `Expire` step.
- Numbers are exact reals, not IEEE doubles. `Number()` on strings reads decimal text (with sign, fraction and `Infinity`); exponent, hexadecimal, binary and octal forms read as NaN.
- `toFixed` on values of 1e21 or more (exponent notation) is out of scope of `NumberFormat.ToFixedReadsBack`.
- `Js.NumberText` (and so `Js.Display` of a number): JavaScript's `String(n)` switches to exponent notation when |n| is at least 1e21 or below 1e-6 (`1e+21`, `1e-7`), and it prints the shortest text that reads back as the same double. The model always prints the plain decimal expansion of the exact real, with at most 20 fraction digits. So does any line that shows such a number through a template literal, for example a numeric symbol in a prompt row or a numeric risk in a tweet or a Telegram message. No contract states the exact text of such a number.
- `toLocaleString` and `toLocaleDateString` with the default locale, used for dates and for the `/top` volume, are parameters. Only the `en-US` integer form in the AI prompt is written out.
- Strings are sequences of UTF-16 code units with one `char` each. Astral characters, which JavaScript counts as two units, are not modelled.
- `Array.prototype.sort` is modelled as a stable insertion sort, since the language requires stable sorting. Stability itself is not stated as a property: the contracts speak of order by key and permutation only.
- The initial snapshot's missing `highlights` (`undefined`) and later `null` are both `None`.
- Key order in JSON objects is not modelled: objects are maps.
- Telegram's acceptance of the MarkdownV2 text is not modelled. Neither are the `/start` greeting and the `/link` reply text, which only format the code and time.
- `/top`'s reply after a thrown error is modelled (`TOP_FAILED`), but which call threw is not distinguished.
- `backend/index.js` and `server.js` are wiring (express, helmet, cors, static files, signals). They are not part of this model.
- `getRateLimitStatus()` returns the limiter object itself and computes nothing. The model has no member for it: the `Limiter` record is the state it would hand out.
- `buildHighlights` not mutating its input holds by construction: every model function is pure.
- Scheduler.RunInsightCycle: the formatTweet `null` check before publishing is left implicit. `Scheduler.FormatTweetOf` states that a real insight never yields `null`.

## Findings

| source | as written | input that shows it | evidently intended | confidence | as-written member | corrected member |
|---|---|---|---|---|---|---|
| backend/jobs/scheduler.js:43-47 | with no Telegram token the bot stub's `notifyChannel` returns `undefined`, and `.catch` on it throws a TypeError that the cycle's `catch` swallows before Twitter is reached | `TELEGRAM_BOT_TOKEN` unset, Twitter credentials set, any insight | a disabled Telegram bot should not stop the tweet | not executed | Scheduler.RunInsightCycleAsWritten, Scheduler.DisabledBotSilencesTwitter | Scheduler.RunInsightCycle, Scheduler.DisabledBotStillTweets |
| backend/services/telegramBot.js:80-84 | `/top` with an empty snapshot refetches but stores `fresh.tokens`, a bare array, so the snapshot's highlights are null and the reply is always `No data available.` | empty snapshot, DexScreener returns named tokens | store the whole fetched object, so the volume leaders are listed | not executed | TelegramBot.TopCommandAsWritten, TelegramBot.TopAfterRefetchIsEmpty | TelegramBot.TopCommand, TelegramBot.TopAfterRefetchLists |

=== FILE: ai_engine.dfy ===
/** The AI gateway (`backend/services/aiEngine.js`): it renders the prompt from the focus tokens,
    reads the completion out of the chat response, falls back to a canned insight when the answer
    is not JSON, and guards every request with its own three-per-day quota. The HTTP call is the
    parameter `post`, which maps the prompt to the response body (`response.data`) or to what the
    call threw; `JSON.parse` is the parameter `parse`, `None` standing for a SyntaxError. */
module AiEngine {
  import opened Wrappers
  import opened Js
  import opened Sorting
  import opened RateLimit
  import opened Signals
  import opened DexScreener
  import opened NumberFormat

  /** At most this many tokens are described in the prompt. */
  const PROMPT_ROWS: nat := 8
  /** At most this many tokens get a canned insight in the fallback answer. */
  const FALLBACK_ROWS: nat := 3

  const PROMPT_HEAD: string :=
    "You are the MetaPulse Insight Engine. Analyse the following Solana-centric token signals and respond with strict JSON.\n\nTokens:\n"
  const PROMPT_TAIL: string :=
    "\n\nReturn JSON with keys: summary (string, 2 sentences), insights (array of objects with keys symbol, insight, confidence(0-1)), risk (string, 1 short sentence), nextSteps (array of action strings). Keep tone precise, neutral.\n"

  const FALLBACK_INSIGHT: string := "Insight engine returned plain-text summary; manual follow-up recommended."
  const FALLBACK_RISK: string := "Unable to parse structured response; treat with caution."
  const FALLBACK_STEP: string := "Retry analysis later"
  /** The fallback's confidence, 0.4. */
  const FALLBACK_CONFIDENCE: real := 0.4

  // ---------------------------------------------------------------------------------------
  // The prompt

  /** The `index`-th line of the token table. */
  function PromptRow(index: nat, t: Token): string {
    "#" + NatToString(index + 1) + " " + Display(t.symbol) + " (" + Display(t.name) + ")"
    + " | Price $" + ToFixed(t.priceUsd, 4)
    + " | 24h \U{0394} " + ToFixed(t.change24h, 2) + "%"
    + " | Vol24h $" + LocaleInteger(t.volume24hUsd)
  }

  /** One line per token among the first eight. */
  function PromptRows(tokens: seq<Token>): (rows: seq<string>)
    ensures |rows| == Min(PROMPT_ROWS, |tokens|)
  {
    seq(Min(PROMPT_ROWS, |tokens|), i requires 0 <= i < Min(PROMPT_ROWS, |tokens|) => PromptRow(i, tokens[i]))
  }

  function PromptTable(tokens: seq<Token>): string {
    Join(PromptRows(tokens), "\n")
  }

  /** `formatPrompt(tokens)`. */
  function Prompt(tokens: seq<Token>): string {
    PROMPT_HEAD + PromptTable(tokens) + PROMPT_TAIL
  }

  /** The token's symbol and name render on one line. */
  predicate SingleLine(t: Token) {
    '\n' !in Display(t.symbol) && '\n' !in Display(t.name)
  }

  /** Every table row is a single line when the token's symbol and name are. */
  lemma PromptRowSingleLine(index: nat, t: Token)
    requires SingleLine(t)
    ensures Excludes(PromptRow(index, t), '\n')
  {
    NatToStringSingleLine(index + 1);
    ToFixedSingleLine(t.priceUsd, 4);
    ToFixedSingleLine(t.change24h, 2);
    LocaleIntegerNumeric(t.volume24hUsd);
    NumericSingleLine(LocaleInteger(t.volume24hUsd));
    RowPartsSingleLine(NatToString(index + 1), Display(t.symbol), Display(t.name),
      ToFixed(t.priceUsd, 4), ToFixed(t.change24h, 2), LocaleInteger(t.volume24hUsd));
    ExcludesMember(PromptRow(index, t), '\n');
  }

  lemma RowPartsSingleLine(n: string, symbol: string, name: string, price: string, change: string, volume: string)
    requires '\n' !in n && '\n' !in symbol && '\n' !in name
    requires '\n' !in price && '\n' !in change && '\n' !in volume
    ensures '\n' !in "#" + n + " " + symbol + " (" + name + ")" + " | Price $" + price
      + " | 24h \U{0394} " + change + "%" + " | Vol24h $" + volume
  {
  }

  lemma NatToStringSingleLine(n: nat)
    ensures '\n' !in NatToString(n)
  {
    DigitsNumeric(NatToString(n));
  }

  /** Reading the table back line by line gives the rows in token order: one line per token
      among the first eight, the `i`-th numbered `i + 1`. */
  lemma PromptTableLines(tokens: seq<Token>)
    requires |tokens| > 0
    requires forall i :: 0 <= i < Min(PROMPT_ROWS, |tokens|) ==> SingleLine(tokens[i])
    ensures var lines := Split(PromptTable(tokens), '\n');
      && |lines| == Min(PROMPT_ROWS, |tokens|)
      && forall i :: 0 <= i < |lines| ==> lines[i] == PromptRow(i, tokens[i])
  {
    var rows := PromptRows(tokens);
    forall i | 0 <= i < |rows| ensures Excludes(rows[i], '\n') {
      PromptRowSingleLine(i, tokens[i]);
    }
    SplitJoin(rows, '\n');
  }

  /** Tokens after the eighth never reach the prompt. */
  lemma PromptSeesEight(tokens: seq<Token>)
    requires |tokens| > PROMPT_ROWS
    ensures Prompt(tokens) == Prompt(tokens[..PROMPT_ROWS])
  {
    assert PromptRows(tokens) == PromptRows(tokens[..PROMPT_ROWS]);
  }

  // ---------------------------------------------------------------------------------------
  // The answer

  /** `response.data?.choices?.[0]?.message?.content?.trim()`: `None` when the chain meets
      `undefined` or `null`, the trimmed text when it reaches a string, and a TypeError when it
      reaches any other value, which has no `trim`. */
  function ResponseContent(body: Value): (r: Result<Option<string>, Thrown>) {
    var content := Get(Get(Index0(Get(body, "choices")), "message"), "content");
    match content
    case Undefined => Ok(None)
    case Null => Ok(None)
    case Str(s) => Ok(Some(Trim(s)))
    case _ => Err(TypeError("content.trim is not a function"))
  }

  /** The completion text as read is already trimmed, and it is missing only when the response
      has no content at all. */
  lemma ResponseContentTrimmed(body: Value)
    ensures ResponseContent(body).Ok? && ResponseContent(body).value.Some? ==>
      Trim(ResponseContent(body).value.value) == ResponseContent(body).value.value
    ensures ResponseContent(body).Ok? && ResponseContent(body).value.None? ==>
      !Truthy(Get(Get(Index0(Get(body, "choices")), "message"), "content"))
  {
    var content := Get(Get(Index0(Get(body, "choices")), "message"), "content");
    if content.Str? {
      TrimIdempotent(content.s);
    }
  }

  /** The canned insight for one token. */
  function FallbackItem(t: Token): Value {
    Obj(map["symbol" := t.symbol, "insight" := Str(FALLBACK_INSIGHT), "confidence" := Num(Finite(FALLBACK_CONFIDENCE))])
  }

  /** The answer used when the completion is not JSON. */
  function Fallback(content: string, tokens: seq<Token>): Value {
    var items := seq(Min(FALLBACK_ROWS, |tokens|), i requires 0 <= i < Min(FALLBACK_ROWS, |tokens|) => FallbackItem(tokens[i]));
    Obj(map[
      "summary" := Str(content),
      "insights" := Arr(items),
      "risk" := Str(FALLBACK_RISK),
      "nextSteps" := Arr([Str(FALLBACK_STEP)])])
  }

  /** The fallback keeps the completion as the summary and gives each of the first three tokens
      a low-confidence insight under its own symbol. */
  lemma FallbackShape(content: string, tokens: seq<Token>)
    ensures var c := ContentOf(Insight(Fallback(content, tokens), Meta("", Null, 0)));
      && c.summary == Str(content)
      && c.risk == Str(FALLBACK_RISK)
      && c.nextSteps == Arr([Str(FALLBACK_STEP)])
      && c.insights.Arr? && |c.insights.items| == Min(FALLBACK_ROWS, |tokens|)
      && forall i :: 0 <= i < |c.insights.items| ==>
           && Get(c.insights.items[i], "symbol") == tokens[i].symbol
           && Get(c.insights.items[i], "confidence") == Num(Finite(0.4))
  {
  }

  /** The API key is set and not empty (`!API_KEY` is false). */
  predicate KeyConfigured(apiKey: Option<string>) {
    apiKey.Some? && apiKey.value != ""
  }

  /** `requestInsight(tokens)`. */
  function RequestInsight(
    apiKey: Option<string>, tokens: seq<Token>,
    post: string -> Result<Value, Thrown>, parse: string -> Option<Value>): (r: Result<Value, Thrown>)
    ensures !KeyConfigured(apiKey) ==> r == Err(Error("meta_ai_key_missing"))
    ensures KeyConfigured(apiKey) && post(Prompt(tokens)).Err? ==> r == post(Prompt(tokens))
    ensures r.Ok? ==> KeyConfigured(apiKey) && post(Prompt(tokens)).Ok?
    ensures r.Ok? ==>
      var content := ResponseContent(post(Prompt(tokens)).value);
      && content.Ok? && content.value.Some? && content.value.value != ""
      && r.value == (match parse(content.value.value)
                     case Some(v) => v
                     case None => Fallback(content.value.value, tokens))
    ensures KeyConfigured(apiKey) && post(Prompt(tokens)).Ok? ==>
      var content := ResponseContent(post(Prompt(tokens)).value);
      && (content.Err? ==> r == Err(content.error))
      && (content.Ok? && (content.value.None? || content.value.value == "") ==>
            r == Err(Error("meta_ai_empty_response")))
      && (content.Ok? && content.value.Some? && content.value.value != "" ==> r.Ok?)
  {
    if !KeyConfigured(apiKey) then Err(Error("meta_ai_key_missing"))
    else
      match post(Prompt(tokens))
      case Err(e) => Err(e)
      case Ok(body) =>
        match ResponseContent(body)
        case Err(e) => Err(e)
        case Ok(content) =>
          if content.None? || content.value == "" then Err(Error("meta_ai_empty_response"))
          else
            match parse(content.value)
            case Some(v) => Ok(v)
            case None => Ok(Fallback(content.value, tokens))
  }

  /** A chat completion response whose first choice carries `text`. */
  function ChatBody(text: string): Value {
    Obj(map["choices" := Arr([Obj(map["message" := Obj(map["content" := Str(text)])])])])
  }

  lemma ChatBodyContent(text: string)
    ensures ResponseContent(ChatBody(text)) == Ok(Some(Trim(text)))
  {
    ChatBodyPath(text);
  }

  lemma ChatBodyPath(text: string)
    ensures Get(Get(Index0(Get(ChatBody(text), "choices")), "message"), "content") == Str(text)
  {
    var message := Obj(map["content" := Str(text)]);
    var choice := Obj(map["message" := message]);
    var choices := Arr([choice]);
    assert ChatBody(text) == Obj(map["choices" := choices]);
    assert Get(ChatBody(text), "choices") == choices;
    assert Index0(choices) == choice;
    assert Get(choice, "message") == message;
    assert Get(message, "content") == Str(text);
  }

  /** A completion that is missing, empty or only white space is refused. */
  lemma BlankCompletionRefused(
    apiKey: Option<string>, tokens: seq<Token>,
    post: string -> Result<Value, Thrown>, parse: string -> Option<Value>, text: string)
    requires KeyConfigured(apiKey)
    requires post(Prompt(tokens)) == Ok(ChatBody(text))
    requires Blank(text)
    ensures RequestInsight(apiKey, tokens, post, parse) == Err(Error("meta_ai_empty_response"))
  {
    ChatBodyContent(text);
  }

  /** A completion that parses as JSON is the answer, whatever value it parses to. */
  lemma JsonCompletionParsed(
    apiKey: Option<string>, tokens: seq<Token>,
    post: string -> Result<Value, Thrown>, parse: string -> Option<Value>, text: string)
    requires KeyConfigured(apiKey)
    requires post(Prompt(tokens)) == Ok(ChatBody(text))
    requires !Blank(text) && parse(Trim(text)).Some?
    ensures RequestInsight(apiKey, tokens, post, parse) == Ok(parse(Trim(text)).value)
  {
    ChatBodyContent(text);
  }

  /** A completion that is not JSON becomes the fallback answer carrying the trimmed text. */
  lemma PlainTextFallsBack(
    apiKey: Option<string>, tokens: seq<Token>,
    post: string -> Result<Value, Thrown>, parse: string -> Option<Value>, text: string)
    requires KeyConfigured(apiKey)
    requires post(Prompt(tokens)) == Ok(ChatBody(text))
    requires !Blank(text) && parse(Trim(text)).None?
    ensures RequestInsight(apiKey, tokens, post, parse) == Ok(Fallback(Trim(text), tokens))
  {
    ChatBodyContent(text);
  }

  // ---------------------------------------------------------------------------------------
  // The guarded entry point

  /** `generateInsight(tokens, { requestId })` at time `generatedAt`: the limiter afterwards and
      the insight, or why there is none. */
  function GenerateInsight(
    l: Limiter, tokens: seq<Token>, requestId: Value, generatedAt: string,
    apiKey: Option<string>, post: string -> Result<Value, Thrown>, parse: string -> Option<Value>)
    : (r: (Limiter, Result<Insight, Rejection<Thrown>>))
    ensures r.0.points == l.points
    ensures |tokens| == 0 ==> r == (l, Err(Raised(Error("tokens_required"))))
    ensures |tokens| > 0 && Used(l) >= l.points ==> r.1 == Err(RateLimited) && Used(r.0) == Used(l) + 1
    ensures r.1.Err? && r.1.error.Raised? ==> Used(r.0) == Used(l)
    ensures r.1.Ok? ==>
      && Used(l) < l.points && Used(r.0) == Used(l) + 1
      && RequestInsight(apiKey, tokens, post, parse) == Ok(r.1.value.data)
      && r.1.value.meta == Meta(generatedAt, Or(requestId, Null), Remaining(r.0))
    ensures |tokens| > 0 && Used(l) < l.points && RequestInsight(apiKey, tokens, post, parse).Err? ==>
      r.1 == Err(Raised(RequestInsight(apiKey, tokens, post, parse).error))
    ensures |tokens| > 0 && Used(l) < l.points && RequestInsight(apiKey, tokens, post, parse).Ok? ==>
      r.1.Ok?
  {
    if |tokens| == 0 then (l, Err(Raised(Error("tokens_required"))))
    else
      var g := Guard(l, RequestInsight(apiKey, tokens, post, parse));
      match g.outcome
      case Err(e) => (g.limiter, Err(e))
      case Ok(granted) => (g.limiter, Ok(Insight(granted.value, Meta(generatedAt, Or(requestId, Null), granted.remaining))))
  }

  /** An attempt that fails after admission, for a missing key, a failed request or an empty
      answer, gives its point back: the quota left today is unchanged. */
  lemma FailedInsightIsFree(
    l: Limiter, tokens: seq<Token>, requestId: Value, generatedAt: string,
    apiKey: Option<string>, post: string -> Result<Value, Thrown>, parse: string -> Option<Value>)
    requires RequestInsight(apiKey, tokens, post, parse).Err?
    ensures var r := GenerateInsight(l, tokens, requestId, generatedAt, apiKey, post, parse);
      r.1.Err? && (Used(l) < l.points || |tokens| == 0 ==> Remaining(r.0) == Remaining(l))
  {
  }

  /** A missing key costs no quota once the call is admitted, and the caller sees
      `meta_ai_key_missing`; without tokens nothing is attempted at all. */
  lemma MissingKeyIsFree(
    l: Limiter, tokens: seq<Token>, requestId: Value, generatedAt: string,
    post: string -> Result<Value, Thrown>, parse: string -> Option<Value>)
    ensures var r := GenerateInsight(l, tokens, requestId, generatedAt, None, post, parse);
      && (|tokens| > 0 && Used(l) < l.points ==>
            Used(r.0) == Used(l) && r.1 == Err(Raised(Error("meta_ai_key_missing"))))
      && (|tokens| > 0 && Used(l) >= l.points ==> Used(r.0) == Used(l) + 1 && r.1 == Err(RateLimited))
      && (|tokens| == 0 ==> r == (l, Err(Raised(Error("tokens_required")))))
  {
  }

  /** The quota reported with an insight is the quota left after it: one less than before. */
  lemma InsightReportsQuota(
    l: Limiter, tokens: seq<Token>, requestId: Value, generatedAt: string,
    apiKey: Option<string>, post: string -> Result<Value, Thrown>, parse: string -> Option<Value>)
    requires Valid(l)
    requires GenerateInsight(l, tokens, requestId, generatedAt, apiKey, post, parse).1.Ok?
    ensures var r := GenerateInsight(l, tokens, requestId, generatedAt, apiKey, post, parse);
      r.1.value.meta.remainingToday == Remaining(l) - 1
  {
  }
}

=== FILE: api.dfy ===
/** The HTTP routes (`backend/routes/api.js`) as decisions: each handler maps the store and the
    request to the store afterwards and the response (status, JSON body, cookie). Token
    verification (`jwt.verify` with the session secret) is the parameter `verify`, which gives
    the decoded payload or nothing when the token does not verify; the session id and signer
    of a new session are parameters as in the session linker. */
module Api {
  import opened Wrappers
  import opened Js
  import opened Signals
  import opened DexScreener
  import opened Store
  import opened SessionLinker

  const SESSION_COOKIE: string := "mp_session"
  /** Seven days in milliseconds. */
  const SESSION_MAX_AGE_MS: nat := 7 * 24 * 60 * 60 * 1000

  /** What `res.json` sends under `data`. */
  datatype Payload =
    | SignalList(signals: seq<Signal>)
    | LatestSignal(latest: Option<Signal>)
    | Market(snapshot: Snapshot)
    | ProfileData(profile: Option<Profile>)

  datatype Body = Data(payload: Payload) | Failed(error: string) | Unlinked

  /** `res.cookie(name, value, options)` and `res.clearCookie(name)`. */
  datatype CookieOp =
    | SetCookie(name: string, value: string, httpOnly: bool, secure: bool, sameSite: string, maxAgeMs: nat)
    | ClearCookie(name: string)

  datatype Response = Response(status: nat, body: Body, cookie: Option<CookieOp>)

  function Ok200(p: Payload): Response {
    Response(200, Data(p), None)
  }

  function Error(status: nat, code: string): Response {
    Response(status, Failed(code), None)
  }

  // ---------------------------------------------------------------------------------------
  // Authentication

  /** `req.cookies?.[SESSION_COOKIE] || req.headers['authorization']?.replace('Bearer ', '')`:
      the cookie when it is non-empty, else the header with its first `Bearer ` removed. */
  function SessionToken(cookie: Option<string>, authorization: Option<string>): (r: Option<string>)
    ensures cookie.Some? && cookie.value != "" ==> r == cookie
    ensures (cookie.None? || cookie.value == "") && authorization.None? ==> r.None?
    ensures r.Some? ==> r.value != ""
  {
    if cookie.Some? && cookie.value != "" then cookie
    else
      match authorization
      case None => None
      case Some(h) =>
        var t := ReplaceFirst(h, "Bearer ", "");
        if t == "" then None else Some(t)
  }

  /** The auth middleware: the verified payload to hand to the route, or the 401 response. */
  function Authenticate(cookie: Option<string>, authorization: Option<string>, verify: string -> Option<Profile>)
    : (r: Result<Profile, Response>)
    ensures SessionToken(cookie, authorization).None? <==> r == Err(Error(401, "not_authorized"))
    ensures r.Err? ==> r.error.status == 401
    ensures r.Ok? <==> SessionToken(cookie, authorization).Some? && verify(SessionToken(cookie, authorization).value).Some?
    ensures r.Ok? ==> r.value == verify(SessionToken(cookie, authorization).value).value
  {
    match SessionToken(cookie, authorization)
    case None => Err(Error(401, "not_authorized"))
    case Some(token) =>
      match verify(token)
      case None => Err(Error(401, "invalid_session"))
      case Some(payload) => Ok(payload)
  }

  /** The two refusals are told apart: a request without a token is not the same failure as
      one whose token does not verify. */
  lemma AuthErrorsDistinct(cookie: Option<string>, authorization: Option<string>, verify: string -> Option<Profile>)
    requires SessionToken(cookie, authorization).Some?
    requires verify(SessionToken(cookie, authorization).value).None?
    ensures Authenticate(cookie, authorization, verify) == Err(Error(401, "invalid_session"))
    ensures Authenticate(None, None, verify) == Err(Error(401, "not_authorized"))
    ensures Authenticate(cookie, authorization, verify) != Authenticate(None, None, verify)
  {
  }

  /** A bearer header authenticates as its token when there is no cookie. */
  lemma BearerHeaderRead(token: string)
    requires token != ""
    ensures SessionToken(None, Some("Bearer " + token)) == Some(token)
  {
    var h := "Bearer " + token;
    assert h[..|"Bearer "|] == "Bearer ";
    assert h[|"Bearer "|..] == token;
    assert ReplaceFirst(h, "Bearer ", "") == "" + token == token;
  }

  // ---------------------------------------------------------------------------------------
  // Routes

  /** `GET /signals`. */
  function ListSignals(st: Store): (r: Response)
    ensures r.status == 200 && r.body.Data? && r.body.payload == SignalList(st.signals)
  {
    Ok200(SignalList(GetSignals(st)))
  }

  /** `GET /insights/latest`: the newest signal, or `null`. */
  function LatestInsight(st: Store): (r: Response)
    ensures r.status == 200 && r.body.Data? && r.body.payload.LatestSignal?
    ensures |st.signals| == 0 <==> r.body.payload.latest.None?
    ensures |st.signals| > 0 ==> r.body.payload.latest == Some(st.signals[0])
  {
    var list := GetSignals(st);
    Ok200(LatestSignal(if |list| > 0 then Some(list[0]) else None))
  }

  /** `GET /market` at ISO time `now`, with `fetched` the settled `fetchLatestProfiles()` of
      the refetch: a snapshot with tokens is served as it is; an empty one is refetched and
      the whole result stored first. */
  function MarketRoute(st: Store, fetched: Result<Profiles, Thrown>, now: string): (r: (Store, Response))
    ensures |st.snapshot.tokens| > 0 ==> r == (st, Ok200(Market(st.snapshot)))
    ensures |st.snapshot.tokens| == 0 && fetched.Err? ==> r == (st, Error(500, "market_unavailable"))
    ensures |st.snapshot.tokens| == 0 && fetched.Ok? ==>
      && r.0.snapshot.tokens == fetched.value.tokens
      && r.0.snapshot.highlights == Some(fetched.value.highlights)
      && r.1 == Ok200(Market(r.0.snapshot))
    ensures r.0.signals == st.signals && r.0.sessions == st.sessions && r.0.linkCodes == st.linkCodes
  {
    var snapshot := GetMarketSnapshot(st);
    if |snapshot.tokens| > 0 then (st, Ok200(Market(snapshot)))
    else
      match fetched
      case Err(_) => (st, Error(500, "market_unavailable"))
      case Ok(latest) =>
        var st1 := SetMarketSnapshot(st, FromProfiles(latest), now);
        (st1, Ok200(Market(GetMarketSnapshot(st1))))
  }

  /** What a new session needs from outside: the uuid, the ISO time, the signer, and whether
      the server runs in production (the cookie is `secure` only then). */
  datatype SessionEnv = SessionEnv(sessionId: string, linkedAt: string, sign: Profile -> string, production: bool)

  /** The session cookie for a token. */
  function SessionCookie(token: string, production: bool): CookieOp {
    SetCookie(SESSION_COOKIE, token, true, production, "lax", SESSION_MAX_AGE_MS)
  }

  /** `POST /link-telegram` with JSON body `body` at clock `now` (milliseconds). */
  function LinkTelegram(st: Store, body: Value, now: int, env: SessionEnv): (r: (Store, Response))
  {
    var code := Get(Or(body, Obj(map[])), "code");
    if !Truthy(code) then (st, Error(400, "code_required"))
    else
      match code
      case Str(text) =>
        var (st1, chatProfile) := ConsumeLinkCode(st, Trim(text), now);
        (match chatProfile
         case None => (st1, Error(404, "code_invalid"))
         case Some(p) =>
           var (st2, session) := CreateSession(st1, p, env.sessionId, env.linkedAt, env.sign);
           (st2, Response(200, Data(ProfileData(Some(session.profile))), Some(SessionCookie(session.token, env.production)))))
      case _ => (st, Error(500, "link_failed"))
  }

  /** A request without a usable code is refused before any code is looked up: the store is
      untouched. */
  lemma MissingCodeRefused(st: Store, body: Value, now: int, env: SessionEnv)
    requires !Truthy(Get(Or(body, Obj(map[])), "code"))
    ensures LinkTelegram(st, body, now, env) == (st, Error(400, "code_required"))
  {
  }

  /** A code that is not a string cannot be trimmed; the handler's `catch` answers 500. */
  lemma NonStringCodeFails(st: Store, body: Value, now: int, env: SessionEnv)
    requires var code := Get(Or(body, Obj(map[])), "code"); Truthy(code) && !code.Str?
    ensures LinkTelegram(st, body, now, env) == (st, Error(500, "link_failed"))
  {
  }

  /** For any body whose `code` is a non-empty string: the code is trimmed before the lookup;
      an unknown or expired code answers 404 and creates no session, and a known one is
      consumed either way. */
  lemma UnknownCodeRefused(st: Store, body: Value, text: string, now: int, env: SessionEnv)
    requires text != "" && Get(Or(body, Obj(map[])), "code") == Str(text)
    requires var key := Trim(text); key !in st.linkCodes || st.linkCodes[key].expiresAt < now
    ensures var (st1, resp) := LinkTelegram(st, body, now, env);
      && resp == Error(404, "code_invalid")
      && st1.sessions == st.sessions
      && Trim(text) !in st1.linkCodes
  {
    var (st1, found) := ConsumeLinkCode(st, Trim(text), now);
    assert found.None?;
  }

  /** The body `{ code: text }` yields `text` as its truthy code. */
  lemma CodeRead(text: string)
    requires text != ""
    ensures var code := Get(Or(Obj(map["code" := Str(text)]), Obj(map[])), "code");
      code == Str(text) && Truthy(code)
  {
    var body := Obj(map["code" := Str(text)]);
    assert Or(body, Obj(map[])) == body;
  }

  /** For any body whose `code` is a non-empty string, a live code, with white space around it
      or not, links the chat: the session is
      registered under the new id, the cookie carries its signed token for seven days, and
      the body is the session's profile, which names the chat that asked for the code. */
  lemma LiveCodeLinks(st: Store, body: Value, text: string, now: int, env: SessionEnv)
    requires text != "" && Get(Or(body, Obj(map[])), "code") == Str(text)
    requires var key := Trim(text); key in st.linkCodes && now <= st.linkCodes[key].expiresAt
    ensures var (st1, resp) := LinkTelegram(st, body, now, env);
      var fields := st.linkCodes[Trim(text)].fields;
      var payload := SessionPayload(fields, env.sessionId);
      && resp.status == 200
      && resp.body == Data(ProfileData(Some(payload)))
      && resp.cookie == Some(SetCookie("mp_session", env.sign(payload), true, env.production, "lax", 604800000))
      && payload["chatId"] == Get(Obj(fields), "chatId")
      && GetProfile(st1, env.sessionId) == Some(payload["linkedAt" := Str(env.linkedAt)])
      && Trim(text) !in st1.linkCodes
  {
    var key := Trim(text);
    var (st1, found) := ConsumeLinkCode(st, key, now);
    SessionRegistered(st1, found.value, env.sessionId, env.linkedAt, env.sign);
  }

  /** `POST /unlink` for the verified payload: the session is revoked and the cookie cleared.
      A payload whose `sessionId` is not a string names no session. */
  function Unlink(st: Store, session: Profile): (r: (Store, Response))
    ensures r.1 == Response(200, Unlinked, Some(ClearCookie(SESSION_COOKIE)))
    ensures r.0.signals == st.signals && r.0.snapshot == st.snapshot && r.0.linkCodes == st.linkCodes
  {
    var st1 := match Get(Obj(session), "sessionId")
      case Str(id) => RevokeSession(st, id)
      case _ => st;
    (st1, Response(200, Unlinked, Some(ClearCookie(SESSION_COOKIE))))
  }

  /** `GET /me` for the verified payload: whatever the registry holds under its `sessionId`,
      `null` included. */
  function Me(st: Store, session: Profile): (r: Response)
    ensures r.status == 200 && r.body.Data? && r.body.payload.ProfileData?
    ensures Get(Obj(session), "sessionId").Str? ==>
      r.body.payload.profile == GetProfile(st, Get(Obj(session), "sessionId").s)
    ensures !Get(Obj(session), "sessionId").Str? ==> r.body.payload.profile.None?
  {
    var profile := match Get(Obj(session), "sessionId")
      case Str(id) => GetProfile(st, id)
      case _ => None;
    Ok200(ProfileData(profile))
  }

  /** A protected route behind the middleware: the 401 response, or the route's own. */
  function Protected(st: Store, cookie: Option<string>, authorization: Option<string>, verify: string -> Option<Profile>,
                     route: Profile -> (Store, Response)): (r: (Store, Response))
    ensures Authenticate(cookie, authorization, verify).Err? ==>
      r == (st, Authenticate(cookie, authorization, verify).error)
    ensures Authenticate(cookie, authorization, verify).Ok? ==> r == route(Authenticate(cookie, authorization, verify).value)
  {
    match Authenticate(cookie, authorization, verify)
    case Err(resp) => (st, resp)
    case Ok(payload) => route(payload)
  }

  /** With a token that verifies to a payload naming session `id`, `/me` answers what the
      registry holds under `id` and `/unlink` revokes exactly that session. */
  lemma TokenRoutes(st: Store, token: string, payload: Profile, id: string, verify: string -> Option<Profile>)
    requires token != "" && verify(token) == Some(payload)
    requires Get(Obj(payload), "sessionId") == Str(id)
    ensures Protected(st, Some(token), None, verify, p => (st, Me(st, p))) == (st, Ok200(ProfileData(GetProfile(st, id))))
    ensures Protected(st, Some(token), None, verify, p => Unlink(st, p))
         == (RevokeSession(st, id), Response(200, Unlinked, Some(ClearCookie(SESSION_COOKIE))))
  {
    assert Authenticate(Some(token), None, verify) == Ok(payload);
  }

  /** `/me`, `/unlink`, `/me` with one verified token: the store changes only by the
      revocation, and each `/me` reads the registry as it stands. */
  lemma MeUnlinkMe(st: Store, token: string, payload: Profile, id: string, verify: string -> Option<Profile>)
    requires token != "" && verify(token) == Some(payload)
    requires Get(Obj(payload), "sessionId") == Str(id)
    ensures var (st3, me) := Protected(st, Some(token), None, verify, p => (st, Me(st, p)));
      var (st4, _) := Protected(st3, Some(token), None, verify, p => Unlink(st3, p));
      var (_, after) := Protected(st4, Some(token), None, verify, p => (st4, Me(st4, p)));
      && st3 == st && st4 == RevokeSession(st, id)
      && me == Ok200(ProfileData(GetProfile(st, id)))
      && after == Ok200(ProfileData(GetProfile(RevokeSession(st, id), id)))
  {
    TokenRoutes(st, token, payload, id, verify);
    TokenRoutes(RevokeSession(st, id), token, payload, id, verify);
  }

  /** The whole link flow: a code issued by `/link` and entered within five minutes links the
      session and sets its token as the cookie; `/me` with that token shows the linked
      profile; after `/unlink` the same token still passes the middleware, and `/me` answers
      200 with `null`. A second use of the code is refused. */
  lemma LinkMeUnlinkMe(
    st: Store, chatId: Value, chatProfile: Profile, code: string, issuedAt: int, now: int,
    env: SessionEnv, verify: string -> Option<Profile>)
    requires code != "" && Trim(code) == code
    requires issuedAt <= now <= issuedAt + LINK_CODE_TTL_MS
    requires forall p :: env.sign(p) != "" && verify(env.sign(p)) == Some(p)
    ensures var (st1, _) := IssueLinkCode(st, chatId, chatProfile, code, issuedAt);
      var (st2, linked) := LinkTelegram(st1, Obj(map["code" := Str(code)]), now, env);
      var payload := SessionPayload(Redeemed(map["chatId" := chatId] + chatProfile, issuedAt + LINK_CODE_TTL_MS), env.sessionId);
      var token := env.sign(payload);
      var (st3, me) := Protected(st2, Some(token), None, verify, p => (st2, Me(st2, p)));
      var (st4, _) := Protected(st3, Some(token), None, verify, p => Unlink(st3, p));
      var (_, after) := Protected(st4, Some(token), None, verify, p => (st4, Me(st4, p)));
      var (_, again) := LinkTelegram(st4, Obj(map["code" := Str(code)]), now, env);
      && linked == Response(200, Data(ProfileData(Some(payload))), Some(SessionCookie(token, env.production)))
      && me == Ok200(ProfileData(Some(payload["linkedAt" := Str(env.linkedAt)])))
      && after == Ok200(ProfileData(None))
      && again == Error(404, "code_invalid")
  {
    var (st1, _) := IssueLinkCode(st, chatId, chatProfile, code, issuedAt);
    var fields := Redeemed(map["chatId" := chatId] + chatProfile, issuedAt + LINK_CODE_TTL_MS);
    assert code in st1.linkCodes && st1.linkCodes[code] == LinkEntry(fields, issuedAt + LINK_CODE_TTL_MS);
    TrimIdempotent(code);
    CodeRead(code);
    LiveCodeLinks(st1, Obj(map["code" := Str(code)]), code, now, env);
    var (st2, linked) := LinkTelegram(st1, Obj(map["code" := Str(code)]), now, env);
    var payload := SessionPayload(fields, env.sessionId);
    var token := env.sign(payload);
    assert Get(Obj(payload), "sessionId") == Str(env.sessionId);
    MeUnlinkMe(st2, token, payload, env.sessionId, verify);
    var st4 := RevokeSession(st2, env.sessionId);
    assert code !in st4.linkCodes;
    UnknownCodeRefused(st4, Obj(map["code" := Str(code)]), code, now, env);
  }
}

=== FILE: dex_screener.dfy ===
/** Market data normalisation: raw DexScreener token profiles become `Token` records, and the
    highlight lists (top movers, volume leaders, steady gainers) are ranked from them. The HTTP
    request itself is an input: the response body, or the error the request raised. */
module DexScreener {
  import opened Js
  import opened Wrappers
  import opened Sorting

  /** A normalised token. Identity and display fields keep whatever JSON value won the
      fallback chain; the figures went through `safeNumber` and are always finite. */
  datatype Token = Token(
    id: Value,
    name: Value,
    symbol: Value,
    chain: Value,
    priceUsd: real,
    liquidityUsd: real,
    volume24hUsd: real,
    change24h: real,
    createdAt: Value,
    marketCap: real,
    url: Value,
    score: real,
    pools: Value)

  /** The fields tried, in order, for a token's identifier. */
  const ID_KEYS: seq<string> := ["id", "address", "pairAddress", "pairId", "tokenAddress"]

  /** Each highlight list holds at most this many tokens. */
  const HIGHLIGHT_SIZE: nat := 5

  /** `safeNumber(v)`: `Number(v)` with NaN and the infinities replaced by 0. */
  function SafeNumber(v: Value): (r: real)
    ensures ToNumber(v).Finite? ==> r == ToNumber(v).v
    ensures !ToNumber(v).Finite? ==> r == 0.0
  {
    match ToNumber(v)
    case Finite(x) => x
    case _ => 0.0
  }

  /** Figures that arrive as decimal text are read back exactly. */
  lemma SafeNumberReadsIntegerText(n: int)
    ensures SafeNumber(Str(IntToString(n))) == n as real
  {
    IntegerStringToNumber(n);
  }

  /** `token?.a?.b`. */
  function At(t: Value, outer: string, inner: string): Value {
    Get(Get(t, outer), inner)
  }

  /** `token.id || token.address || token.pairAddress || token.pairId || token.tokenAddress || null`. */
  function Identifier(t: Value): Value {
    Or(Get(t, "id"), Or(Get(t, "address"), Or(Get(t, "pairAddress"), Or(Get(t, "pairId"), Or(Get(t, "tokenAddress"), Null)))))
  }

  /** `normalizeToken(token)`. */
  function NormalizeToken(t: Value): Token {
    Token(
      id := Identifier(t),
      name := DisplayName(t),
      symbol := Symbol(t),
      chain := Chain(t),
      priceUsd := SafeNumber(Or(Get(t, "priceUsd"), At(t, "price", "usd"))),
      liquidityUsd := SafeNumber(Or(At(t, "liquidity", "usd"), Get(t, "liquidityUsd"))),
      volume24hUsd := SafeNumber(Or(At(t, "volume", "h24"), Get(t, "volume24hUsd"))),
      change24h := SafeNumber(Or(At(t, "priceChange", "h24"), Get(t, "change24h"))),
      createdAt := Or(Get(t, "createdAt"), Or(Get(t, "listedAt"), Null)),
      marketCap := SafeNumber(Or(At(t, "marketCap", "usd"), Get(t, "marketCapUsd"))),
      url := Or(Get(t, "url"), Or(Get(t, "link"), Null)),
      score := SafeNumber(Or(Get(t, "metaScore"), Get(t, "score"))),
      pools := Pools(t))
  }

  function DisplayName(t: Value): Value {
    Or(Get(t, "name"), Or(At(t, "token", "name"), Str("Unknown")))
  }

  function Symbol(t: Value): Value {
    Or(Get(t, "symbol"), Or(At(t, "token", "symbol"), Str("—")))
  }

  function Chain(t: Value): Value {
    Or(Get(t, "chainId"), Or(Get(t, "chain"), Or(Get(t, "chainType"), Str("unknown"))))
  }

  function Pools(t: Value): Value {
    Or(Get(t, "pools"), Arr([]))
  }

  /** The identifier chain: a token has an identifier exactly when one of `id`, `address`,
      `pairAddress`, `pairId`, `tokenAddress` is truthy; otherwise it is `null`. A truthy `id`
      always wins. */
  lemma IdentifierChain(t: Value)
    ensures Truthy(Identifier(t)) <==> exists i :: 0 <= i < |ID_KEYS| && Truthy(Get(t, ID_KEYS[i]))
    ensures !Truthy(Identifier(t)) ==> Identifier(t) == Null
    ensures Truthy(Get(t, "id")) ==> Identifier(t) == Get(t, "id")
  {
    assert ID_KEYS[0] == "id" && ID_KEYS[1] == "address" && ID_KEYS[2] == "pairAddress";
    assert ID_KEYS[3] == "pairId" && ID_KEYS[4] == "tokenAddress";
    if exists i :: 0 <= i < |ID_KEYS| && Truthy(Get(t, ID_KEYS[i])) {
      var i :| 0 <= i < |ID_KEYS| && Truthy(Get(t, ID_KEYS[i]));
      assert i == 0 || i == 1 || i == 2 || i == 3 || i == 4;
    } else {
      assert !Truthy(Get(t, ID_KEYS[0])) && !Truthy(Get(t, ID_KEYS[1])) && !Truthy(Get(t, ID_KEYS[2]));
      assert !Truthy(Get(t, ID_KEYS[3])) && !Truthy(Get(t, ID_KEYS[4]));
    }
  }

  /** The display fallbacks of a normalised token: name 'Unknown', symbol '—', chain 'unknown',
      pools `[]`, each only when every field tried for it is falsy; a truthy `name` or `pools`
      is kept as it is. */
  lemma DisplayDefaults(t: Value)
    ensures Truthy(Get(t, "name")) ==> DisplayName(t) == Get(t, "name")
    ensures !Truthy(Get(t, "name")) && !Truthy(At(t, "token", "name")) ==> DisplayName(t) == Str("Unknown")
    ensures !Truthy(Get(t, "symbol")) && !Truthy(At(t, "token", "symbol")) ==> Symbol(t) == Str("—")
    ensures !Truthy(Get(t, "chainId")) && !Truthy(Get(t, "chain")) && !Truthy(Get(t, "chainType")) ==> Chain(t) == Str("unknown")
    ensures !Truthy(Get(t, "pools")) ==> Pools(t) == Arr([])
    ensures Truthy(Get(t, "pools")) ==> Pools(t) == Get(t, "pools")
  {
  }

  /** A raw entry survives normalisation when its identifier chain yields a truthy value. */
  predicate Identifiable(e: Value) {
    Truthy(Identifier(e))
  }

  /** `xs.map(f)`. */
  function MapSeq<A, B>(f: A -> B, xs: seq<A>): (ys: seq<B>)
    ensures |ys| == |xs|
    ensures forall i :: 0 <= i < |xs| ==> ys[i] == f(xs[i])
  {
    seq(|xs|, i requires 0 <= i < |xs| => f(xs[i]))
  }

  lemma MapDistributes<A, B>(f: A -> B, a: seq<A>, b: seq<A>)
    ensures MapSeq(f, a + b) == MapSeq(f, a) + MapSeq(f, b)
  {
    var l := MapSeq(f, a + b);
    var r := MapSeq(f, a) + MapSeq(f, b);
    forall k | 0 <= k < |l| ensures l[k] == r[k] {
      if k < |a| {
        assert (a + b)[k] == a[k];
      } else {
        assert (a + b)[k] == b[k - |a|];
      }
    }
  }

  /** `entries.map(normalizeToken)`. */
  function Normalized(entries: seq<Value>): (tokens: seq<Token>)
    ensures |tokens| == |entries|
    ensures forall i :: 0 <= i < |entries| ==> tokens[i] == NormalizeToken(entries[i])
  {
    MapSeq(NormalizeToken, entries)
  }

  /** `.filter((t) => t.id)`: the tokens whose id is truthy, in their order. */
  function WithId(tokens: seq<Token>): (kept: seq<Token>)
    ensures |kept| <= |tokens|
    ensures forall i :: 0 <= i < |kept| ==> Truthy(kept[i].id)
    ensures forall i :: 0 <= i < |tokens| && Truthy(tokens[i].id) ==> tokens[i] in kept
    ensures forall x :: x in kept ==> x in tokens
  {
    if |tokens| == 0 then []
    else
      var rest := WithId(tokens[1..]);
      assert forall i :: 1 <= i < |tokens| ==> tokens[i] == tokens[1..][i - 1];
      if Truthy(tokens[0].id) then [tokens[0]] + rest else rest
  }

  /** Filtering keeps input order: it distributes over concatenation. */
  lemma {:induction false} WithIdDistributes(a: seq<Token>, b: seq<Token>)
    ensures WithId(a + b) == WithId(a) + WithId(b)
  {
    if |a| > 0 {
      assert (a + b)[1..] == a[1..] + b;
      WithIdDistributes(a[1..], b);
    } else {
      assert a + b == b;
    }
  }

  /** `entries.map(normalizeToken).filter((t) => t.id)`. */
  function Identified(entries: seq<Value>): (tokens: seq<Token>)
    ensures |tokens| <= |entries|
    ensures forall i :: 0 <= i < |tokens| ==> Truthy(tokens[i].id)
    ensures forall i :: 0 <= i < |entries| && Identifiable(entries[i]) ==> NormalizeToken(entries[i]) in tokens
    ensures (forall i :: 0 <= i < |entries| ==> !Identifiable(entries[i])) ==> tokens == []
  {
    var all := Normalized(entries);
    var kept := WithId(all);
    assert forall i :: 0 <= i < |entries| ==> (Identifiable(entries[i]) <==> Truthy(all[i].id));
    assert (forall i :: 0 <= i < |entries| ==> !Identifiable(entries[i])) ==> kept == [] by {
      if kept != [] {
        assert kept[0] in all;
      }
    }
    kept
  }

  /** Every kept token is the normalisation of some entry. */
  lemma IdentifiedFromEntries(entries: seq<Value>, x: Token)
    requires x in Identified(entries)
    ensures exists i :: 0 <= i < |entries| && x == NormalizeToken(entries[i])
  {
    var all := Normalized(entries);
    assert x in all;
    var i :| 0 <= i < |all| && all[i] == x;
    assert x == NormalizeToken(entries[i]);
  }

  /** Normalising and filtering keep input order: both distribute over concatenation. */
  lemma IdentifiedDistributes(a: seq<Value>, b: seq<Value>)
    ensures Identified(a + b) == Identified(a) + Identified(b)
  {
    MapDistributes(NormalizeToken, a, b);
    WithIdDistributes(Normalized(a), Normalized(b));
  }

  /** `Array.isArray(payload?.data) ? payload.data : Array.isArray(payload?.profiles) ? payload.profiles : []`. */
  function Entries(payload: Value): (entries: seq<Value>)
    ensures Get(payload, "data").Arr? ==> entries == Get(payload, "data").items
    ensures !Get(payload, "data").Arr? && Get(payload, "profiles").Arr? ==> entries == Get(payload, "profiles").items
    ensures !Get(payload, "data").Arr? && !Get(payload, "profiles").Arr? ==> entries == []
  {
    var data := Get(payload, "data");
    var profiles := Get(payload, "profiles");
    if data.Arr? then data.items else if profiles.Arr? then profiles.items else []
  }

  // ---------------------------------------------------------------------------------------
  // Highlights

  /** The sort keys of `buildHighlights`. Each list is an ascending sort on its key: the
      comparator `b.x - a.x` sorts by `-x`, and `a.x - b.x` by `x`. */
  function ChangeDesc(t: Token): real {
    -t.change24h
  }

  function VolumeDesc(t: Token): real {
    -t.volume24hUsd
  }

  function ChangeAsc(t: Token): real {
    t.change24h
  }

  predicate Steady(t: Token) {
    t.change24h >= 0.0 && t.volume24hUsd > 0.0
  }

  /** `[...tokens].filter(steady)`. */
  function SteadyOnly(s: seq<Token>): (r: seq<Token>)
    ensures forall i :: 0 <= i < |r| ==> Steady(r[i])
    ensures multiset(r) <= multiset(s)
    ensures forall x :: x in s && Steady(x) ==> x in r
    ensures forall x :: multiset(r)[x] == (if Steady(x) then multiset(s)[x] else 0)
  {
    if |s| == 0 then []
    else
      assert s == [s[0]] + s[1..];
      if Steady(s[0]) then [s[0]] + SteadyOnly(s[1..]) else SteadyOnly(s[1..])
  }

  datatype Highlights = Highlights(movers: seq<Token>, volumeLeaders: seq<Token>, steadyGainers: seq<Token>)

  /** `buildHighlights(tokens)`. Each list sorts its own copy, so the input is left as it was. */
  function BuildHighlights(tokens: seq<Token>): Highlights {
    Highlights(Movers(tokens), VolumeLeaders(tokens), SteadyGainers(tokens))
  }

  /** `topMovers`: the five largest 24h changes, largest first. The filter
      `change24h !== null && change24h !== undefined` keeps every normalised token, whose
      `change24h` is always a number. */
  function Movers(tokens: seq<Token>): (r: seq<Token>)
    ensures |r| == Min(HIGHLIGHT_SIZE, |tokens|)
    ensures multiset(r) <= multiset(tokens)
    ensures forall i, j :: 0 <= i < j < |r| ==> r[i].change24h >= r[j].change24h
  {
    var r := Top(tokens, ChangeDesc, HIGHLIGHT_SIZE);
    assert forall i, j :: 0 <= i < j < |r| ==> ChangeDesc(r[i]) <= ChangeDesc(r[j]);
    r
  }

  /** `volumeLeaders`: the five largest 24h volumes, largest first. */
  function VolumeLeaders(tokens: seq<Token>): (r: seq<Token>)
    ensures |r| == Min(HIGHLIGHT_SIZE, |tokens|)
    ensures multiset(r) <= multiset(tokens)
    ensures forall i, j :: 0 <= i < j < |r| ==> r[i].volume24hUsd >= r[j].volume24hUsd
  {
    var r := Top(tokens, VolumeDesc, HIGHLIGHT_SIZE);
    assert forall i, j :: 0 <= i < j < |r| ==> VolumeDesc(r[i]) <= VolumeDesc(r[j]);
    r
  }

  /** `steadyGainers`: among tokens with a non-negative change and positive volume, the five
      smallest changes, smallest first. */
  function SteadyGainers(tokens: seq<Token>): (r: seq<Token>)
    ensures |r| == Min(HIGHLIGHT_SIZE, |SteadyOnly(tokens)|)
    ensures multiset(r) <= multiset(tokens)
    ensures forall i :: 0 <= i < |r| ==> Steady(r[i])
    ensures forall i, j :: 0 <= i < j < |r| ==> r[i].change24h <= r[j].change24h
  {
    var steady := SteadyOnly(tokens);
    var r := Top(steady, ChangeAsc, HIGHLIGHT_SIZE);
    assert forall i, j :: 0 <= i < j < |r| ==> ChangeAsc(r[i]) <= ChangeAsc(r[j]);
    AllSteady(steady, r);
    r
  }

  lemma AllSteady(steady: seq<Token>, r: seq<Token>)
    requires forall i :: 0 <= i < |steady| ==> Steady(steady[i])
    requires multiset(r) <= multiset(steady)
    ensures forall i :: 0 <= i < |r| ==> Steady(r[i])
  {
    forall i | 0 <= i < |r| ensures Steady(r[i]) {
      assert r[i] in multiset(steady);
      assert r[i] in steady;
    }
  }

  /** A token left out of the movers has a 24h change no larger than any mover's. */
  lemma MoversAreTopChanges(tokens: seq<Token>, x: Token, i: int)
    requires x in multiset(tokens) - multiset(Movers(tokens))
    requires 0 <= i < |Movers(tokens)|
    ensures x.change24h <= Movers(tokens)[i].change24h
  {
    TopLeavesNoBetter(tokens, ChangeDesc, HIGHLIGHT_SIZE, x, i);
  }

  /** A token left out of the volume leaders has a 24h volume no larger than any leader's. */
  lemma VolumeLeadersAreTopVolumes(tokens: seq<Token>, x: Token, i: int)
    requires x in multiset(tokens) - multiset(VolumeLeaders(tokens))
    requires 0 <= i < |VolumeLeaders(tokens)|
    ensures x.volume24hUsd <= VolumeLeaders(tokens)[i].volume24hUsd
  {
    TopLeavesNoBetter(tokens, VolumeDesc, HIGHLIGHT_SIZE, x, i);
  }

  /** Steady gainers are the smallest steady gains: a steady token left out has a change at
      least as large as every one kept. */
  lemma SteadyGainersAreSmallestGains(tokens: seq<Token>, x: Token, i: int)
    requires x in tokens && Steady(x)
    requires x !in SteadyGainers(tokens)
    requires 0 <= i < |SteadyGainers(tokens)|
    ensures SteadyGainers(tokens)[i].change24h <= x.change24h
  {
    var steady := SteadyOnly(tokens);
    var g := Top(steady, ChangeAsc, HIGHLIGHT_SIZE);
    assert x in multiset(steady);
    assert x !in multiset(g);
    TopLeavesNoBetter(steady, ChangeAsc, HIGHLIGHT_SIZE, x, i);
  }

  /** The result of `fetchLatestProfiles()`. */
  datatype Profiles = Profiles(tokens: seq<Token>, highlights: Highlights, sourceTimestamp: string)

  /** `fetchLatestProfiles()` given the outcome of the HTTP request (the response body or the
      error raised) and the current time as an ISO text. */
  function FetchLatestProfiles(response: Result<Value, Thrown>, now: string): (r: Result<Profiles, Thrown>)
    ensures response.Err? ==> r == Err(response.error)
    ensures response.Ok? ==> r.Ok? && r.value.sourceTimestamp == now
    ensures response.Ok? ==> r.value.tokens == Identified(Entries(Or(response.value, Obj(map[]))))
    ensures response.Ok? ==> r.value.highlights == BuildHighlights(r.value.tokens)
  {
    match response
    case Err(e) => Err(e)
    case Ok(data) =>
      var tokens := Identified(Entries(Or(data, Obj(map[]))));
      Ok(Profiles(tokens, BuildHighlights(tokens), now))
  }

  /** The example of tokens A(+10%, $100), B(+5%, $500), C(-2%, $50): movers A, B, C. */
  lemma MoversExample(a: Token, b: Token, c: Token)
    requires a.change24h == 10.0 && b.change24h == 5.0 && c.change24h == -2.0
    ensures Movers([a, b, c]) == [a, b, c]
  {
    SortKeepsThree(a, b, c, ChangeDesc);
    TopOfFew([a, b, c], ChangeDesc, HIGHLIGHT_SIZE);
  }

  /** The same example: volume leaders B, A, C. */
  lemma VolumeLeadersExample(a: Token, b: Token, c: Token)
    requires a.volume24hUsd == 100.0 && b.volume24hUsd == 500.0 && c.volume24hUsd == 50.0
    ensures VolumeLeaders([a, b, c]) == [b, a, c]
  {
    SortMovesSecond(a, b, c, VolumeDesc);
    TopOfFew([a, b, c], VolumeDesc, HIGHLIGHT_SIZE);
  }

  /** The same example: C's loss rules it out, and the steady gainers are B, A. */
  lemma SteadyGainersExample(a: Token, b: Token, c: Token)
    requires a.change24h == 10.0 && a.volume24hUsd == 100.0
    requires b.change24h == 5.0 && b.volume24hUsd == 500.0
    requires c.change24h == -2.0
    ensures SteadyGainers([a, b, c]) == [b, a]
  {
    SteadyFilterExample(a, b, c);
    SortSwapsPair(a, b, ChangeAsc);
    TopOfFew([a, b], ChangeAsc, HIGHLIGHT_SIZE);
  }

  lemma SteadyFilterExample(a: Token, b: Token, c: Token)
    requires Steady(a) && Steady(b) && !Steady(c)
    ensures SteadyOnly([a, b, c]) == [a, b]
  {
    var abc := [a, b, c];
    SteadyStep(abc);
    SteadyStep(abc[1..]);
    SteadyStep(abc[2..]);
    assert abc[1..][1..] == abc[2..] == [c];
    assert abc[2..][1..] == [];
  }

  lemma SteadyStep(s: seq<Token>)
    requires |s| > 0
    ensures SteadyOnly(s) == (if Steady(s[0]) then [s[0]] else []) + SteadyOnly(s[1..])
  {
  }
}

=== FILE: js.dfy ===
/** The part of JavaScript's value semantics the backend depends on: truthiness and `||`,
    optional property access, `Number(…)` coercion, string conversion in template literals,
    `Array.prototype.join`, `String.prototype.trim` and `replace` with a string pattern.
    A `string` is a sequence of UTF-16 code units, one `char` each. */
module Js {
  import opened Wrappers

  /** A JavaScript number. Finite values are exact reals: rounding to doubles is not modelled. */
  datatype Number = Finite(v: real) | NaN | PosInfinity | NegInfinity

  /** A JavaScript value as it arrives from JSON or is built by the backend. */
  datatype Value =
    | Undefined
    | Null
    | Bool(b: bool)
    | Num(n: Number)
    | Str(s: string)
    | Arr(items: seq<Value>)
    | Obj(fields: map<string, Value>)

  /** A thrown exception: `new Error(message)` or a runtime TypeError. */
  datatype Thrown = Error(message: string) | TypeError(message: string)

  /** `Boolean(v)`: a number is falsy only when it is zero or NaN, so both infinities are
      truthy. */
  predicate Truthy(v: Value) {
    match v
    case Undefined => false
    case Null => false
    case Bool(b) => b
    case Num(n) => !n.NaN? && n != Finite(0.0)
    case Str(s) => s != ""
    case Arr(_) => true
    case Obj(_) => true
  }

  /** `a || b`. */
  function Or(a: Value, b: Value): Value {
    if Truthy(a) then a else b
  }

  /** `v?.[key]`: the own property `key` of an object, `undefined` for anything else. */
  function Get(v: Value, key: string): (r: Value)
    ensures !v.Obj? ==> r == Undefined
    ensures v.Obj? && key !in v.fields ==> r == Undefined
  {
    if v.Obj? && key in v.fields then v.fields[key] else Undefined
  }

  /** `v?.[0]`: the first element of an array, the first code unit of a string, an object's
      property "0", and `undefined` otherwise. */
  function Index0(v: Value): Value {
    match v
    case Arr(items) => if |items| > 0 then items[0] else Undefined
    case Str(s) => if |s| > 0 then Str([s[0]]) else Undefined
    case Obj(m) => if "0" in m then m["0"] else Undefined
    case _ => Undefined
  }

  // ---------------------------------------------------------------------------------------
  // trim

  /** The code units `String.prototype.trim` removes (WhiteSpace and LineTerminator). */
  predicate IsSpace(c: char) {
    || c == '\t' || c == '\n' || c == '\U{000B}' || c == '\U{000C}' || c == '\r' || c == ' '
    || c == '\U{00A0}' || c == '\U{1680}' || ('\U{2000}' <= c <= '\U{200A}')
    || c == '\U{2028}' || c == '\U{2029}' || c == '\U{202F}' || c == '\U{205F}'
    || c == '\U{3000}' || c == '\U{FEFF}'
  }

  predicate AllSpace(s: string) {
    forall i :: 0 <= i < |s| ==> IsSpace(s[i])
  }

  function TrimStart(s: string): (r: string)
    ensures |r| <= |s| && r == s[|s| - |r|..]
    ensures forall i :: 0 <= i < |s| - |r| ==> IsSpace(s[i])
    ensures |r| > 0 ==> !IsSpace(r[0])
  {
    if |s| > 0 && IsSpace(s[0]) then TrimStart(s[1..]) else s
  }

  function TrimEnd(s: string): (r: string)
    ensures |r| <= |s| && r == s[..|r|]
    ensures forall i :: |r| <= i < |s| ==> IsSpace(s[i])
    ensures |r| > 0 ==> !IsSpace(r[|r| - 1])
  {
    if |s| > 0 && IsSpace(s[|s| - 1]) then TrimEnd(s[..|s| - 1]) else s
  }

  /** `r` sits in `s` at offset `i`. */
  predicate InfixAt(s: string, r: string, i: int) {
    0 <= i <= |s| - |r| && r == s[i..i + |r|]
  }

  /** `s.trim()`: the infix of `s` left after removing leading and trailing white space. */
  function Trim(s: string): (r: string)
    ensures exists i :: InfixAt(s, r, i)
    ensures |r| > 0 ==> !IsSpace(r[0]) && !IsSpace(r[|r| - 1])
    ensures r == "" <==> AllSpace(s)
  {
    var t := TrimStart(s);
    var r := TrimEnd(t);
    TrimEmptyOnlyIfBlank(s);
    TrimEnds(s);
    TrimInfix(s);
    r
  }

  lemma TrimEmptyOnlyIfBlank(s: string)
    ensures TrimEnd(TrimStart(s)) == "" <==> AllSpace(s)
  {
    var t := TrimStart(s);
    var r := TrimEnd(t);
    var i := |s| - |t|;
    assert |r| > 0 ==> r[0] == s[i];
    assert r == "" ==> |t| == 0;
  }

  lemma TrimInfix(s: string)
    ensures InfixAt(s, TrimEnd(TrimStart(s)), |s| - |TrimStart(s)|)
  {
    var t := TrimStart(s);
    var r := TrimEnd(t);
    var i := |s| - |t|;
    SliceOfSuffix(s, i, |r|);
  }

  lemma SliceOfSuffix(s: string, i: nat, n: nat)
    requires i + n <= |s|
    ensures s[i..][..n] == s[i..i + n]
  {
  }

  lemma TrimEnds(s: string)
    ensures var r := TrimEnd(TrimStart(s)); |r| > 0 ==> !IsSpace(r[0]) && !IsSpace(r[|r| - 1])
  {
    var t := TrimStart(s);
    var r := TrimEnd(t);
    assert |r| > 0 ==> r[0] == t[0];
  }

  /** `!s.trim()`: the string is empty or consists of white space only. */
  predicate Blank(s: string) {
    Trim(s) == ""
  }

  /** `pat` occurs somewhere in `s`. */
  predicate Occurs(s: string, pat: string)
    decreases |s|
  {
    |s| >= |pat| && (s[..|pat|] == pat || (|s| > 0 && Occurs(s[1..], pat)))
  }

  /** `pat` sits in `s` at offset `j`. */
  predicate At(s: string, pat: string, j: int) {
    0 <= j && j + |pat| <= |s| && s[j..j + |pat|] == pat
  }

  /** `s.indexOf(pat)` for a non-empty pattern, with `|s|` standing for -1: the offset of the
      first occurrence of `pat`. */
  function Find(s: string, pat: string): (k: nat)
    requires |pat| > 0
    ensures k <= |s|
    ensures k < |s| ==> At(s, pat, k)
    ensures forall j :: 0 <= j < k ==> !At(s, pat, j)
    ensures k == |s| <==> !Occurs(s, pat)
    decreases |s|
  {
    if |s| < |pat| then |s|
    else if s[..|pat|] == pat then 0
    else
      AtShift(s, pat);
      1 + Find(s[1..], pat)
  }

  /** An occurrence past the first unit of `s` is an occurrence in `s[1..]`. */
  lemma AtShift(s: string, pat: string)
    requires |s| > 0
    ensures forall j :: 0 < j ==> (At(s, pat, j) <==> At(s[1..], pat, j - 1))
  {
    forall j | 0 < j ensures At(s, pat, j) <==> At(s[1..], pat, j - 1) {
      if j + |pat| <= |s| {
        var t := s[1..];
        var a := s[j..j + |pat|];
        var b := t[j - 1..j - 1 + |pat|];
        assert forall m :: 0 <= m < |pat| ==> a[m] == b[m];
        assert a == b;
      }
    }
  }

  /** `s.replace(pat, rep)` with a string pattern: only the first occurrence is replaced. */
  function ReplaceFirst(s: string, pat: string, rep: string): (r: string)
    requires |pat| > 0
    ensures !Occurs(s, pat) ==> r == s
    ensures |s| >= |pat| && s[..|pat|] == pat ==> r == rep + s[|pat|..]
    ensures Occurs(s, pat) ==> exists k :: && At(s, pat, k)
                                       && (forall j :: 0 <= j < k ==> !At(s, pat, j))
                                       && r == s[..k] + rep + s[k + |pat|..]
  {
    var k := Find(s, pat);
    if k < |s| then
      assert !At(s, pat, 0) ==> s[..|pat|] != pat;
      s[..k] + rep + s[k + |pat|..]
    else s
  }

  /** The first occurrence is replaced wherever it is: `"xBearer t".replace("Bearer ", "")` is
      `"xt"`. */
  lemma ReplaceInside()
    ensures ReplaceFirst("xBearer t", "Bearer ", "") == "xt"
  {
    var s, pat := "xBearer t", "Bearer ";
    assert s[..7][0] == 'x';
    assert s[1..] == "Bearer t" && s[1..][..7] == pat;
    assert Find(s[1..], pat) == 0;
    assert Find(s, pat) == 1;
    assert s[..1] == "x" && s[8..] == "t";
  }

  // ---------------------------------------------------------------------------------------
  // Decimal digits

  predicate IsDigit(c: char) {
    '0' <= c <= '9'
  }

  predicate AllDigits(s: string) {
    forall i :: 0 <= i < |s| ==> IsDigit(s[i])
  }

  function DigitChar(d: nat): (c: char)
    requires d < 10
    ensures IsDigit(c) && c as int - '0' as int == d
  {
    ('0' as int + d) as char
  }

  /** The value of a string of decimal digits. */
  function DigitsValue(s: string): nat
    requires AllDigits(s)
  {
    if |s| == 0 then 0 else DigitsValue(s[..|s| - 1]) * 10 + (s[|s| - 1] as int - '0' as int)
  }

  /** The shortest decimal numeral of `n`. */
  function NatToString(n: nat): (r: string)
    ensures |r| > 0 && AllDigits(r)
    ensures r[0] == '0' ==> n == 0
  {
    if n < 10 then [DigitChar(n)] else NatToString(n / 10) + [DigitChar(n % 10)]
  }

  lemma {:induction false} NatToStringRoundTrip(n: nat)
    ensures DigitsValue(NatToString(n)) == n
  {
    if n >= 10 {
      var s := NatToString(n);
      NatToStringRoundTrip(n / 10);
      assert s[..|s| - 1] == NatToString(n / 10);
    }
  }

  function IntToString(n: int): (r: string)
    ensures |r| > 0
  {
    if n < 0 then "-" + NatToString(-n) else NatToString(n)
  }

  // ---------------------------------------------------------------------------------------
  // Number(…)

  function Negate(n: Number): Number {
    match n
    case Finite(v) => Finite(-v)
    case NaN => NaN
    case PosInfinity => NegInfinity
    case NegInfinity => PosInfinity
  }

  function Pow10(k: nat): (r: nat)
    ensures r > 0
  {
    if k == 0 then 1 else 10 * Pow10(k - 1)
  }

  function IndexOf(s: string, c: char): (k: nat)
    ensures k <= |s|
    ensures k < |s| ==> s[k] == c
    ensures forall i :: 0 <= i < k ==> s[i] != c
  {
    if |s| == 0 then 0 else if s[0] == c then 0 else 1 + IndexOf(s[1..], c)
  }

  /** An unsigned decimal literal `ddd`, `ddd.ddd`, `ddd.` or `.ddd`, with at least one digit. */
  function DecimalLiteral(t: string): Number {
    var k := IndexOf(t, '.');
    var whole := t[..k];
    var frac := if k < |t| then t[k + 1..] else "";
    if AllDigits(whole) && AllDigits(frac) && |whole| + |frac| > 0 then Finite(DecimalValue(whole, frac))
    else NaN
  }

  /** The value of the literal `whole.frac`. */
  function DecimalValue(whole: string, frac: string): real
    requires AllDigits(whole) && AllDigits(frac)
  {
    DigitsValue(whole) as real + DigitsValue(frac) as real / Pow10(|frac|) as real
  }

  /** `Number(s)` for a string: white space is trimmed, the empty string is 0. */
  function StringToNumber(s: string): Number {
    var t := Trim(s);
    if t == "" then Finite(0.0)
    else if t == "Infinity" || t == "+Infinity" then PosInfinity
    else if t == "-Infinity" then NegInfinity
    else if t[0] == '-' then Negate(DecimalLiteral(t[1..]))
    else if t[0] == '+' then DecimalLiteral(t[1..])
    else DecimalLiteral(t)
  }

  /** `Number(v)`. An array converts through its string form: `[]` is 0, `[x]` is `Number(String(x))`,
      and two or more elements always contain a comma, which is NaN. */
  function ToNumber(v: Value): Number
    decreases v, 0
  {
    match v
    case Undefined => NaN
    case Null => Finite(0.0)
    case Bool(b) => if b then Finite(1.0) else Finite(0.0)
    case Num(n) => n
    case Str(s) => StringToNumber(s)
    case Arr(items) => if |items| == 0 then Finite(0.0) else if |items| == 1 then ElementToNumber(items[0]) else NaN
    case Obj(_) => NaN
  }

  /** `Number(String(x))` for an array element `x`. */
  function ElementToNumber(x: Value): Number
    decreases x, 1
  {
    match x
    case Undefined => Finite(0.0)
    case Null => Finite(0.0)
    case Bool(_) => NaN
    case Obj(_) => NaN
    case _ => ToNumber(x)
  }

  /** A text with no white space at either end is its own trim. */
  lemma TrimUnpadded(s: string)
    requires |s| > 0 && !IsSpace(s[0]) && !IsSpace(s[|s| - 1])
    ensures Trim(s) == s
  {
    assert TrimStart(s) == s;
    assert TrimEnd(s) == s;
  }

  /** Trimming twice trims nothing more. */
  lemma TrimIdempotent(s: string)
    ensures Trim(Trim(s)) == Trim(s)
  {
    var r := Trim(s);
    if |r| > 0 {
      TrimUnpadded(r);
    } else {
      assert AllSpace(r);
    }
  }

  /** `Number(d)` for a text that starts with a digit and ends with no white space. */
  lemma UnsignedLiteral(d: string)
    requires |d| > 0 && IsDigit(d[0]) && !IsSpace(d[|d| - 1])
    ensures StringToNumber(d) == DecimalLiteral(d)
  {
    TrimUnpadded(d);
  }

  /** `Number('-' + d)` for a text `d` that starts with a digit and ends with no white space. */
  lemma NegativeLiteral(d: string)
    requires |d| > 0 && IsDigit(d[0]) && !IsSpace(d[|d| - 1])
    ensures StringToNumber("-" + d) == Negate(DecimalLiteral(d))
  {
    var s := "-" + d;
    TrimUnpadded(s);
    assert s[1..] == d;
    assert s[1] == d[0];
    assert s != "-Infinity";
  }

  /** Converting an integer to its decimal text and back with `Number(…)` gives the integer. */
  lemma IntegerStringToNumber(n: int)
    ensures StringToNumber(IntToString(n)) == Finite(n as real)
  {
    var s := IntToString(n);
    var d := if n < 0 then -n else n;
    var ds := NatToString(d);
    UnpaddedNumeral(n);
    NaturalLiteral(d);
    assert IsDigit(ds[0]);
    if n < 0 {
      assert s == "-" + ds;
      assert s[1..] == ds;
      assert s[0] == '-' && s != "Infinity" && s != "+Infinity";
      assert s[1] != 'I';
      assert StringToNumber(s) == Negate(DecimalLiteral(ds));
    } else {
      assert s == ds;
      assert s[0] != '-' && s[0] != '+' && s[0] != 'I';
      assert StringToNumber(s) == DecimalLiteral(ds);
    }
  }

  lemma UnpaddedNumeral(n: int)
    ensures Trim(IntToString(n)) == IntToString(n)
  {
    var s := IntToString(n);
    var ds := NatToString(if n < 0 then -n else n);
    assert IsDigit(ds[0]) && IsDigit(ds[|ds| - 1]);
    if n < 0 {
      assert s == "-" + ds;
      assert s[0] == '-' && s[|s| - 1] == ds[|ds| - 1];
    } else {
      assert s == ds;
    }
    TrimUnpadded(s);
  }

  lemma NaturalLiteral(d: nat)
    ensures DecimalLiteral(NatToString(d)) == Finite(d as real)
  {
    var ds := NatToString(d);
    NatToStringRoundTrip(d);
    assert IndexOf(ds, '.') == |ds|;
    assert ds[..|ds|] == ds;
  }

  // ---------------------------------------------------------------------------------------
  // String(…)

  /** `String(n)` in plain decimal notation: integral values print without a fraction, others
      with their decimal expansion (at most 20 fraction digits). JavaScript agrees for
      1e-6 <= |n| < 1e21 up to double rounding; outside that range it uses exponent notation,
      which is not modelled. */
  function NumberText(n: Number): string {
    match n
    case NaN => "NaN"
    case PosInfinity => "Infinity"
    case NegInfinity => "-Infinity"
    case Finite(v) => if v < 0.0 then "-" + Magnitude(-v) else Magnitude(v)
  }

  function Magnitude(x: real): string
    requires x >= 0.0
  {
    var whole := x.Floor;
    var frac := x - whole as real;
    NatToString(whole) + (if frac == 0.0 then "" else "." + FractionDigits(frac, 20))
  }

  function FractionDigits(f: real, fuel: nat): string
    requires 0.0 <= f < 1.0
    decreases fuel
  {
    if fuel == 0 || f == 0.0 then ""
    else
      var d := (f * 10.0).Floor;
      [DigitChar(d)] + FractionDigits(f * 10.0 - d as real, fuel - 1)
  }

  /** `String(v)`, as in a template literal `${v}`. */
  function Display(v: Value): string
    decreases v, 1
  {
    match v
    case Undefined => "undefined"
    case Null => "null"
    case Bool(b) => if b then "true" else "false"
    case Num(n) => NumberText(n)
    case Str(s) => s
    case Arr(items) => JoinValues(items, ",")
    case Obj(_) => "[object Object]"
  }

  /** `items.join(sep)`: `null` and `undefined` elements print as the empty string. */
  function JoinValues(items: seq<Value>, sep: string): string
    decreases items, 0
  {
    if |items| == 0 then ""
    else
      var head := if items[0].Undefined? || items[0].Null? then "" else Display(items[0]);
      if |items| == 1 then head else head + sep + JoinValues(items[1..], sep)
  }

  // ---------------------------------------------------------------------------------------
  // Lines

  /** `parts.join(sep)` for strings. */
  function Join(parts: seq<string>, sep: string): string {
    if |parts| == 0 then ""
    else if |parts| == 1 then parts[0]
    else parts[0] + sep + Join(parts[1..], sep)
  }

  /** `s.split(c)`. */
  function Split(s: string, c: char): (r: seq<string>)
    ensures |r| > 0
  {
    var k := IndexOf(s, c);
    if k == |s| then [s] else [s[..k]] + Split(s[k + 1..], c)
  }

  predicate Excludes(s: string, c: char) {
    forall i :: 0 <= i < |s| ==> s[i] != c
  }

  /** `Excludes` is non-membership. */
  lemma ExcludesMember(s: string, c: char)
    ensures Excludes(s, c) <==> c !in s
  {
    if c in s {
      var i :| 0 <= i < |s| && s[i] == c;
    }
  }

  /** Joining one more part adds a separator and the part. */
  lemma {:induction false} JoinAppend(parts: seq<string>, last: string, c: char)
    requires |parts| > 0
    ensures Join(parts + [last], [c]) == Join(parts, [c]) + [c] + last
  {
    if |parts| == 1 {
      assert (parts + [last])[1..] == [last];
    } else {
      assert (parts + [last])[1..] == parts[1..] + [last];
      JoinAppend(parts[1..], last, c);
    }
  }

  /** Joining two non-empty runs of parts is joining each and putting a separator between. */
  lemma {:induction false} JoinConcat(a: seq<string>, b: seq<string>, c: char)
    requires |a| > 0 && |b| > 0
    ensures Join(a + b, [c]) == Join(a, [c]) + [c] + Join(b, [c])
  {
    if |a| == 1 {
      assert (a + b)[1..] == b;
    } else {
      assert (a + b)[1..] == a[1..] + b;
      JoinConcat(a[1..], b, c);
    }
  }

  /** Splitting a joined text at the separator gives back the parts, as long as no part
      contains the separator and there is at least one part. */
  lemma {:induction false} SplitJoin(parts: seq<string>, c: char)
    requires |parts| > 0
    requires forall i :: 0 <= i < |parts| ==> Excludes(parts[i], c)
    ensures Split(Join(parts, [c]), c) == parts
  {
    var s := Join(parts, [c]);
    if |parts| == 1 {
      assert IndexOf(s, c) == |s|;
    } else {
      var p := parts[0];
      var rest := [c] + Join(parts[1..], [c]);
      assert s == p + rest;
      IndexOfPrefix(p, c, rest);
      assert s[..|p|] == p;
      assert s[|p| + 1..] == Join(parts[1..], [c]);
      SplitJoin(parts[1..], c);
    }
  }

  lemma {:induction false} IndexOfPrefix(p: string, c: char, rest: string)
    requires Excludes(p, c) && |rest| > 0 && rest[0] == c
    ensures IndexOf(p + rest, c) == |p|
  {
    if |p| > 0 {
      assert (p + rest)[1..] == p[1..] + rest;
      IndexOfPrefix(p[1..], c, rest);
    } else {
      assert p + rest == rest;
    }
  }
}

=== FILE: number_format.dfy ===
/** The two number renderings the prompt uses: `Number.prototype.toFixed(f)` and
    `toLocaleString('en-US', { maximumFractionDigits: 0 })`, on exact values. */
module NumberFormat {
  import opened Js

  /** The integer nearest to `x`, ties going up (toFixed picks the larger of two equally near
      integers; Intl's default `halfExpand` rounds ties away from zero, which is the same for
      `x >= 0`). */
  function RoundHalfUp(x: real): (n: nat)
    requires x >= 0.0
    ensures n as real - 0.5 <= x < n as real + 0.5
  {
    (x + 0.5).Floor
  }

  function Zeros(k: nat): (z: string)
    ensures |z| == k && AllDigits(z)
    ensures forall i :: 0 <= i < k ==> z[i] == '0'
  {
    if k == 0 then "" else "0" + Zeros(k - 1)
  }

  /** The decimal digits of `n`, padded with zeros to more than `f` digits. */
  function Padded(n: nat, f: nat): string {
    var m := NatToString(n);
    if |m| <= f then Zeros(f + 1 - |m|) + m else m
  }

  /** The digits of `n / 10^f` with a decimal point before the last `f` digits, padded with
      zeros so that at least one digit stands before the point. */
  function FixedDigits(n: nat, f: nat): string {
    if f == 0 then NatToString(n)
    else
      var padded := Padded(n, f);
      padded[..|padded| - f] + "." + padded[|padded| - f..]
  }

  const TO_FIXED_LIMIT: real := 1000000000000000000000.0

  /** `x.toFixed(f)`: a negative `x` prints as '-' followed by its magnitude (so a small
      negative value can print as '-0.00'). */
  function ToFixed(x: real, f: nat): string {
    Signed(x < 0.0, FixedMagnitude(Abs(x), f))
  }

  function Abs(x: real): (a: real)
    ensures a >= 0.0
  {
    if x < 0.0 then -x else x
  }

  /** `digits` behind a minus sign when `negative` holds. */
  function Signed(negative: bool, digits: string): string {
    if negative then "-" + digits else digits
  }

  /** `toFixed` of a non-negative value: rounded to `f` decimals below 1e21, the plain
      `String(a)` form from there on. */
  function FixedMagnitude(a: real, f: nat): string
    requires a >= 0.0
  {
    if a >= TO_FIXED_LIMIT then Magnitude(a) else FixedDigits(RoundHalfUp(Scaled(a, f)), f)
  }

  /** `a * 10^f`. */
  function Scaled(a: real, f: nat): (r: real)
    requires a >= 0.0
    ensures r >= 0.0
  {
    a * Pow10(f) as real
  }

  /** `s` with every `c` removed. */
  function Strip(s: string, c: char): (r: string)
    ensures Excludes(r, c)
  {
    if |s| == 0 then "" else (if s[0] == c then "" else [s[0]]) + Strip(s[1..], c)
  }

  /** Digit grouping of the `en-US` locale: a comma before every third digit from the right. */
  function Group(d: string): string
    decreases |d|
  {
    if |d| <= 3 then d else Group(d[..|d| - 3]) + "," + d[|d| - 3..]
  }

  /** `x.toLocaleString('en-US', { maximumFractionDigits: 0 })`: the nearest integer, grouped by
      thousands; a negative `x` keeps its sign even when it rounds to zero. */
  function LocaleInteger(x: real): string {
    var sign := if x < 0.0 then "-" else "";
    var a := if x < 0.0 then -x else x;
    sign + Group(NatToString(RoundHalfUp(a)))
  }

  // ---------------------------------------------------------------------------------------
  // Read-back properties

  /** The value of digits is the value of their two halves. */
  lemma {:induction false} DigitsConcat(a: string, b: string)
    requires AllDigits(a) && AllDigits(b)
    ensures AllDigits(a + b)
    ensures DigitsValue(a + b) == DigitsValue(a) * Pow10(|b|) + DigitsValue(b)
    decreases |b|
  {
    var ab := a + b;
    if |b| == 0 {
      assert ab == a;
    } else {
      var b' := b[..|b| - 1];
      forall i | 0 <= i < |b'| ensures IsDigit(b'[i]) {
        assert b'[i] == b[i];
      }
      DigitsConcat(a, b');
      assert ab[..|ab| - 1] == a + b';
      assert ab[|ab| - 1] == b[|b| - 1];
      var d := b[|b| - 1] as int - '0' as int;
      assert DigitsValue(ab) == DigitsValue(a + b') * 10 + d;
      assert DigitsValue(b) == DigitsValue(b') * 10 + d;
      assert Pow10(|b|) == 10 * Pow10(|b'|);
      ShiftDigit(DigitsValue(a), Pow10(|b'|), DigitsValue(b'), d);
    }
  }

  lemma ShiftDigit(x: int, p: int, y: int, d: int)
    ensures (x * p + y) * 10 + d == x * (10 * p) + (y * 10 + d)
  {
  }

  /** Leading zeros do not change the value. */
  lemma {:induction false} ZerosValue(k: nat)
    ensures DigitsValue(Zeros(k)) == 0
  {
    if k > 0 {
      var z := Zeros(k);
      assert z[..k - 1] == Zeros(k - 1);
      ZerosValue(k - 1);
    }
  }

  lemma PaddedDigits(n: nat, f: nat)
    ensures var p := Padded(n, f);
      AllDigits(p) && DigitsValue(p) == n && |p| >= f + 1
  {
    var m := NatToString(n);
    NatToStringRoundTrip(n);
    if |m| <= f {
      var z := Zeros(f + 1 - |m|);
      ZerosValue(f + 1 - |m|);
      DigitsConcat(z, m);
      assert DigitsValue(z) * Pow10(|m|) == 0;
      assert Padded(n, f) == z + m;
    }
  }

  /** Cutting digits at `k` splits their value into a scaled head and a tail. */
  lemma SplitDigits(p: string, k: nat)
    requires AllDigits(p) && k <= |p|
    ensures AllDigits(p[..k]) && AllDigits(p[k..])
    ensures DigitsValue(p[..k]) * Pow10(|p| - k) + DigitsValue(p[k..]) == DigitsValue(p)
  {
    var w, fr := p[..k], p[k..];
    forall i | 0 <= i < |w| ensures IsDigit(w[i]) {
      assert w[i] == p[i];
    }
    forall i | 0 <= i < |fr| ensures IsDigit(fr[i]) {
      assert fr[i] == p[k + i];
    }
    assert w + fr == p;
    DigitsConcat(w, fr);
  }

  /** Where the point sits in `w + "." + fr`, and what lies on either side. */
  lemma PointSplit(w: string, fr: string)
    ensures var r := w + "." + fr;
      |r| == |w| + 1 + |fr| && r[|w|] == '.' && r[..|w|] == w && r[|w| + 1..] == fr
  {
  }

  /** `FixedDigits(n, f)` is digits, a point, and exactly `f` digits, which read back as
      `n / 10^f`. */
  lemma FixedDigitsShape(n: nat, f: nat)
    requires f > 0
    ensures var r := FixedDigits(n, f);
      && |r| >= f + 2 && r[|r| - f - 1] == '.'
      && AllDigits(r[..|r| - f - 1]) && AllDigits(r[|r| - f..])
      && DigitsValue(r[..|r| - f - 1]) * Pow10(f) + DigitsValue(r[|r| - f..]) == n
  {
    var padded := Padded(n, f);
    PaddedDigits(n, f);
    var k := |padded| - f;
    SplitDigits(padded, k);
    var w, fr := padded[..k], padded[k..];
    PointSplit(w, fr);
    assert FixedDigits(n, f) == w + "." + fr;
  }

  /** A digit string with a point inside reads back as its whole part plus its fraction. */
  lemma DecimalLiteralOfPoint(w: string, fr: string)
    requires |w| > 0 && AllDigits(w) && AllDigits(fr)
    ensures DecimalLiteral(w + "." + fr) == Finite(DecimalValue(w, fr))
  {
    var t := w + ("." + fr);
    assert w + "." + fr == t;
    DigitsExcludePoint(w);
    IndexOfPrefix(w, '.', "." + fr);
    var k := IndexOf(t, '.');
    assert k < |t|;
    var whole := t[..k];
    var frac := t[k + 1..];
    assert whole == w;
    assert frac == fr;
  }

  lemma DigitsExcludePoint(w: string)
    requires AllDigits(w)
    ensures Excludes(w, '.')
  {
    forall i | 0 <= i < |w| ensures w[i] != '.' {
      assert IsDigit(w[i]);
    }
  }

  /** `Number(x.toFixed(f))` lies within half a unit in the last place of `x`: the text is the
      rounding of `x` to `f` decimals. */
  lemma ToFixedReadsBack(x: real, f: nat)
    requires -TO_FIXED_LIMIT < x < TO_FIXED_LIMIT
    requires f > 0
    ensures StringToNumber(ToFixed(x, f)).Finite?
    ensures var q := StringToNumber(ToFixed(x, f)).v;
      q - x <= HalfUnit(f) && x - q <= HalfUnit(f)
  {
    var a := Abs(x);
    var digits := FixedMagnitude(a, f);
    MagnitudeReadsBack(a, f);
    if x < 0.0 {
      assert ToFixed(x, f) == "-" + digits;
      NegativeLiteral(digits);
    } else {
      assert ToFixed(x, f) == digits;
      UnsignedLiteral(digits);
    }
  }

  /** The unsigned part of `toFixed` is a decimal literal within half a unit of the value. */
  lemma MagnitudeReadsBack(a: real, f: nat)
    requires 0.0 <= a < TO_FIXED_LIMIT && f > 0
    ensures var d := FixedMagnitude(a, f);
      && |d| > 0 && IsDigit(d[0]) && IsDigit(d[|d| - 1])
      && DecimalLiteral(d).Finite?
      && DecimalLiteral(d).v - a <= HalfUnit(f) && a - DecimalLiteral(d).v <= HalfUnit(f)
  {
    var n := RoundHalfUp(Scaled(a, f));
    var digits := FixedDigits(n, f);
    assert FixedMagnitude(a, f) == digits;
    FixedDigitsRead(n, f);
    NearestFixed(a, f);
    FixedDigitsShape(n, f);
  }

  /** The value `n / 10^f` that `FixedDigits(n, f)` spells. */
  function FixedValue(n: nat, f: nat): real {
    n as real / Pow10(f) as real
  }

  lemma FixedDigitsRead(n: nat, f: nat)
    requires f > 0
    ensures DecimalLiteral(FixedDigits(n, f)) == Finite(FixedValue(n, f))
  {
    var digits := FixedDigits(n, f);
    FixedDigitsShape(n, f);
    var w := digits[..|digits| - f - 1];
    var fr := digits[|digits| - f..];
    assert digits == w + "." + fr;
    DecimalLiteralOfPoint(w, fr);
    ScaledSum(DigitsValue(w), DigitsValue(fr), Pow10(f), n);
  }

  lemma ScaledSum(w: nat, fr: nat, scale: nat, n: nat)
    requires scale > 0 && w * scale + fr == n
    ensures w as real + fr as real / scale as real == n as real / scale as real
  {
    assert (w * scale) as real == w as real * scale as real;
  }

  /** Half a unit in the `f`-th decimal place. */
  function HalfUnit(f: nat): real {
    0.5 / Pow10(f) as real
  }

  /** Rounding to `f` decimals moves the value by at most half a unit in the last place. */
  lemma NearestFixed(a: real, f: nat)
    requires a >= 0.0
    ensures var q := FixedValue(RoundHalfUp(Scaled(a, f)), f);
      q - a <= HalfUnit(f) && a - q <= HalfUnit(f)
  {
    var scale := Pow10(f) as real;
    var n := RoundHalfUp(Scaled(a, f));
    assert n as real - 0.5 <= a * scale < n as real + 0.5;
    DivideBounds(n as real, a, scale);
    assert FixedValue(n, f) == n as real / scale;
    assert HalfUnit(f) == 0.5 / scale;
  }

  lemma DivideBounds(n: real, a: real, scale: real)
    requires scale >= 1.0
    requires n - 0.5 <= a * scale < n + 0.5
    ensures n / scale - a <= 0.5 / scale && a - n / scale <= 0.5 / scale
  {
    assert (n - 0.5) / scale <= a;
    assert a <= (n + 0.5) / scale;
    assert (n - 0.5) / scale == n / scale - 0.5 / scale;
    assert (n + 0.5) / scale == n / scale + 0.5 / scale;
  }

  /** Removing `c` from a concatenation removes it from both parts. */
  lemma {:induction false} StripConcat(a: string, b: string, c: char)
    ensures Strip(a + b, c) == Strip(a, c) + Strip(b, c)
  {
    if |a| > 0 {
      assert (a + b)[1..] == a[1..] + b;
      StripConcat(a[1..], b, c);
    } else {
      assert a + b == b;
    }
  }

  lemma {:induction false} StripAbsent(s: string, c: char)
    requires Excludes(s, c)
    ensures Strip(s, c) == s
  {
    if |s| > 0 {
      StripAbsent(s[1..], c);
    }
  }

  /** Deleting the grouping commas gives back the digits. */
  lemma {:induction false} GroupUngroups(d: string)
    requires Excludes(d, ',')
    ensures Strip(Group(d), ',') == d
    decreases |d|
  {
    if |d| <= 3 {
      StripAbsent(d, ',');
    } else {
      var hi := d[..|d| - 3];
      var lo := d[|d| - 3..];
      GroupUngroups(hi);
      StripConcat(Group(hi) + ",", lo, ',');
      StripConcat(Group(hi), ",", ',');
      StripAbsent(lo, ',');
      assert Strip(",", ',') == "";
      assert hi + lo == d;
    }
  }

  /** Every group after the first holds exactly three digits; the first holds one to three. */
  lemma {:induction false} GroupSizes(d: string)
    requires |d| > 0 && Excludes(d, ',')
    ensures var parts := Split(Group(d), ',');
      && 1 <= |parts[0]| <= 3
      && forall i :: 1 <= i < |parts| ==> |parts[i]| == 3
    decreases |d|
  {
    if |d| > 3 {
      var hi := d[..|d| - 3];
      var lo := d[|d| - 3..];
      GroupSizes(hi);
      GroupParts(hi);
      var ph := Split(Group(hi), ',');
      assert Group(d) == Join(ph, ",") + "," + lo;
      JoinAppend(ph, lo, ',');
      SplitJoin(ph + [lo], ',');
    } else {
      assert IndexOf(d, ',') == |d|;
    }
  }

  /** The groups of `d` joined by commas are the grouped text, and no group holds a comma. */
  lemma {:induction false} GroupParts(d: string)
    requires Excludes(d, ',')
    ensures |Split(Group(d), ',')| > 0
    ensures Join(Split(Group(d), ','), ",") == Group(d)
    ensures forall i :: 0 <= i < |Split(Group(d), ',')| ==> Excludes(Split(Group(d), ',')[i], ',')
    decreases |d|
  {
    if |d| <= 3 {
      assert IndexOf(d, ',') == |d|;
    } else {
      var hi := d[..|d| - 3];
      var lo := d[|d| - 3..];
      GroupParts(hi);
      var ph := Split(Group(hi), ',');
      JoinAppend(ph, lo, ',');
      SplitJoin(ph + [lo], ',');
    }
  }

  /** Without its grouping commas, `toLocaleString` is the sign and the decimal numeral of the
      nearest integer to the magnitude. */
  lemma LocaleIntegerDigits(x: real)
    ensures var a := if x < 0.0 then -x else x;
      var n := RoundHalfUp(a);
      && Strip(LocaleInteger(x), ',') == (if x < 0.0 then "-" else "") + NatToString(n)
      && n as real - 0.5 <= a < n as real + 0.5
  {
    var a := if x < 0.0 then -x else x;
    var d := NatToString(RoundHalfUp(a));
    assert Excludes(d, ',') by {
      forall i | 0 <= i < |d| ensures d[i] != ',' {
        assert IsDigit(d[i]);
      }
    }
    GroupUngroups(d);
    var sign := if x < 0.0 then "-" else "";
    StripConcat(sign, Group(d), ',');
    StripAbsent(sign, ',');
  }

  // ---------------------------------------------------------------------------------------
  // Character sets

  /** The characters a rendered number is made of. */
  predicate NumericChars(s: string) {
    forall c :: c in s ==> IsDigit(c) || c == '.' || c == '-' || c == ','
  }

  lemma NumericConcat(a: string, b: string)
    requires NumericChars(a) && NumericChars(b)
    ensures NumericChars(a + b)
  {
  }

  lemma DigitsNumeric(s: string)
    requires AllDigits(s)
    ensures NumericChars(s)
  {
    forall c | c in s ensures IsDigit(c) {
      var i :| 0 <= i < |s| && s[i] == c;
    }
  }

  lemma {:induction false} FractionDigitsNumeric(f: real, fuel: nat)
    requires 0.0 <= f < 1.0
    ensures NumericChars(FractionDigits(f, fuel))
    decreases fuel
  {
    if fuel > 0 && f != 0.0 {
      var d := (f * 10.0).Floor;
      FractionDigitsNumeric(f * 10.0 - d as real, fuel - 1);
      var rest := FractionDigits(f * 10.0 - d as real, fuel - 1);
      assert FractionDigits(f, fuel) == [DigitChar(d)] + rest;
      NumericConcat([DigitChar(d)], rest);
    }
  }

  lemma FixedMagnitudeNumeric(a: real, f: nat)
    requires a >= 0.0
    ensures NumericChars(FixedMagnitude(a, f))
  {
    if a >= TO_FIXED_LIMIT {
      var whole := a.Floor;
      var frac := a - whole as real;
      DigitsNumeric(NatToString(whole));
      if frac != 0.0 {
        FractionDigitsNumeric(frac, 20);
        NumericConcat(".", FractionDigits(frac, 20));
        NumericConcat(NatToString(whole), "." + FractionDigits(frac, 20));
      }
    } else if f > 0 {
      var n := RoundHalfUp(Scaled(a, f));
      FixedDigitsShape(n, f);
      var r := FixedDigits(n, f);
      var k := |r| - f - 1;
      assert r == r[..k] + "." + r[k + 1..];
      DigitsNumeric(r[..k]);
      DigitsNumeric(r[k + 1..]);
      NumericConcat(r[..k], ".");
      NumericConcat(r[..k] + ".", r[k + 1..]);
    } else {
      DigitsNumeric(NatToString(RoundHalfUp(Scaled(a, f))));
    }
  }

  /** Digits, points, signs and commas hold no line break. */
  lemma NumericSingleLine(s: string)
    requires NumericChars(s)
    ensures '\n' !in s
  {
  }

  lemma MagnitudeSingleLine(a: real, f: nat)
    requires a >= 0.0
    ensures '\n' !in FixedMagnitude(a, f)
  {
    FixedMagnitudeNumeric(a, f);
    NumericSingleLine(FixedMagnitude(a, f));
  }

  /** `toFixed` prints no line break: only digits, a point and a minus sign. */
  lemma ToFixedSingleLine(x: real, f: nat)
    ensures '\n' !in ToFixed(x, f)
  {
    MagnitudeSingleLine(Abs(x), f);
  }

  lemma {:induction false} GroupNumeric(d: string)
    requires AllDigits(d)
    ensures NumericChars(Group(d))
    decreases |d|
  {
    if |d| <= 3 {
      DigitsNumeric(d);
    } else {
      GroupNumeric(d[..|d| - 3]);
      DigitsNumeric(d[|d| - 3..]);
      NumericConcat(Group(d[..|d| - 3]), ",");
      NumericConcat(Group(d[..|d| - 3]) + ",", d[|d| - 3..]);
    }
  }

  /** `toLocaleString` prints only digits, commas and a minus sign. */
  lemma LocaleIntegerNumeric(x: real)
    ensures NumericChars(LocaleInteger(x))
  {
    var a := if x < 0.0 then -x else x;
    GroupNumeric(NatToString(RoundHalfUp(a)));
    NumericConcat(if x < 0.0 then "-" else "", Group(NatToString(RoundHalfUp(a))));
  }
}

=== FILE: rate_limit.dfy ===
/** The quota guard shared by the AI gateway and the Twitter poster: an in-memory point
    counter for the key 'global' over a rolling 24-hour window (`RateLimiterMemory` with
    `points: 3, duration: 86400`), consumed before the upstream call and refunded when the
    call fails. */
module RateLimit {
  import opened Wrappers

  /** Both gateways allow 3 points per window. */
  const POINTS: nat := 3
  /** The window length in seconds; expiry is the explicit `Expire` step. */
  const WINDOW_SECONDS: nat := 24 * 60 * 60

  /** `consumed` is the window's `consumedPoints` for the key; `None` means there is no record,
      which is the state before the first call and after the window expired. */
  datatype Limiter = Limiter(points: nat, consumed: Option<int>)

  /** A limiter with no record yet. */
  function Fresh(): Limiter {
    Limiter(POINTS, None)
  }

  /** Points counted against the current window. */
  function Used(l: Limiter): int {
    l.consumed.GetOr(0)
  }

  /** States reachable by consume/reward pairs: the count never drops below zero. */
  predicate Valid(l: Limiter) {
    Used(l) >= 0
  }

  /** `limiter.consume('global')`: the point is added to the window whether or not the call is
      admitted; it is admitted while the window's count stays within `points`. */
  function Consume(l: Limiter): (r: (Limiter, bool))
    ensures r.0.points == l.points
    ensures Used(r.0) == Used(l) + 1 && r.0.consumed.Some?
    ensures r.1 <==> Used(l) < l.points
    ensures Valid(l) ==> Valid(r.0)
  {
    var c := Used(l) + 1;
    (Limiter(l.points, Some(c)), c <= l.points)
  }

  /** `limiter.reward('global', 1)`: one point goes back to the window. */
  function Reward(l: Limiter): (r: Limiter)
    ensures r.points == l.points
    ensures Used(r) == Used(l) - 1
  {
    Limiter(l.points, Some(Used(l) - 1))
  }

  /** The rolling window elapses: the record for the key disappears. */
  function Expire(l: Limiter): (r: Limiter)
    ensures Remaining(r) == l.points && Valid(r)
  {
    Limiter(l.points, None)
  }

  /** `state ? Math.max(0, points - state.consumedPoints) : points`. */
  function Remaining(l: Limiter): (r: nat)
    ensures Valid(l) ==> r <= l.points
    ensures r == 0 <==> Used(l) >= l.points
    ensures r > 0 ==> r == l.points - Used(l)
  {
    match l.consumed
    case None => l.points
    case Some(c) => if c >= l.points then 0 else l.points - c
  }

  /** Why a guarded call did not produce a value: the quota refused it, or the call (or a
      check before it) threw, and that same error is passed on. */
  datatype Rejection<+E> = RateLimited | Raised(error: E)

  /** A successful guarded call: the upstream value and the quota left afterwards. */
  datatype Granted<+T> = Granted(value: T, remaining: nat)

  /** The effect of one guarded call: the limiter afterwards, whether the upstream operation
      was invoked, and what the caller receives. */
  datatype Guarded<+T, +E> = Guarded(limiter: Limiter, invoked: bool, outcome: Result<Granted<T>, Rejection<E>>)

  /** The gateway pattern: consume one point, run the upstream call (whose outcome is `call`),
      refund the point if it failed. */
  function Guard<T, E>(l: Limiter, call: Result<T, E>): (g: Guarded<T, E>)
    ensures g.limiter.points == l.points
    ensures g.invoked <==> Used(l) < l.points
    ensures !g.invoked ==> g.outcome == Err(RateLimited) && Used(g.limiter) == Used(l) + 1
    ensures g.invoked && call.Err? ==> g.outcome == Err(Raised(call.error)) && Used(g.limiter) == Used(l)
    ensures g.invoked && call.Ok? ==>
      && g.outcome == Ok(Granted(call.value, Remaining(g.limiter)))
      && Used(g.limiter) == Used(l) + 1
    ensures Valid(l) ==> Valid(g.limiter)
  {
    var (l1, admitted) := Consume(l);
    if !admitted then Guarded(l1, false, Err(RateLimited))
    else
      match call
      case Err(e) => Guarded(Reward(l1), true, Err(Raised(e)))
      case Ok(v) => Guarded(l1, true, Ok(Granted(v, Remaining(l1))))
  }

  /** A failed upstream call costs nothing: the quota left afterwards is the quota before. */
  lemma FailedCallIsFree<T, E>(l: Limiter, call: Result<T, E>)
    requires call.Err?
    ensures Remaining(Guard(l, call).limiter) == Remaining(l)
  {
    var g := Guard(l, call);
    if !g.invoked {
      assert Used(l) >= l.points;
    }
  }

  /** The limiter after a run of guarded calls in one window. */
  function GuardAll<T, E>(l: Limiter, calls: seq<Result<T, E>>): (r: Limiter)
    ensures r.points == l.points
    decreases |calls|
  {
    if |calls| == 0 then l else GuardAll(Guard(l, calls[0]).limiter, calls[1..])
  }

  function Successes<T, E>(calls: seq<Result<T, E>>): nat {
    if |calls| == 0 then 0 else (if calls[0].Ok? then 1 else 0) + Successes(calls[1..])
  }

  /** Within one window and while budget is left over, only successful calls use up quota:
      failed calls are refunded. */
  lemma {:induction false} OnlySuccessesCount<T, E>(l: Limiter, calls: seq<Result<T, E>>)
    requires Used(l) + Successes(calls) < l.points
    ensures Used(GuardAll(l, calls)) == Used(l) + Successes(calls)
    decreases |calls|
  {
    if |calls| > 0 {
      OnlySuccessesCount(Guard(l, calls[0]).limiter, calls[1..]);
    }
  }

  /** Every successful call leaves its point in the window, admitted or not. */
  lemma {:induction false} SuccessesStayCounted<T, E>(l: Limiter, calls: seq<Result<T, E>>)
    ensures Used(GuardAll(l, calls)) >= Used(l) + Successes(calls)
    decreases |calls|
  {
    if |calls| > 0 {
      SuccessesStayCounted(Guard(l, calls[0]).limiter, calls[1..]);
    }
  }

  /** After `points` successful calls in a fresh window (with any number of failed ones in
      between), the next call is refused without invoking the upstream operation. */
  lemma QuotaExhaustion<T, E>(calls: seq<Result<T, E>>, next: Result<T, E>)
    requires Successes(calls) == POINTS
    ensures !Guard(GuardAll(Fresh(), calls), next).invoked
    ensures Guard(GuardAll(Fresh(), calls), next).outcome == Err(RateLimited)
  {
    SuccessesStayCounted(Fresh(), calls);
  }
}

=== FILE: scheduler.dfy ===
/** The jobs (`backend/jobs/scheduler.js`): the tweet text built from an insight, the insight
    cycle that fetches the market, asks the AI gateway, stores the signal and broadcasts it, and
    the start-up wiring (three cycles a day, a market refresh every half hour, a bootstrap run,
    and the forwarding of market updates to the sockets).

    Every effect of a cycle is explicit: the fetch outcome is a parameter, the store and both
    quota limiters travel in a `World`, and the external services (AI completion and parsing,
    tweet API, locale formatting) are the functions of a `Services` value. */
module Scheduler {
  import opened Wrappers
  import opened Js
  import opened Signals
  import opened DexScreener
  import opened Store
  import Sorting
  import RL = RateLimit
  import AI = AiEngine
  import TP = TwitterPoster
  import TB = TelegramBot

  // ---------------------------------------------------------------------------------------
  // The tweet text

  const TWEET_LIMIT: nat := 280
  const TWEET_CUT: nat := 275
  const ELLIPSIS: char := '\U{2026}'
  const DEFAULT_SUMMARY: string := "Signal update available."
  const FOOTER: string := "#MetaPulse #Solana"
  const BRIEF: string := "MetaPulse Signal Brief \U{2014} "

  /** The first line: the brief's title and the local date of `meta.generatedAt`, or of the
      current time when that is empty. `localeDate` is `new Date(x).toLocaleDateString()`. */
  function BaseLine(meta: Meta, localeDate: string -> string, now: string): (r: string)
    ensures |r| >= |BRIEF| && r[..|BRIEF|] == BRIEF
    ensures |r| > 0 && !IsSpace(r[0]) && !Blank(r)
  {
    var r := BRIEF + localeDate(TB.ShownAt(meta.generatedAt, now));
    assert r[0] == 'M' && !IsSpace(r[0]);
    r
  }

  /** `${top.symbol}: ${top.insight}` for the first entry of `insights` when it is truthy, and
      the empty line otherwise. */
  function HighlightLine(insights: Value): (r: string)
    ensures !Truthy(Index0(insights)) <==> r == ""
  {
    var top := Index0(insights);
    if Truthy(top) then Display(Get(top, "symbol")) + ": " + Display(Get(top, "insight")) else ""
  }

  /** `Risk: ${risk}` when the risk is truthy, and the empty line otherwise. */
  function RiskText(risk: Value): (r: string)
    ensures !Truthy(risk) <==> r == ""
  {
    if Truthy(risk) then "Risk: " + Display(risk) else ""
  }

  /** The lines for which `blank` does not hold, in order. */
  function Keep(lines: seq<string>, blank: string -> bool): (r: seq<string>)
    ensures |r| <= |lines|
    ensures forall i :: 0 <= i < |r| ==> !blank(r[i])
    ensures forall i :: 0 <= i < |lines| && !blank(lines[i]) ==> lines[i] in r
    decreases |lines|
  {
    if |lines| == 0 then []
    else
      var rest := Keep(lines[1..], blank);
      if blank(lines[0]) then rest else [lines[0]] + rest
  }

  /** The one-line list holding `x` if the filter keeps it, and the empty list otherwise. */
  function Shown(x: string, blank: string -> bool): seq<string> {
    if blank(x) then [] else [x]
  }

  /** `.filter((line) => line && line.trim())` on strings: the lines that are not blank, in
      order. */
  function Filled(lines: seq<string>): (r: seq<string>)
    ensures |r| <= |lines|
    ensures forall i :: 0 <= i < |r| ==> !Blank(r[i])
  {
    Keep(lines, Blank)
  }

  /** The lines of the tweet before truncation. The summary is `insight.summary` or the default
      text; a truthy summary that is not a string has no `trim` and makes the filter throw. */
  function TweetLines(insight: Insight, localeDate: string -> string, now: string): (r: Result<seq<string>, Thrown>)
    ensures r.Err? <==> !Or(ContentOf(insight).summary, Str(DEFAULT_SUMMARY)).Str?
  {
    var c := ContentOf(insight);
    match Or(c.summary, Str(DEFAULT_SUMMARY))
    case Str(summary) =>
      Ok(Filled([BaseLine(insight.meta, localeDate, now), summary, HighlightLine(c.insights), RiskText(c.risk), FOOTER]))
    case _ => Err(TypeError("line.trim is not a function"))
  }

  /** `text.length <= 280 ? text : text.slice(0, 275) + '…'`. */
  function Truncate(text: string): (r: string)
    ensures |r| <= TWEET_LIMIT
    ensures |text| <= TWEET_LIMIT ==> r == text
    ensures |text| > TWEET_LIMIT ==>
      |r| == TWEET_CUT + 1 && r[..TWEET_CUT] == text[..TWEET_CUT] && r[TWEET_CUT] == ELLIPSIS
  {
    if |text| <= TWEET_LIMIT then text else text[..TWEET_CUT] + [ELLIPSIS]
  }

  /** `formatTweet(insight)`: the kept lines joined by newlines, cut to fit a tweet. The
      `!insight` branch is left out: the cycle always passes an object. */
  function FormatTweet(insight: Insight, localeDate: string -> string, now: string): (r: Result<string, Thrown>)
    ensures r.Err? <==> TweetLines(insight, localeDate, now).Err?
    ensures r.Ok? ==> 0 < |r.value| <= TWEET_LIMIT
  {
    match TweetLines(insight, localeDate, now)
    case Err(e) => Err(e)
    case Ok(lines) =>
      FilledFrame(BaseLine(insight.meta, localeDate, now), lines, insight, localeDate, now);
      Ok(Truncate(Join(lines, "\n")))
  }

  /** `formatTweet(insight)` for any argument: a missing insight gives `null`, and an insight
      gives a non-empty text of at most 280 units unless its summary is not a string. */
  function FormatTweetOf(insight: Option<Insight>, localeDate: string -> string, now: string)
    : (r: Result<Option<string>, Thrown>)
    ensures insight.None? <==> r == Ok(None)
    ensures insight.Some? && r.Ok? ==> r.value.Some? && 0 < |r.value.value| <= TWEET_LIMIT
    ensures insight.Some? ==> (r.Err? <==> !Or(ContentOf(insight.value).summary, Str(DEFAULT_SUMMARY)).Str?)
  {
    match insight
    case None => Ok(None)
    case Some(i) =>
      match FormatTweet(i, localeDate, now)
      case Err(e) => Err(e)
      case Ok(text) => Ok(Some(text))
  }

  lemma KeepCons(x: string, rest: seq<string>, blank: string -> bool)
    ensures Keep([x] + rest, blank) == (if blank(x) then [] else [x]) + Keep(rest, blank)
  {
    assert ([x] + rest)[1..] == rest;
  }

  lemma FooterShown()
    ensures !Blank(FOOTER)
  {
    assert FOOTER[0] == '#' && !IsSpace(FOOTER[0]);
  }

  /** The filter drops nothing when no line is blank. */
  lemma {:induction false} KeepAll(lines: seq<string>, blank: string -> bool)
    requires forall i :: 0 <= i < |lines| ==> !blank(lines[i])
    ensures Keep(lines, blank) == lines
    decreases |lines|
  {
    if |lines| > 0 {
      var rest := lines[1..];
      assert forall i :: 0 <= i < |rest| ==> !blank(rest[i]) by {
        forall i | 0 <= i < |rest| ensures !blank(rest[i]) {
          assert rest[i] == lines[i + 1];
        }
      }
      KeepAll(rest, blank);
      assert lines == [lines[0]] + rest;
    }
  }

  /** The tweet filter drops nothing when no line is blank. */
  lemma FilledKeepsShown(lines: seq<string>)
    requires forall i :: 0 <= i < |lines| ==> !Blank(lines[i])
    ensures Filled(lines) == lines
  {
    KeepAll(lines, Blank);
  }

  /** A last line that is kept stays last. */
  lemma {:induction false} KeepLast(lines: seq<string>, blank: string -> bool)
    requires |lines| > 0 && !blank(lines[|lines| - 1])
    ensures var r := Keep(lines, blank);
      |r| > 0 && r[|r| - 1] == lines[|lines| - 1]
    decreases |lines|
  {
    var rest := lines[1..];
    assert lines == [lines[0]] + rest;
    KeepCons(lines[0], rest, blank);
    if |rest| > 0 {
      assert rest[|rest| - 1] == lines[|lines| - 1];
      KeepLast(rest, blank);
    }
  }

  /** When the first and last lines are kept, they stay at the ends. */
  lemma KeepEnds(lines: seq<string>, blank: string -> bool)
    requires |lines| >= 2 && !blank(lines[0]) && !blank(lines[|lines| - 1])
    ensures var r := Keep(lines, blank);
      |r| >= 2 && r[0] == lines[0] && r[|r| - 1] == lines[|lines| - 1]
  {
    var rest := lines[1..];
    assert lines == [lines[0]] + rest;
    KeepCons(lines[0], rest, blank);
    assert rest[|rest| - 1] == lines[|lines| - 1];
    KeepLast(rest, blank);
  }

  /** Filtering distributes over concatenation: what is kept of each part, in the parts' order. */
  lemma {:induction false} KeepConcat(a: seq<string>, b: seq<string>, blank: string -> bool)
    ensures Keep(a + b, blank) == Keep(a, blank) + Keep(b, blank)
    decreases |a|
  {
    if |a| == 0 {
      assert a + b == b;
    } else {
      assert a + b == [a[0]] + (a[1..] + b);
      assert a == [a[0]] + a[1..];
      KeepCons(a[0], a[1..] + b, blank);
      KeepCons(a[0], a[1..], blank);
      KeepConcat(a[1..], b, blank);
    }
  }

  lemma KeepShown(x: string, rest: seq<string>, blank: string -> bool)
    ensures Keep([x] + rest, blank) == Shown(x, blank) + Keep(rest, blank)
  {
    KeepCons(x, rest, blank);
  }

  /** Five lines whose first and last are kept come out framed by those two, with each middle
      line present exactly when it is not blank, in their own order. */
  lemma KeepFive(a: string, b: string, c: string, d: string, e: string, blank: string -> bool)
    requires !blank(a) && !blank(e)
    ensures Keep([a, b, c, d, e], blank) ==
      [a] + (Shown(b, blank) + (Shown(c, blank) + (Shown(d, blank) + [e])))
  {
    assert [a, b, c, d, e] == [a] + [b, c, d, e];
    assert [b, c, d, e] == [b] + [c, d, e];
    assert [c, d, e] == [c] + [d, e];
    assert [d, e] == [d] + [e];
    assert [e] == [e] + [];
    KeepShown(e, [], blank);
    KeepShown(d, [e], blank);
    KeepShown(c, [d, e], blank);
    KeepShown(b, [c, d, e], blank);
    KeepShown(a, [b, c, d, e], blank);
  }

  lemma FrameOfFive(five: seq<string>, lines: seq<string>, blank: string -> bool)
    requires |five| == 5 && lines == Keep(five, blank)
    requires |five[0]| > 0 && !blank(five[0]) && !blank(five[4])
    ensures |lines| >= 2 && lines[0] == five[0] && lines[|lines| - 1] == five[4]
    ensures |Join(lines, "\n")| > 0
  {
    KeepEnds(five, blank);
    JoinStarts(lines);
  }

  /** The base line opens the kept lines and the footer closes them. */
  lemma FilledFrame(base: string, lines: seq<string>, insight: Insight, localeDate: string -> string, now: string)
    requires base == BaseLine(insight.meta, localeDate, now)
    requires TweetLines(insight, localeDate, now) == Ok(lines)
    ensures |lines| >= 2 && lines[0] == base && lines[|lines| - 1] == FOOTER
    ensures |Join(lines, "\n")| > 0
  {
    var c := ContentOf(insight);
    var five := [base, Or(c.summary, Str(DEFAULT_SUMMARY)).s, HighlightLine(c.insights), RiskText(c.risk), FOOTER];
    assert lines == Filled(five);
    FooterShown();
    FrameOfFive(five, lines, Blank);
  }

  lemma JoinStarts(lines: seq<string>)
    requires |lines| > 0 && |lines[0]| > 0
    ensures |Join(lines, "\n")| > 0
  {
  }

  /** A tweet that fits is its lines, one per line: it splits back into them, opens with the
      brief's title and closes with the footer, and has no blank line. */
  lemma TweetLinesRoundTrip(insight: Insight, localeDate: string -> string, now: string)
    requires TweetLines(insight, localeDate, now).Ok?
    requires var lines := TweetLines(insight, localeDate, now).value;
      forall i :: 0 <= i < |lines| ==> Excludes(lines[i], '\n')
    requires |Join(TweetLines(insight, localeDate, now).value, "\n")| <= TWEET_LIMIT
    ensures var lines := Split(FormatTweet(insight, localeDate, now).value, '\n');
      && lines == TweetLines(insight, localeDate, now).value
      && lines[0] == BaseLine(insight.meta, localeDate, now)
      && lines[|lines| - 1] == FOOTER
      && forall i :: 0 <= i < |lines| ==> !Blank(lines[i])
  {
    var lines := TweetLines(insight, localeDate, now).value;
    FilledFrame(BaseLine(insight.meta, localeDate, now), lines, insight, localeDate, now);
    SplitJoin(lines, '\n');
  }

  /** A tweet that does not fit keeps its first 275 code units and ends with the ellipsis. */
  lemma LongTweetCut(insight: Insight, localeDate: string -> string, now: string)
    requires TweetLines(insight, localeDate, now).Ok?
    requires |Join(TweetLines(insight, localeDate, now).value, "\n")| > TWEET_LIMIT
    ensures var text := Join(TweetLines(insight, localeDate, now).value, "\n");
      var tweet := FormatTweet(insight, localeDate, now).value;
      |tweet| == TWEET_CUT + 1 && tweet == text[..TWEET_CUT] + [ELLIPSIS]
  {
  }

  /** A text with a code unit that is not white space is not blank. */
  lemma NotBlankAt(s: string, i: int)
    requires 0 <= i < |s| && !IsSpace(s[i])
    ensures !Blank(s)
  {
  }

  /** The tweet's lines are the base line, the summary unless it is blank, the highlight and the
      risk line when there is one, and the footer, in that order. */
  lemma TweetLinesInOrder(insight: Insight, localeDate: string -> string, now: string)
    requires TweetLines(insight, localeDate, now).Ok?
    ensures var c := ContentOf(insight);
      TweetLines(insight, localeDate, now).value ==
        [BaseLine(insight.meta, localeDate, now)]
        + (Shown(Or(c.summary, Str(DEFAULT_SUMMARY)).s, Blank)
        + ((if Truthy(Index0(c.insights)) then [HighlightLine(c.insights)] else [])
        + ((if Truthy(c.risk) then [RiskText(c.risk)] else [])
        + [FOOTER])))
  {
    var c := ContentOf(insight);
    var base := BaseLine(insight.meta, localeDate, now);
    FooterShown();
    KeepFive(base, Or(c.summary, Str(DEFAULT_SUMMARY)).s, HighlightLine(c.insights), RiskText(c.risk), FOOTER, Blank);
    HighlightShown(c.insights);
    RiskShown(c.risk);
  }

  /** The highlight line is kept exactly when the first insight is truthy: it then carries the
      `:` after the symbol, and otherwise it is empty. */
  lemma HighlightShown(insights: Value)
    ensures Shown(HighlightLine(insights), Blank) ==
      (if Truthy(Index0(insights)) then [HighlightLine(insights)] else [])
  {
    var h := HighlightLine(insights);
    if Truthy(Index0(insights)) {
      var symbol := Display(Get(Index0(insights), "symbol"));
      assert h[|symbol|] == ':';
      NotBlankAt(h, |symbol|);
    } else {
      assert AllSpace(h);
    }
  }

  /** The risk line is kept exactly when the risk is truthy. */
  lemma RiskShown(risk: Value)
    ensures Shown(RiskText(risk), Blank) == (if Truthy(risk) then [RiskText(risk)] else [])
  {
    var t := RiskText(risk);
    if Truthy(risk) {
      NotBlankAt(t, 0);
    } else {
      assert AllSpace(t);
    }
  }

  /** A truthy risk and a truthy first insight always reach the tweet's lines. */
  lemma TweetShowsRiskAndHighlight(insight: Insight, localeDate: string -> string, now: string)
    requires TweetLines(insight, localeDate, now).Ok?
    ensures var c := ContentOf(insight);
      var lines := TweetLines(insight, localeDate, now).value;
      && (Truthy(c.risk) ==> RiskText(c.risk) in lines)
      && (Truthy(Index0(c.insights)) ==> HighlightLine(c.insights) in lines)
  {
    TweetLinesInOrder(insight, localeDate, now);
  }

  /** A summary that is a number, even an infinite one, is truthy and has no `trim`: the
      filter throws instead of falling back to the default text. */
  lemma NumericSummaryThrows(insight: Insight, localeDate: string -> string, now: string)
    requires ContentOf(insight).summary == Num(PosInfinity)
    ensures TweetLines(insight, localeDate, now).Err?
  {
  }

  // ---------------------------------------------------------------------------------------
  // The insight cycle

  const FOCUS_SIZE: nat := 8

  /** What a cycle reads and changes: the store and the two daily quotas. */
  datatype World = World(store: Store, aiQuota: RL.Limiter, tweetQuota: RL.Limiter)

  /** The outside world as functions: the AI key, completion request and JSON parser, the
      Twitter credentials and API call, and the default-locale date formatters. */
  datatype Services = Services(
    apiKey: Option<string>,
    post: string -> Result<Value, Thrown>,
    parse: string -> Option<Value>,
    creds: TP.Credentials,
    tweet: string -> Result<Value, Thrown>,
    localeDate: string -> string,
    localeDateTime: string -> string)

  /** The instant of a cycle: as an ISO text, as `Date.now()`, and the uuid the new signal
      gets. */
  datatype Moment = Moment(iso: string, ms: nat, signalId: string)

  /** Why a cycle stopped early; each is caught by the cycle's `catch` and logged. */
  datatype Failure =
    | FetchFailed(thrown: Thrown)
    | InsightFailed(rejection: RL.Rejection<Thrown>)
    | NotifyThrew(thrown: Thrown)
    | TweetFailed(thrown: Thrown)

  /** The outcome of a cycle: the world afterwards, the tokens the AI gateway was asked about,
      the insight, what `notifyChannel` returned, what `publishUpdate` did, and the failure. */
  datatype Cycle = Cycle(
    world: World,
    asked: Option<seq<Token>>,
    insight: Option<Insight>,
    notified: Option<TB.Notified>,
    publish: Option<TP.Publish>,
    failure: Option<Failure>)

  /** `tokens.slice(0, 8)`. */
  function Focus(tokens: seq<Token>): (r: seq<Token>)
    ensures |r| == Sorting.Min(FOCUS_SIZE, |tokens|)
    ensures r == tokens[..|r|]
  {
    if |tokens| <= FOCUS_SIZE then tokens else tokens[..FOCUS_SIZE]
  }

  /** `${source}-${Date.now()}`. */
  function RequestId(source: string, ms: nat): Value {
    Str(source + "-" + NatToString(ms))
  }

  /** The signal a cycle stores for an insight. */
  function DraftOf(source: string, insight: Insight): Draft {
    Draft(source, ContentOf(insight), insight.meta)
  }

  /** The store once the fetched market is in it. */
  function Marked(st: Store, latest: Profiles, m: Moment): (r: Store)
    ensures r.snapshot.tokens == latest.tokens && r.snapshot.highlights == Some(latest.highlights)
    ensures r.snapshot.fetchedAt == Some(m.iso)
    ensures r.events == st.events + [MarketUpdate(r.snapshot)]
    ensures r.signals == st.signals
  {
    SetMarketSnapshot(st, FromProfiles(latest), m.iso)
  }

  /** The part of a cycle before the broadcast, given what `fetchLatestProfiles()` settled to:
      store the snapshot, take the first eight tokens, stop if there are none, ask for the
      insight and store it as a signal. */
  function Generate(w: World, source: string, fetched: Result<Profiles, Thrown>, svc: Services, m: Moment): (c: Cycle)
    ensures c.notified.None? && c.publish.None? && c.world.tweetQuota == w.tweetQuota
    ensures fetched.Err? ==> c == Cycle(w, None, None, None, None, Some(FetchFailed(fetched.error)))
    ensures c.insight.Some? ==> c.failure.None?
  {
    match fetched
    case Err(e) => Cycle(w, None, None, None, None, Some(FetchFailed(e)))
    case Ok(latest) =>
      var st1 := Marked(w.store, latest, m);
      var focus := Focus(latest.tokens);
      if |focus| == 0 then Cycle(w.(store := st1), None, None, None, None, None)
      else
        var (ai, res) := AI.GenerateInsight(w.aiQuota, focus, RequestId(source, m.ms), m.iso, svc.apiKey, svc.post, svc.parse);
        match res
        case Err(rejection) => Cycle(World(st1, ai, w.tweetQuota), Some(focus), None, None, None, Some(InsightFailed(rejection)))
        case Ok(insight) =>
          var st2 := AddSignal(st1, DraftOf(source, insight), m.signalId, m.iso);
          Cycle(World(st2, ai, w.tweetQuota), Some(focus), Some(insight), None, None, None)
  }

  /** Format the tweet and publish it when it is not empty; a failed post is caught by its
      own `.catch`, so only a formatting error stops the cycle. */
  function PostTweet(c: Cycle, insight: Insight, svc: Services, m: Moment): (r: Cycle)
    ensures r.world.store == c.world.store && r.world.aiQuota == c.world.aiQuota
    ensures r.asked == c.asked && r.insight == c.insight && r.notified == c.notified
    ensures FormatTweet(insight, svc.localeDate, m.iso).Err? ==>
      r == c.(failure := Some(TweetFailed(FormatTweet(insight, svc.localeDate, m.iso).error)))
    ensures FormatTweet(insight, svc.localeDate, m.iso).Ok? ==>
      var p := TP.PublishUpdate(c.world.tweetQuota, svc.creds, FormatTweet(insight, svc.localeDate, m.iso).value, svc.tweet);
      r == c.(world := c.world.(tweetQuota := p.limiter), publish := Some(p))
  {
    match FormatTweet(insight, svc.localeDate, m.iso)
    case Err(e) => c.(failure := Some(TweetFailed(e)))
    case Ok(text) =>
      if text == "" then c
      else
        var p := TP.PublishUpdate(c.world.tweetQuota, svc.creds, text, svc.tweet);
        c.(world := c.world.(tweetQuota := p.limiter), publish := Some(p))
  }

  /** The message `.catch` on `undefined` throws. */
  const NO_PROMISE_ERROR: Thrown := TypeError("Cannot read properties of undefined (reading 'catch')")

  /** `runInsightCycle(source, telegramBot, twitterPoster)` as written: the disabled bot's
      `notifyChannel` returns `undefined`, `.catch` on it throws, and the cycle's `catch`
      swallows the error before the tweet is written. */
  function RunInsightCycleAsWritten(w: World, source: string, bot: TB.Bot, fetched: Result<Profiles, Thrown>, svc: Services, m: Moment)
    : (c: Cycle)
    ensures bot.Disabled? ==> c.publish.None? && c.world.tweetQuota == w.tweetQuota
  {
    var g := Generate(w, source, fetched, svc, m);
    match g.insight
    case None => g
    case Some(insight) =>
      var n := TB.NotifyChannel(bot, TB.ShownInsight(insight), svc.localeDateTime, m.iso);
      if n.NoPromise? then g.(notified := Some(n), failure := Some(NotifyThrew(NO_PROMISE_ERROR)))
      else PostTweet(g.(notified := Some(n)), insight, svc, m)
  }

  /** The cycle as evidently intended: the Telegram broadcast, whatever it returns, does not
      keep the tweet from being posted. */
  function RunInsightCycle(w: World, source: string, bot: TB.Bot, fetched: Result<Profiles, Thrown>, svc: Services, m: Moment)
    : (c: Cycle)
    ensures c.notified.Some? <==> c.insight.Some?
    ensures c.insight.Some? ==>
      c.notified == Some(TB.NotifyChannel(bot, TB.ShownInsight(c.insight.value), svc.localeDateTime, m.iso))
  {
    var g := Generate(w, source, fetched, svc, m);
    match g.insight
    case None => g
    case Some(insight) =>
      var n := TB.NotifyChannel(bot, TB.ShownInsight(insight), svc.localeDateTime, m.iso);
      PostTweet(g.(notified := Some(n)), insight, svc, m)
  }

  /** The broadcast step leaves the store, the AI quota, the tokens asked about and the insight
      as `Generate` left them. */
  lemma CycleIsGenerateThenPost(w: World, source: string, bot: TB.Bot, fetched: Result<Profiles, Thrown>, svc: Services, m: Moment)
    ensures var c := RunInsightCycle(w, source, bot, fetched, svc, m);
      var g := Generate(w, source, fetched, svc, m);
      && c.world.store == g.world.store && c.world.aiQuota == g.world.aiQuota
      && c.asked == g.asked && c.insight == g.insight
      && (g.insight.None? ==> c == g)
  {
  }

  /** The snapshot is stored before anything else can fail: a fetched market is in the store
      whatever the AI gateway or the broadcasters do, and a failed fetch changes nothing. */
  lemma GenerateStoresSnapshot(w: World, source: string, fetched: Result<Profiles, Thrown>, svc: Services, m: Moment)
    requires fetched.Ok?
    ensures var c := Generate(w, source, fetched, svc, m);
      && c.world.store.snapshot.tokens == fetched.value.tokens
      && c.world.store.snapshot.highlights == Some(fetched.value.highlights)
      && c.world.store.snapshot.fetchedAt == Some(m.iso)
      && |c.world.store.events| > |w.store.events|
      && c.world.store.events[|w.store.events|] == MarketUpdate(c.world.store.snapshot)
  {
    var st1 := Marked(w.store, fetched.value, m);
    var c := Generate(w, source, fetched, svc, m);
    if c.insight.Some? {
      var st2 := AddSignal(st1, DraftOf(source, c.insight.value), m.signalId, m.iso);
      assert c.world.store == st2;
      assert st2.events[|w.store.events|] == st1.events[|w.store.events|];
    }
  }

  lemma CycleStoresSnapshot(w: World, source: string, bot: TB.Bot, fetched: Result<Profiles, Thrown>, svc: Services, m: Moment)
    ensures var c := RunInsightCycle(w, source, bot, fetched, svc, m);
      && (fetched.Err? ==> c.world == w && c.failure == Some(FetchFailed(fetched.error)) && c.asked.None?)
      && (fetched.Ok? ==>
            && c.world.store.snapshot.tokens == fetched.value.tokens
            && c.world.store.snapshot.highlights == Some(fetched.value.highlights)
            && c.world.store.snapshot.fetchedAt == Some(m.iso)
            && |c.world.store.events| > |w.store.events|
            && c.world.store.events[|w.store.events|] == MarketUpdate(c.world.store.snapshot))
  {
    CycleIsGenerateThenPost(w, source, bot, fetched, svc, m);
    if fetched.Ok? {
      GenerateStoresSnapshot(w, source, fetched, svc, m);
    }
  }

  /** The AI gateway is asked about the first eight fetched tokens, and only when there are
      any; with none, the cycle stores the empty snapshot and stops without a signal. */
  lemma GenerateAsksAboutFirstEight(w: World, source: string, fetched: Result<Profiles, Thrown>, svc: Services, m: Moment)
    ensures var c := Generate(w, source, fetched, svc, m);
      && (c.asked.Some? <==> fetched.Ok? && |fetched.value.tokens| > 0)
      && (c.asked.Some? ==> c.asked.value == Focus(fetched.value.tokens))
      && (c.asked.None? ==> c.world.aiQuota == w.aiQuota && c.world.store.signals == w.store.signals && c.insight.None?)
  {
  }

  lemma CycleAsksAboutFirstEight(w: World, source: string, bot: TB.Bot, fetched: Result<Profiles, Thrown>, svc: Services, m: Moment)
    requires fetched.Ok?
    ensures var c := RunInsightCycle(w, source, bot, fetched, svc, m);
      var tokens := fetched.value.tokens;
      && (|tokens| > 0 <==> c.asked.Some?)
      && (c.asked.Some? ==> c.asked.value == tokens[..|c.asked.value|] && |c.asked.value| == Sorting.Min(FOCUS_SIZE, |tokens|))
      && (|tokens| == 0 ==>
            && c.world.aiQuota == w.aiQuota && c.world.store.signals == w.store.signals
            && c.insight.None? && c.publish.None? && c.failure.None?)
  {
    CycleIsGenerateThenPost(w, source, bot, fetched, svc, m);
    GenerateAsksAboutFirstEight(w, source, fetched, svc, m);
  }

  /** A cycle stores exactly one signal when it gets an insight, at the front, from this
      source, and none otherwise. */
  lemma GenerateStoresOneSignal(w: World, source: string, fetched: Result<Profiles, Thrown>, svc: Services, m: Moment)
    ensures var c := Generate(w, source, fetched, svc, m);
      && (c.insight.None? ==> c.world.store.signals == w.store.signals)
      && (c.insight.Some? ==>
            && 0 < |c.world.store.signals| <= |w.store.signals| + 1
            && c.world.store.signals[0] == Stamp(DraftOf(source, c.insight.value), m.signalId, m.iso)
            && c.world.store.signals[1..] == w.store.signals[..|c.world.store.signals| - 1])
      && (Valid(w.store) ==> Valid(c.world.store))
  {
  }

  lemma OneSignalPerInsight(w: World, source: string, bot: TB.Bot, fetched: Result<Profiles, Thrown>, svc: Services, m: Moment)
    ensures var c := RunInsightCycle(w, source, bot, fetched, svc, m);
      && (c.insight.None? ==> c.world.store.signals == w.store.signals)
      && (c.insight.Some? ==>
            && 0 < |c.world.store.signals| <= |w.store.signals| + 1
            && c.world.store.signals[0] == Stamp(DraftOf(source, c.insight.value), m.signalId, m.iso)
            && c.world.store.signals[0].source == source
            && c.world.store.signals[1..] == w.store.signals[..|c.world.store.signals| - 1])
      && (Valid(w.store) ==> Valid(c.world.store))
  {
    var c := RunInsightCycle(w, source, bot, fetched, svc, m);
    var g := Generate(w, source, fetched, svc, m);
    assert c.world.store == g.world.store && c.insight == g.insight by {
      CycleIsGenerateThenPost(w, source, bot, fetched, svc, m);
    }
    GenerateStoresOneSignal(w, source, fetched, svc, m);
  }

  /** A cycle spends at most one point of each quota; the AI quota only when there were
      tokens to ask about, and the tweet quota only after an insight. */
  lemma GenerateQuotaCost(w: World, source: string, fetched: Result<Profiles, Thrown>, svc: Services, m: Moment)
    ensures var c := Generate(w, source, fetched, svc, m);
      RL.Used(w.aiQuota) <= RL.Used(c.world.aiQuota) <= RL.Used(w.aiQuota) + 1
  {
  }

  lemma PublishCost(l: RL.Limiter, creds: TP.Credentials, text: string, tweet: string -> Result<Value, Thrown>)
    ensures var p := TP.PublishUpdate(l, creds, text, tweet);
      RL.Used(l) <= RL.Used(p.limiter) <= RL.Used(l) + 1
  {
  }

  lemma CycleQuotaCost(w: World, source: string, bot: TB.Bot, fetched: Result<Profiles, Thrown>, svc: Services, m: Moment)
    ensures var c := RunInsightCycle(w, source, bot, fetched, svc, m);
      && RL.Used(w.aiQuota) <= RL.Used(c.world.aiQuota) <= RL.Used(w.aiQuota) + 1
      && RL.Used(w.tweetQuota) <= RL.Used(c.world.tweetQuota) <= RL.Used(w.tweetQuota) + 1
      && (c.asked.None? ==> c.world.aiQuota == w.aiQuota)
      && (c.insight.None? ==> c.world.tweetQuota == w.tweetQuota)
  {
    CycleIsGenerateThenPost(w, source, bot, fetched, svc, m);
    GenerateQuotaCost(w, source, fetched, svc, m);
    GenerateAsksAboutFirstEight(w, source, fetched, svc, m);
    var g := Generate(w, source, fetched, svc, m);
    if g.insight.Some? {
      var text := FormatTweet(g.insight.value, svc.localeDate, m.iso);
      if text.Ok? {
        PublishCost(w.tweetQuota, svc.creds, text.value, svc.tweet);
      }
    }
  }

  /** An enabled bot with a broadcast chat sends the insight as `formatSignal` renders it. */
  lemma CycleBroadcastsInsight(w: World, source: string, bot: TB.Bot, fetched: Result<Profiles, Thrown>, svc: Services, m: Moment)
    requires bot.Enabled? && bot.broadcastChatId.Some? && bot.broadcastChatId.value != ""
    ensures var c := RunInsightCycle(w, source, bot, fetched, svc, m);
      c.insight.Some? && TB.FormatSignal(Some(TB.ShownInsight(c.insight.value)), svc.localeDateTime, m.iso).Ok? ==>
        c.notified == Some(TB.Resolves(Some(TB.Outgoing(bot.broadcastChatId.value,
          TB.FormatSignal(Some(TB.ShownInsight(c.insight.value)), svc.localeDateTime, m.iso).value))))
  {
    var c := RunInsightCycle(w, source, bot, fetched, svc, m);
    if c.insight.Some? {
      var shown := TB.ShownInsight(c.insight.value);
      assert c.notified == Some(TB.NotifyChannel(bot, shown, svc.localeDateTime, m.iso));
    }
  }

  /** The defect: with the Telegram bot disabled, the cycle as written throws at `.catch`,
      after storing the signal, and never reaches Twitter. */
  lemma DisabledBotSilencesTwitter(w: World, source: string, fetched: Result<Profiles, Thrown>, svc: Services, m: Moment)
    ensures var c := RunInsightCycleAsWritten(w, source, TB.Disabled, fetched, svc, m);
      && c.publish.None? && c.world.tweetQuota == w.tweetQuota
      && (c.insight.Some? ==> c.failure == Some(NotifyThrew(NO_PROMISE_ERROR)))
  {
  }

  /** As written, a backend started without a Telegram bot token never tweets from a cycle,
      whatever the broadcast chat id. */
  lemma NoBotTokenNoTweet(
    w: World, source: string, fetched: Result<Profiles, Thrown>, svc: Services, m: Moment,
    token: Option<string>, broadcastChatId: Option<string>)
    requires token.None? || token.value == ""
    ensures var c := RunInsightCycleAsWritten(w, source, TB.BotFor(token, broadcastChatId), fetched, svc, m);
      c.publish.None? && c.world.tweetQuota == w.tweetQuota
  {
    DisabledBotSilencesTwitter(w, source, fetched, svc, m);
  }

  /** A formatted tweet always starts with the brief's title, so it is never blank. */
  lemma TweetNotBlank(insight: Insight, localeDate: string -> string, now: string)
    requires FormatTweet(insight, localeDate, now).Ok?
    ensures !Blank(FormatTweet(insight, localeDate, now).value)
  {
    var lines := TweetLines(insight, localeDate, now).value;
    var base := BaseLine(insight.meta, localeDate, now);
    FilledFrame(base, lines, insight, localeDate, now);
    JoinedNotBlank(lines);
  }

  lemma JoinedNotBlank(lines: seq<string>)
    requires |lines| > 0 && |lines[0]| > 0 && !IsSpace(lines[0][0])
    ensures !Blank(Truncate(Join(lines, "\n")))
  {
    JoinFirst(lines);
    assert Truncate(Join(lines, "\n"))[0] == lines[0][0];
  }

  lemma JoinFirst(lines: seq<string>)
    requires |lines| > 0 && |lines[0]| > 0
    ensures |Join(lines, "\n")| > 0 && Join(lines, "\n")[0] == lines[0][0]
  {
  }

  /** Corrected, the same cycle posts the tweet whenever it could be written, Twitter is
      configured and the tweet quota has room; the store is the same either way. */
  lemma DisabledBotStillTweets(w: World, source: string, fetched: Result<Profiles, Thrown>, svc: Services, m: Moment)
    ensures var c := RunInsightCycle(w, source, TB.Disabled, fetched, svc, m);
      var a := RunInsightCycleAsWritten(w, source, TB.Disabled, fetched, svc, m);
      && c.world.store == a.world.store && c.world.aiQuota == a.world.aiQuota && c.insight == a.insight
      && (c.insight.Some? && FormatTweet(c.insight.value, svc.localeDate, m.iso).Ok?
          && TP.HasClient(svc.creds) && RL.Used(w.tweetQuota) < w.tweetQuota.points ==>
            && c.publish.Some?
            && c.publish.value.sent == Some(Trim(FormatTweet(c.insight.value, svc.localeDate, m.iso).value)))
  {
    CycleIsGenerateThenPost(w, source, TB.Disabled, fetched, svc, m);
    var g := Generate(w, source, fetched, svc, m);
    if g.insight.Some? {
      var text := FormatTweet(g.insight.value, svc.localeDate, m.iso);
      if text.Ok? {
        TweetNotBlank(g.insight.value, svc.localeDate, m.iso);
      }
    }
  }

  /** Apart from the broadcast step, both versions of the cycle do the same: with an enabled
      bot they agree on everything. */
  lemma VersionsAgreeWhenEnabled(w: World, source: string, bot: TB.Bot, fetched: Result<Profiles, Thrown>, svc: Services, m: Moment)
    requires bot.Enabled?
    ensures RunInsightCycleAsWritten(w, source, bot, fetched, svc, m) == RunInsightCycle(w, source, bot, fetched, svc, m)
  {
  }

  // ---------------------------------------------------------------------------------------
  // Start-up

  /** The bootstrap run at start-up: store the fetched market, and run a cycle (which fetches
      again, `second`) when there are tokens. The cycle is not awaited; here it runs to
      completion before anything else. */
  function Bootstrap(w: World, bot: TB.Bot, first: Result<Profiles, Thrown>, second: Result<Profiles, Thrown>, svc: Services, m: Moment, later: Moment)
    : (r: (World, Option<Cycle>))
    ensures first.Err? ==> r == (w, None)
    ensures r.1.Some? <==> first.Ok? && |first.value.tokens| > 0
  {
    match first
    case Err(_) => (w, None)
    case Ok(latest) =>
      var st1 := Marked(w.store, latest, m);
      if |latest.tokens| > 0 then
        var c := RunInsightCycle(w.(store := st1), "bootstrap", bot, second, svc, later);
        (c.world, Some(c))
      else (w.(store := st1), None)
  }

  /** A bootstrap cycle's signal is marked `bootstrap`; without tokens only the empty market is
      stored. */
  lemma BootstrapRunsOnMarket(w: World, bot: TB.Bot, first: Result<Profiles, Thrown>, second: Result<Profiles, Thrown>, svc: Services, m: Moment, later: Moment)
    ensures var (w1, c) := Bootstrap(w, bot, first, second, svc, m, later);
      && (c.Some? && c.value.insight.Some? ==> |w1.store.signals| > 0 && w1.store.signals[0].source == "bootstrap")
      && (first.Ok? && c.None? ==>
            w1.store.snapshot.tokens == [] && w1.store.signals == w.store.signals && w1.aiQuota == w.aiQuota)
  {
    if first.Ok? {
      var st1 := Marked(w.store, first.value, m);
      if |first.value.tokens| > 0 {
        var c := RunInsightCycle(w.(store := st1), "bootstrap", bot, second, svc, later);
        assert Bootstrap(w, bot, first, second, svc, m, later) == (c.world, Some(c));
        OneSignalPerInsight(w.(store := st1), "bootstrap", bot, second, svc, later);
      } else {
        assert Bootstrap(w, bot, first, second, svc, m, later) == (w.(store := st1), None);
      }
    }
  }

  /** The half-hourly refresh: a fetched market replaces the snapshot; a failure is logged
      and changes nothing. */
  function MarketRefresh(st: Store, fetched: Result<Profiles, Thrown>, now: string): (r: Store)
    ensures r.signals == st.signals && r.linkCodes == st.linkCodes && r.sessions == st.sessions && r.timers == st.timers
    ensures fetched.Err? ==> r == st
  {
    match fetched
    case Err(_) => st
    case Ok(latest) => SetMarketSnapshot(st, FromProfiles(latest), now)
  }

  /** The payloads the sockets receive as `market:update`: every snapshot the store
      announced, in order. */
  function MarketForwards(events: seq<Event>): (r: seq<Snapshot>)
    ensures |r| <= |events|
    decreases |events|
  {
    if |events| == 0 then []
    else
      var init := MarketForwards(events[..|events| - 1]);
      match events[|events| - 1]
      case MarketUpdate(snap) => init + [snap]
      case SignalsUpdate(_) => init
  }

  /** A refresh that fetched forwards exactly the new snapshot, which lists the fetched tokens
      and their highlights; one that failed forwards nothing. */
  lemma RefreshIsForwarded(st: Store, fetched: Result<Profiles, Thrown>, now: string)
    ensures var r := MarketRefresh(st, fetched, now);
      && (fetched.Ok? ==>
            && MarketForwards(r.events) == MarketForwards(st.events) + [r.snapshot]
            && r.snapshot.tokens == fetched.value.tokens
            && r.snapshot.highlights == Some(fetched.value.highlights))
      && (fetched.Err? ==> MarketForwards(r.events) == MarketForwards(st.events))
  {
    var r := MarketRefresh(st, fetched, now);
    if fetched.Ok? {
      assert r.events[..|r.events| - 1] == st.events;
    }
  }

  /** Storing a signal forwards no market update. */
  lemma SignalIsNotForwarded(st: Store, d: Draft, id: string, createdAt: string)
    ensures MarketForwards(AddSignal(st, d, id, createdAt).events) == MarketForwards(st.events)
  {
    var r := AddSignal(st, d, id, createdAt);
    assert r.events[..|r.events| - 1] == st.events;
  }

  /** Cron `0 0,8,16 * * *`: the insight cycle runs at minute 0 of hours 0, 8 and 16. */
  predicate CycleDue(hour: nat, minute: nat) {
    minute == 0 && (hour == 0 || hour == 8 || hour == 16)
  }

  /** The scheduled cycles of a day are exactly as many as the AI gateway's daily points, so a
      bootstrap run on the same day is one more than the quota admits. */
  lemma ScheduleFitsQuota()
    ensures |set h: nat | h < 24 && CycleDue(h, 0)| == RL.POINTS
  {
    assert (set h: nat | h < 24 && CycleDue(h, 0)) == {0, 8, 16};
  }
}

=== FILE: session_linker.dfy ===
/** The session linker (`backend/services/sessionLinker.js`): it issues link codes for Telegram
    chats and turns a redeemed code into a signed web session. The uuid generator and
    `jwt.sign` are parameters: `sessionId` is the fresh id and `sign` maps a payload to its
    token. */
module SessionLinker {
  import opened Wrappers
  import opened Js
  import opened Store

  /** `createLinkCode(chatId, profile)`: the profile's own fields are laid over `chatId`. */
  function IssueLinkCode(st: Store, chatId: Value, profile: Profile, code: string, now: int): (r: (Store, LinkCode))
    ensures r.1 == LinkCode(code, now + LINK_CODE_TTL_MS)
    ensures code in r.0.linkCodes && r.0.linkCodes[code].expiresAt == r.1.expiresAt
    ensures forall c :: c != code ==> (c in r.0.linkCodes <==> c in st.linkCodes)
    ensures r.0.sessions == st.sessions
  {
    CreateLinkCode(st, map["chatId" := chatId] + profile, code, now)
  }

  /** The stored entry carries the profile's `chatId` when it has one, the argument otherwise,
      and every other field of the profile as given. */
  lemma LinkProfileMerge(st: Store, chatId: Value, profile: Profile, code: string, now: int)
    ensures var (st1, lc) := IssueLinkCode(st, chatId, profile, code, now);
      var fields := st1.linkCodes[code].fields;
      && fields["chatId"] == (if "chatId" in profile then profile["chatId"] else chatId)
      && (forall k :: k in profile && k != "expiresAt" && k != "timeout" ==> k in fields && fields[k] == profile[k])
      && fields["expiresAt"] == Num(Finite(lc.expiresAt as real))
  {
    var merged := map["chatId" := chatId] + profile;
    RedeemedKeepsProfile(merged, now + LINK_CODE_TTL_MS);
  }

  // `consumeLinkCode(code)` is the store's own `ConsumeLinkCode`.

  /** What `createSession` returns: `{ token, profile }`. */
  datatype Session = Session(token: string, profile: Profile)

  /** The signed payload: the fresh id, the chat id, and `username`/`firstName` or `null`. */
  function SessionPayload(chatProfile: Profile, sessionId: string): (p: Profile)
    ensures p.Keys == {"sessionId", "chatId", "username", "firstName"}
    ensures p["sessionId"] == Str(sessionId)
    ensures p["chatId"] == Get(Obj(chatProfile), "chatId")
    ensures Truthy(Get(Obj(chatProfile), "username")) ==> p["username"] == chatProfile["username"]
    ensures !Truthy(Get(Obj(chatProfile), "username")) ==> p["username"] == Null
    ensures Truthy(Get(Obj(chatProfile), "firstName")) ==> p["firstName"] == chatProfile["firstName"]
    ensures !Truthy(Get(Obj(chatProfile), "firstName")) ==> p["firstName"] == Null
  {
    map[
      "sessionId" := Str(sessionId),
      "chatId" := Get(Obj(chatProfile), "chatId"),
      "username" := Or(Get(Obj(chatProfile), "username"), Null),
      "firstName" := Or(Get(Obj(chatProfile), "firstName"), Null)]
  }

  /** `createSession(chatProfile)` at the ISO time `linkedAt`: the payload is signed and
      registered under the fresh id, and returned with the token. */
  function CreateSession(st: Store, chatProfile: Profile, sessionId: string, linkedAt: string, sign: Profile -> string)
    : (r: (Store, Session))
    ensures r.1 == Session(sign(SessionPayload(chatProfile, sessionId)), SessionPayload(chatProfile, sessionId))
    ensures forall other :: other != sessionId ==> GetProfile(r.0, other) == GetProfile(st, other)
    ensures r.0.signals == st.signals && r.0.snapshot == st.snapshot && r.0.linkCodes == st.linkCodes
    ensures r.0.events == st.events
  {
    var payload := SessionPayload(chatProfile, sessionId);
    (RegisterSession(st, sessionId, payload, linkedAt), Session(sign(payload), payload))
  }

  /** Looking the new session up gives back the returned profile plus `linkedAt`. */
  lemma SessionRegistered(st: Store, chatProfile: Profile, sessionId: string, linkedAt: string, sign: Profile -> string)
    ensures var (st1, s) := CreateSession(st, chatProfile, sessionId, linkedAt, sign);
      GetProfile(st1, sessionId) == Some(s.profile["linkedAt" := Str(linkedAt)])
  {
    var payload := SessionPayload(chatProfile, sessionId);
    assert payload["sessionId" := Str(sessionId)] == payload;
  }

  // `revokeSession(sessionId)` and `getProfile(sessionId)` are the store's own
  // `RevokeSession` and `GetProfile`.

  /** A session is found from its creation until it is revoked, and never after, while the
      other sessions are untouched throughout. */
  lemma SessionLifecycle(st: Store, chatProfile: Profile, sessionId: string, linkedAt: string, sign: Profile -> string, other: string)
    requires other != sessionId
    ensures var (st1, s) := CreateSession(st, chatProfile, sessionId, linkedAt, sign);
      var st2 := RevokeSession(st1, sessionId);
      && GetProfile(st1, sessionId) == Some(s.profile["linkedAt" := Str(linkedAt)])
      && GetProfile(st2, sessionId) == None
      && GetProfile(st2, other) == GetProfile(st, other)
  {
    SessionRegistered(st, chatProfile, sessionId, linkedAt, sign);
  }
}

=== FILE: signals.dfy ===
/** The records that travel through the pipeline: an insight as the AI gateway returns it, the
    signal draft the scheduler builds from it, and the stored signal. */
module Signals {
  import opened Js

  /** `meta` attached by the AI gateway: generation time (an opaque ISO text), the caller's
      request id (or `null`) and the quota left today. */
  datatype Meta = Meta(generatedAt: string, requestId: Value, remainingToday: nat)

  /** `generateInsight`'s result `{ ...data, meta }`: the parsed AI answer (any JSON value)
      with `meta` laid over it. */
  datatype Insight = Insight(data: Value, meta: Meta)

  /** The four message fields every formatter reads, each any JSON value. */
  datatype Content = Content(summary: Value, insights: Value, risk: Value, nextSteps: Value)

  /** The fields `insight.summary`, `insight.insights`, `insight.risk`, `insight.nextSteps`. */
  function ContentOf(i: Insight): Content {
    Content(Get(i.data, "summary"), Get(i.data, "insights"), Get(i.data, "risk"), Get(i.data, "nextSteps"))
  }

  /** The object the scheduler hands to `addSignal`. */
  datatype Draft = Draft(source: string, content: Content, meta: Meta)

  /** A stored signal: the draft plus a fresh `id` and `createdAt`. */
  datatype Signal = Signal(id: string, createdAt: string, source: string, content: Content, meta: Meta)

  /** `{ ...draft, id, createdAt }`. */
  function Stamp(d: Draft, id: string, createdAt: string): Signal {
    Signal(id, createdAt, d.source, d.content, d.meta)
  }
}

=== FILE: sorting.dfy ===
/** Ranking by a numeric key, as `Array.prototype.sort` with a numeric comparator followed by
    `slice(0, k)` does it. */
module Sorting {

  function Min(a: int, b: int): int {
    if a < b then a else b
  }

  /** Non-decreasing in `key`. */
  predicate Sorted<T>(s: seq<T>, key: T -> real) {
    forall i, j :: 0 <= i < j < |s| ==> key(s[i]) <= key(s[j])
  }

  /** Inserts `x` before the first element whose key is not smaller than its own. Applied from
      the back of the input, this keeps earlier input ahead of later input with the same key:
      the sort is stable, as `Array.prototype.sort` is. */
  function Insert<T>(x: T, s: seq<T>, key: T -> real): (r: seq<T>)
    requires Sorted(s, key)
    ensures Sorted(r, key)
    ensures multiset(r) == multiset(s) + multiset{x}
    ensures |r| == |s| + 1
    ensures r[0] == x || (|s| > 0 && r[0] == s[0])
  {
    if |s| == 0 || key(x) <= key(s[0]) then [x] + s
    else
      var rest := Insert(x, s[1..], key);
      assert s == [s[0]] + s[1..];
      assert forall k :: 0 <= k < |rest| ==> key(s[0]) <= key(rest[0]) <= key(rest[k]);
      [s[0]] + rest
  }

  /** `[...s].sort((a, b) => key(a) - key(b))`: a sorted permutation of `s`. */
  function Sort<T>(s: seq<T>, key: T -> real): (r: seq<T>)
    ensures Sorted(r, key)
    ensures multiset(r) == multiset(s)
    ensures |r| == |s|
  {
    if |s| == 0 then []
    else
      assert s == [s[0]] + s[1..];
      Insert(s[0], Sort(s[1..], key), key)
  }

  /** `.sort(comparator).slice(0, k)`: the first `k` elements of the ranking. */
  function Top<T>(s: seq<T>, key: T -> real, k: nat): (r: seq<T>)
    ensures |r| == Min(k, |s|)
    ensures Sorted(r, key)
    ensures multiset(r) <= multiset(s)
  {
    var sorted := Sort(s, key);
    var m := Min(k, |s|);
    assert sorted == sorted[..m] + sorted[m..];
    sorted[..m]
  }

  /** Nothing left out of the top `k` ranks strictly ahead of anything kept. */
  lemma TopLeavesNoBetter<T>(s: seq<T>, key: T -> real, k: nat, x: T, i: int)
    requires x in multiset(s) - multiset(Top(s, key, k))
    requires 0 <= i < |Top(s, key, k)|
    ensures key(Top(s, key, k)[i]) <= key(x)
  {
    var sorted := Sort(s, key);
    var m := Min(k, |s|);
    assert Top(s, key, k) == sorted[..m];
    InSuffix(sorted, m, x);
    var j :| m <= j < |sorted| && sorted[j] == x;
    assert sorted[..m][i] == sorted[i];
  }

  /** An element counted more often in `s` than in its first `m` entries lies after them. */
  lemma InSuffix<T>(s: seq<T>, m: nat, x: T)
    requires m <= |s| && x in multiset(s) - multiset(s[..m])
    ensures exists j :: m <= j < |s| && s[j] == x
  {
    var rest := s[m..];
    assert s == s[..m] + rest;
    assert multiset(s) == multiset(s[..m]) + multiset(rest);
    assert x in rest;
    var j :| 0 <= j < |rest| && rest[j] == x;
    assert s[m + j] == x;
  }

  /** When there are no more than `k` elements, the top `k` are all of them, in sorted order. */
  lemma TopOfFew<T>(s: seq<T>, key: T -> real, k: nat)
    requires |s| <= k
    ensures Top(s, key, k) == Sort(s, key)
  {
    assert Sort(s, key)[..|s|] == Sort(s, key);
  }

  /** Sorting input whose keys already ascend leaves it as it is. */
  lemma {:induction false} SortKeepsSorted<T>(s: seq<T>, key: T -> real)
    requires Sorted(s, key)
    ensures Sort(s, key) == s
  {
    if |s| > 0 {
      var t := s[1..];
      assert Sorted(t, key);
      SortKeepsSorted(t, key);
      SortStep(s, key);
      assert |t| > 0 ==> t[0] == s[1];
      InsertFront(s[0], t, key);
      assert [s[0]] + t == s;
    }
  }

  /** The first two steps of `Sort`: a non-empty input is its head inserted into the sorted
      tail, and a single element is sorted as it is. */
  lemma SortStep<T>(s: seq<T>, key: T -> real)
    requires |s| > 0
    ensures Sort(s, key) == Insert(s[0], Sort(s[1..], key), key)
    ensures |s| == 1 ==> Sort(s, key) == s
  {
    if |s| == 1 {
      assert s[1..] == [];
    }
  }

  /** An element no larger than the head is inserted in front. */
  lemma InsertFront<T>(x: T, s: seq<T>, key: T -> real)
    requires Sorted(s, key) && (|s| == 0 || key(x) <= key(s[0]))
    ensures Insert(x, s, key) == [x] + s
  {
  }

  /** An element larger than the head is inserted into the tail. */
  lemma InsertPast<T>(x: T, s: seq<T>, key: T -> real)
    requires Sorted(s, key) && |s| > 0 && key(s[0]) < key(x)
    ensures Sorted(s[1..], key)
    ensures Insert(x, s, key) == [s[0]] + Insert(x, s[1..], key)
  {
  }

  /** Of two elements, the one with the smaller key goes first. */
  lemma SortSwapsPair<T>(a: T, b: T, key: T -> real)
    requires key(b) < key(a)
    ensures Sort([a, b], key) == [b, a]
  {
    var ab := [a, b];
    SortStep(ab, key);
    SortStep(ab[1..], key);
    assert ab[1..] == [b];
    InsertPast(a, [b], key);
    assert [b][1..] == [];
    InsertFront(a, [], key);
  }

  /** Two elements whose keys ascend keep their order. */
  lemma SortKeepsPair<T>(b: T, c: T, key: T -> real)
    requires key(b) <= key(c)
    ensures Sort([b, c], key) == [b, c]
  {
    var bc := [b, c];
    SortStep(bc, key);
    assert bc[1..] == [c];
    SortStep([c], key);
    InsertFront(b, [c], key);
  }

  /** Of three elements, a smallest second one moves to the front and the rest keep order. */
  lemma SortMovesSecond<T>(a: T, b: T, c: T, key: T -> real)
    requires key(b) < key(a) <= key(c)
    ensures Sort([a, b, c], key) == [b, a, c]
  {
    var abc := [a, b, c];
    assert abc[1..] == [b, c];
    SortStep(abc, key);
    SortKeepsPair(b, c, key);
    InsertPast(a, [b, c], key);
    assert [b, c][1..] == [c];
    InsertFront(a, [c], key);
  }

  /** Three elements whose keys already ascend keep their order. */
  lemma SortKeepsThree<T>(a: T, b: T, c: T, key: T -> real)
    requires key(a) <= key(b) <= key(c)
    ensures Sort([a, b, c], key) == [a, b, c]
  {
    var abc := [a, b, c];
    assert abc[1..] == [b, c];
    SortStep(abc, key);
    SortKeepsPair(b, c, key);
    InsertFront(a, [b, c], key);
  }
}

=== FILE: store.dfy ===
/** The in-memory store (`backend/store.js`): the newest signals, the latest market snapshot, the
    one-time Telegram link codes with their expiry timers, and the web sessions. The module-level
    state becomes a `Store` value threaded through pure functions. The clock, fresh uuids and
    random codes are parameters, and the emitter's events are appended to a log that the
    listeners read in order. */
module Store {
  import opened Wrappers
  import opened Js
  import opened Signals
  import opened DexScreener

  /** At most this many signals are kept, newest first. */
  const SIGNAL_LIMIT: nat := 20
  /** A link code lives five minutes. */
  const LINK_CODE_TTL_MS: int := 5 * 60 * 1000

  /** A JSON object as a map from keys to values (key order is not modelled). */
  type Profile = map<string, Value>

  /** The market snapshot. `None` is `null`; before the first refresh `highlights` and
      `sourceTimestamp` are absent (`undefined`), which this model also writes `None`. */
  datatype Snapshot = Snapshot(
    tokens: seq<Token>,
    highlights: Option<Highlights>,
    sourceTimestamp: Option<string>,
    fetchedAt: Option<string>)

  /** What `setMarketSnapshot` may be handed: an array of tokens; an object whose `tokens`,
      `highlights` and `sourceTimestamp` may be missing (`None`, which also stands for a
      `tokens` that is not an array); or `null`/`undefined`. */
  datatype SnapshotArg =
    | TokenArray(items: seq<Token>)
    | Record(tokens: Option<seq<Token>>, highlights: Option<Highlights>, sourceTimestamp: Option<string>)
    | NoSnapshot

  /** A pending link code: the chat profile it was issued for (with `expiresAt` laid over it)
      and its expiry time in milliseconds. */
  datatype LinkEntry = LinkEntry(fields: Profile, expiresAt: int)

  /** The `setTimeout` scheduled by `createLinkCode`: at `at` it deletes `code`, whatever entry
      the code then holds. */
  datatype Timer = Timer(code: string, at: int)

  /** What the emitter broadcasts: `signals:update` with a copy of the list, `market:update`
      with the new snapshot. */
  datatype Event = SignalsUpdate(signals: seq<Signal>) | MarketUpdate(snapshot: Snapshot)

  datatype Store = Store(
    signals: seq<Signal>,
    snapshot: Snapshot,
    linkCodes: map<string, LinkEntry>,
    timers: set<Timer>,
    sessions: map<string, Profile>,
    events: seq<Event>)

  /** The state at start-up. */
  function Initial(): Store {
    Store([], Snapshot([], None, None, None), map[], {}, map[], [])
  }

  /** The list never exceeds the limit. */
  predicate Valid(st: Store) {
    |st.signals| <= SIGNAL_LIMIT
  }

  // ---------------------------------------------------------------------------------------
  // Signals

  /** `while (signals.length > SIGNAL_LIMIT) signals.pop()`. */
  function Evict(list: seq<Signal>): (r: seq<Signal>)
    ensures |r| == if |list| <= SIGNAL_LIMIT then |list| else SIGNAL_LIMIT
    ensures r == list[..|r|]
    decreases |list|
  {
    if |list| <= SIGNAL_LIMIT then list else Evict(list[..|list| - 1])
  }

  /** `addSignal(signal)`: the draft, stamped with a fresh `id` and the ISO time `createdAt`,
      goes to the front; the oldest signals beyond the limit are dropped; listeners receive
      the new list. */
  function AddSignal(st: Store, d: Draft, id: string, createdAt: string): (r: Store)
    ensures |r.signals| == if |st.signals| < SIGNAL_LIMIT then |st.signals| + 1 else SIGNAL_LIMIT
    ensures r.signals[0] == Stamp(d, id, createdAt)
    ensures r.signals[1..] == st.signals[..|r.signals| - 1]
    ensures Valid(r)
    ensures r.events == st.events + [SignalsUpdate(r.signals)]
    ensures r.snapshot == st.snapshot && r.linkCodes == st.linkCodes && r.timers == st.timers
    ensures r.sessions == st.sessions
  {
    var list := Evict([Stamp(d, id, createdAt)] + st.signals);
    assert list[1..] == st.signals[..|list| - 1];
    st.(signals := list, events := st.events + [SignalsUpdate(list)])
  }

  /** `getSignals()`: copies of the stored signals, newest first. */
  function GetSignals(st: Store): seq<Signal> {
    st.signals
  }

  /** The list cut to the limit, keeping its front. */
  function Cut(list: seq<Signal>): (r: seq<Signal>)
    ensures |r| <= SIGNAL_LIMIT
  {
    if |list| <= SIGNAL_LIMIT then list else list[..SIGNAL_LIMIT]
  }

  function Reverse<T>(s: seq<T>): (r: seq<T>)
    ensures |r| == |s|
    ensures forall i :: 0 <= i < |s| ==> r[i] == s[|s| - 1 - i]
  {
    if |s| == 0 then [] else Reverse(s[1..]) + [s[0]]
  }

  /** Adding the drafts one at a time, the i-th with uuid `ids[i]` at time `times[i]`. */
  function AddAll(st: Store, drafts: seq<Draft>, ids: seq<string>, times: seq<string>): Store
    requires |ids| == |drafts| && |times| == |drafts|
    decreases |drafts|
  {
    if |drafts| == 0 then st
    else AddAll(AddSignal(st, drafts[0], ids[0], times[0]), drafts[1..], ids[1..], times[1..])
  }

  function StampAll(drafts: seq<Draft>, ids: seq<string>, times: seq<string>): (r: seq<Signal>)
    requires |ids| == |drafts| && |times| == |drafts|
    ensures |r| == |drafts|
    ensures forall i :: 0 <= i < |drafts| ==> r[i] == Stamp(drafts[i], ids[i], times[i])
  {
    if |drafts| == 0 then []
    else [Stamp(drafts[0], ids[0], times[0])] + StampAll(drafts[1..], ids[1..], times[1..])
  }

  /** `Evict` is a cut to the limit. */
  lemma {:induction false} EvictIsCut(list: seq<Signal>)
    ensures Evict(list) == Cut(list)
  {
    var r := Evict(list);
    if |list| > SIGNAL_LIMIT {
      assert r == list[..SIGNAL_LIMIT];
    }
  }

  /** Cutting an inner part first changes nothing about the final cut. */
  lemma CutAbsorbs(a: seq<Signal>, b: seq<Signal>)
    ensures Cut(a + Cut(b)) == Cut(a + b)
  {
    if |b| > SIGNAL_LIMIT {
      var l := Cut(a + Cut(b));
      var m := Cut(a + b);
      assert |l| == |m| == SIGNAL_LIMIT;
      forall k | 0 <= k < SIGNAL_LIMIT ensures l[k] == m[k] {
        if k >= |a| {
          assert l[k] == b[k - |a|];
        }
      }
    }
  }

  /** The store keeps exactly the newest signals, newest first, cut to the limit, whatever the
      number of additions: the stamped drafts in reverse order of arrival, then the older list. */
  lemma {:induction false} AddAllKeepsNewest(st: Store, drafts: seq<Draft>, ids: seq<string>, times: seq<string>)
    requires |ids| == |drafts| && |times| == |drafts|
    requires Valid(st)
    ensures AddAll(st, drafts, ids, times).signals == Cut(Reverse(StampAll(drafts, ids, times)) + st.signals)
    decreases |drafts|
  {
    var stamped := StampAll(drafts, ids, times);
    if |drafts| == 0 {
      assert Reverse(stamped) + st.signals == st.signals;
    } else {
      var s := Stamp(drafts[0], ids[0], times[0]);
      var st1 := AddSignal(st, drafts[0], ids[0], times[0]);
      var rest := StampAll(drafts[1..], ids[1..], times[1..]);
      calc {
        AddAll(st, drafts, ids, times).signals;
        AddAll(st1, drafts[1..], ids[1..], times[1..]).signals;
        { AddAllKeepsNewest(st1, drafts[1..], ids[1..], times[1..]); }
        Cut(Reverse(rest) + st1.signals);
        { EvictIsCut([s] + st.signals); }
        Cut(Reverse(rest) + Cut([s] + st.signals));
        { CutAbsorbs(Reverse(rest), [s] + st.signals); }
        Cut(Reverse(rest) + ([s] + st.signals));
        { StampAllReversed(drafts, ids, times);
          assert Reverse(rest) + ([s] + st.signals) == Reverse(stamped) + st.signals; }
        Cut(Reverse(stamped) + st.signals);
      }
    }
  }

  lemma StampAllReversed(drafts: seq<Draft>, ids: seq<string>, times: seq<string>)
    requires |ids| == |drafts| && |times| == |drafts| && |drafts| > 0
    ensures Reverse(StampAll(drafts, ids, times))
      == Reverse(StampAll(drafts[1..], ids[1..], times[1..])) + [Stamp(drafts[0], ids[0], times[0])]
  {
    var stamped := StampAll(drafts, ids, times);
    assert stamped[1..] == StampAll(drafts[1..], ids[1..], times[1..]);
  }

  // ---------------------------------------------------------------------------------------
  // Market snapshot

  /** `setMarketSnapshot(snapshot)` at the ISO time `fetchedAt`: the token list is the argument
      itself when it is an array, else its `tokens` when that is an array, else empty;
      `highlights` and a non-empty `sourceTimestamp` are carried over, anything else becomes
      `null`; listeners receive the new snapshot. */
  function SetMarketSnapshot(st: Store, arg: SnapshotArg, fetchedAt: string): (r: Store)
    ensures arg.TokenArray? ==> r.snapshot == Snapshot(arg.items, None, None, Some(fetchedAt))
    ensures arg.Record? && arg.tokens.Some? ==> r.snapshot.tokens == arg.tokens.value
    ensures arg.Record? ==> r.snapshot.highlights == arg.highlights
    ensures arg.Record? && arg.sourceTimestamp.Some? && arg.sourceTimestamp.value != "" ==>
      r.snapshot.sourceTimestamp == arg.sourceTimestamp
    ensures arg.Record? && arg.sourceTimestamp == Some("") ==> r.snapshot.sourceTimestamp == None
    ensures arg.NoSnapshot? || (arg.Record? && arg.tokens.None?) ==> r.snapshot.tokens == []
    ensures arg.NoSnapshot? ==> r.snapshot == Snapshot([], None, None, Some(fetchedAt))
    ensures r.snapshot.fetchedAt == Some(fetchedAt)
    ensures r.events == st.events + [MarketUpdate(r.snapshot)]
    ensures r.signals == st.signals && r.linkCodes == st.linkCodes && r.timers == st.timers
    ensures r.sessions == st.sessions
  {
    var snap := match arg
      case TokenArray(items) => Snapshot(items, None, None, Some(fetchedAt))
      case Record(tokens, highlights, ts) =>
        Snapshot(tokens.GetOr([]), highlights, if ts == Some("") then None else ts, Some(fetchedAt))
      case NoSnapshot => Snapshot([], None, None, Some(fetchedAt));
    st.(snapshot := snap, events := st.events + [MarketUpdate(snap)])
  }

  /** `getMarketSnapshot()`. */
  function GetMarketSnapshot(st: Store): Snapshot {
    st.snapshot
  }

  /** The object `fetchLatestProfiles()` resolves to, as handed to `setMarketSnapshot`. */
  function FromProfiles(p: Profiles): SnapshotArg {
    Record(Some(p.tokens), Some(p.highlights), Some(p.sourceTimestamp))
  }

  // ---------------------------------------------------------------------------------------
  // Link codes

  /** `createLinkCode`'s answer `{ code, expiresAt }`. */
  datatype LinkCode = LinkCode(code: string, expiresAt: int)

  /** The profile a code hands back: the chat profile with `expiresAt` laid over it, and without
      `timeout` (the key that held the timer handle). */
  function Redeemed(chatProfile: Profile, expiresAt: int): Profile {
    (chatProfile - {"timeout"})["expiresAt" := Num(Finite(expiresAt as real))]
  }

  /** `createLinkCode(chatProfile)` at time `now` (milliseconds), `code` being the random
      six-character text: the entry expires five minutes later, and a timer is set to delete
      the code then. An existing entry under the same code is replaced, but its timer is not
      cancelled. */
  function CreateLinkCode(st: Store, chatProfile: Profile, code: string, now: int): (r: (Store, LinkCode))
    ensures r.1 == LinkCode(code, now + LINK_CODE_TTL_MS)
    ensures r.0.linkCodes == st.linkCodes[code := LinkEntry(Redeemed(chatProfile, now + LINK_CODE_TTL_MS), now + LINK_CODE_TTL_MS)]
    ensures r.0.timers == st.timers + {Timer(code, now + LINK_CODE_TTL_MS)}
    ensures r.0.signals == st.signals && r.0.snapshot == st.snapshot && r.0.sessions == st.sessions
    ensures r.0.events == st.events
  {
    var expiresAt := now + LINK_CODE_TTL_MS;
    var entry := LinkEntry(Redeemed(chatProfile, expiresAt), expiresAt);
    (st.(linkCodes := st.linkCodes[code := entry], timers := st.timers + {Timer(code, expiresAt)}), LinkCode(code, expiresAt))
  }

  /** `consumeLinkCode(code)` at time `now`: an unknown code gives `null`; a code whose expiry
      lies strictly before `now` is deleted and gives `null`; otherwise the code is deleted and
      its profile returned. Either way the entry's own timer is cleared. */
  function ConsumeLinkCode(st: Store, code: string, now: int): (r: (Store, Option<Profile>))
    ensures code !in st.linkCodes ==> r == (st, None)
    ensures code in st.linkCodes && st.linkCodes[code].expiresAt < now ==> r.1 == None
    ensures code in st.linkCodes && now <= st.linkCodes[code].expiresAt ==> r.1 == Some(st.linkCodes[code].fields)
    ensures code !in r.0.linkCodes
    ensures r.0.linkCodes == st.linkCodes - {code}
    ensures code in st.linkCodes ==> r.0.timers == st.timers - {Timer(code, st.linkCodes[code].expiresAt)}
    ensures r.0.signals == st.signals && r.0.snapshot == st.snapshot && r.0.sessions == st.sessions
    ensures r.0.events == st.events
  {
    if code !in st.linkCodes then (st, None)
    else
      var entry := st.linkCodes[code];
      var st' := st.(linkCodes := st.linkCodes - {code}, timers := st.timers - {Timer(code, entry.expiresAt)});
      if entry.expiresAt < now then (st', None) else (st', Some(entry.fields))
  }

  /** Whether a timer for `code` is due by `now`. */
  predicate Due(timers: set<Timer>, code: string, now: int) {
    exists t :: t in timers && t.code == code && t.at <= now
  }

  /** The event loop reaches time `now`: every timer due by then has fired and deleted its code. */
  function FireTimers(st: Store, now: int): (r: Store)
    ensures forall c :: c in r.linkCodes <==> c in st.linkCodes && !Due(st.timers, c, now)
    ensures forall c :: c in r.linkCodes ==> r.linkCodes[c] == st.linkCodes[c]
    ensures forall t :: t in r.timers <==> t in st.timers && now < t.at
    ensures r.signals == st.signals && r.snapshot == st.snapshot && r.sessions == st.sessions
    ensures r.events == st.events
  {
    st.(linkCodes := map c | c in st.linkCodes && !Due(st.timers, c, now) :: st.linkCodes[c],
        timers := set t | t in st.timers && now < t.at)
  }

  /** A code is good for one use: issued at `issued` and presented by `now` (at most five
      minutes later, the expiry instant included), it returns the chat profile; presented
      again, it is unknown. */
  lemma LinkCodeIsOneShot(st: Store, chatProfile: Profile, code: string, issued: int, now: int, later: int)
    requires now <= issued + LINK_CODE_TTL_MS
    ensures var (st1, lc) := CreateLinkCode(st, chatProfile, code, issued);
      var (st2, first) := ConsumeLinkCode(st1, code, now);
      && first == Some(Redeemed(chatProfile, lc.expiresAt))
      && ConsumeLinkCode(st2, code, later).1 == None
  {
  }

  /** The redeemed profile carries the chat profile's fields (other than `expiresAt` and
      `timeout`) unchanged, and the expiry as a number. */
  lemma RedeemedKeepsProfile(chatProfile: Profile, expiresAt: int)
    ensures var p := Redeemed(chatProfile, expiresAt);
      && p["expiresAt"] == Num(Finite(expiresAt as real))
      && "timeout" !in p
      && (forall k :: k in chatProfile && k != "expiresAt" && k != "timeout" ==> k in p && p[k] == chatProfile[k])
      && (forall k :: k in p ==> k in chatProfile || k == "expiresAt")
  {
  }

  /** Presented one millisecond after its expiry, a code is refused, and it is gone for good. */
  lemma ExpiredCodeRefused(st: Store, chatProfile: Profile, code: string, issued: int, later: int)
    ensures var (st1, lc) := CreateLinkCode(st, chatProfile, code, issued);
      var (st2, r) := ConsumeLinkCode(st1, code, lc.expiresAt + 1);
      r == None && ConsumeLinkCode(st2, code, later).1 == None
  {
  }

  /** Once the timer of a code has fired, the code is unknown, even at its expiry instant. */
  lemma TimerRemovesCode(st: Store, chatProfile: Profile, code: string, issued: int, now: int)
    requires issued + LINK_CODE_TTL_MS <= now
    ensures var (st1, _) := CreateLinkCode(st, chatProfile, code, issued);
      ConsumeLinkCode(FireTimers(st1, now), code, now).1 == None
  {
    var (st1, _) := CreateLinkCode(st, chatProfile, code, issued);
    assert Timer(code, issued + LINK_CODE_TTL_MS) in st1.timers;
  }

  /** A code issued again while its first issue is pending is deleted by the first issue's
      timer, before its own five minutes are up. */
  lemma ReissuedCodeDiesEarly(st: Store, p1: Profile, p2: Profile, code: string, t1: int, t2: int)
    requires t1 < t2
    ensures var (st1, _) := CreateLinkCode(st, p1, code, t1);
      var (st2, lc2) := CreateLinkCode(st1, p2, code, t2);
      && t1 + LINK_CODE_TTL_MS < lc2.expiresAt
      && ConsumeLinkCode(FireTimers(st2, t1 + LINK_CODE_TTL_MS), code, t1 + LINK_CODE_TTL_MS).1 == None
  {
    var (st1, _) := CreateLinkCode(st, p1, code, t1);
    var (st2, _) := CreateLinkCode(st1, p2, code, t2);
    assert Timer(code, t1 + LINK_CODE_TTL_MS) in st2.timers;
  }

  // ---------------------------------------------------------------------------------------
  // Sessions

  /** `registerSession(sessionId, profile)` at the ISO time `linkedAt`: the profile is stored
      with `sessionId` and `linkedAt` laid over it. */
  function RegisterSession(st: Store, sessionId: string, profile: Profile, linkedAt: string): (r: Store)
    ensures GetProfile(r, sessionId) == Some(profile["sessionId" := Str(sessionId)]["linkedAt" := Str(linkedAt)])
    ensures forall other :: other != sessionId ==> GetProfile(r, other) == GetProfile(st, other)
    ensures r.signals == st.signals && r.snapshot == st.snapshot && r.linkCodes == st.linkCodes
    ensures r.timers == st.timers && r.events == st.events
  {
    st.(sessions := st.sessions[sessionId := profile["sessionId" := Str(sessionId)]["linkedAt" := Str(linkedAt)]])
  }

  /** `getProfile(sessionId)`: the stored profile, or `null`. */
  function GetProfile(st: Store, sessionId: string): (r: Option<Profile>)
    ensures r.Some? <==> sessionId in st.sessions
  {
    if sessionId in st.sessions then Some(st.sessions[sessionId]) else None
  }

  /** `revokeSession(sessionId)`: the session is forgotten; others stay. */
  function RevokeSession(st: Store, sessionId: string): (r: Store)
    ensures GetProfile(r, sessionId) == None
    ensures forall other :: other != sessionId ==> GetProfile(r, other) == GetProfile(st, other)
    ensures r.signals == st.signals && r.snapshot == st.snapshot && r.linkCodes == st.linkCodes
    ensures r.timers == st.timers && r.events == st.events
  {
    st.(sessions := st.sessions - {sessionId})
  }
}

=== FILE: telegram_bot.dfy ===
/** The Telegram side (`backend/services/telegramBot.js`): the MarkdownV2 escaping, the signal
    message, the channel notification, the `signals:update` listener, and the `/signals`, `/top`
    and `/link` commands as decisions over the store. Date rendering (`toLocaleString`), the
    default-locale number text of `/top`, and the HTTP fetch are parameters. */
module TelegramBot {
  import opened Wrappers
  import opened Js
  import opened Signals
  import opened DexScreener
  import opened Store
  import opened SessionLinker
  import opened NumberFormat

  // ---------------------------------------------------------------------------------------
  // escapeMarkdown

  /** The characters `escapeMarkdown` puts a backslash before, in the order of its
      `replace` calls. */
  const SPECIALS: seq<char> := ['_', '*', '~', '`', '>', '#', '+', '-', '=', '|', '{', '}', '.', '!']

  /** `s.replace(/c/g, '\\' + c)` for a single character `c`. */
  function ReplaceAll(s: string, c: char): (r: string)
    decreases |s|
  {
    if |s| == 0 then "" else (if s[0] == c then ['\\', c] else [s[0]]) + ReplaceAll(s[1..], c)
  }

  /** The `replace` calls applied one after another, for the characters of `cs` in order. */
  function ReplaceEach(s: string, cs: seq<char>): string
    decreases |cs|
  {
    if |cs| == 0 then s else ReplaceEach(ReplaceAll(s, cs[0]), cs[1..])
  }

  /** `escapeMarkdown(text)`. */
  function EscapeMarkdown(s: string): string {
    ReplaceEach(s, SPECIALS)
  }

  /** The one-pass reading of the escaping: each character of `cs` gets a backslash before it,
      every other character is kept. */
  function EscapedChar(c: char, cs: seq<char>): string {
    if c in cs then ['\\', c] else [c]
  }

  function EscapeWith(s: string, cs: seq<char>): string
    decreases |s|
  {
    if |s| == 0 then "" else EscapedChar(s[0], cs) + EscapeWith(s[1..], cs)
  }

  /** How many characters of `s` are in `cs`. */
  function Occurrences(s: string, cs: seq<char>): nat
    decreases |s|
  {
    if |s| == 0 then 0 else (if s[0] in cs then 1 else 0) + Occurrences(s[1..], cs)
  }

  predicate Distinct(cs: seq<char>) {
    forall i, j :: 0 <= i < j < |cs| ==> cs[i] != cs[j]
  }

  lemma {:induction false} ReplaceAllConcat(a: string, b: string, c: char)
    ensures ReplaceAll(a + b, c) == ReplaceAll(a, c) + ReplaceAll(b, c)
    decreases |a|
  {
    if |a| == 0 {
      assert a + b == b;
    } else {
      assert (a + b)[1..] == a[1..] + b;
      ReplaceAllConcat(a[1..], b, c);
    }
  }

  /** Replacing one more character in an escaped text escapes that character as well, as long
      as it is neither an already escaped character nor the backslash. */
  lemma {:induction false} ReplaceAfterEscape(s: string, done: seq<char>, c: char)
    requires c !in done && c != '\\'
    ensures ReplaceAll(EscapeWith(s, done), c) == EscapeWith(s, done + [c])
    decreases |s|
  {
    if |s| > 0 {
      var head := EscapedChar(s[0], done);
      ReplaceAllConcat(head, EscapeWith(s[1..], done), c);
      ReplaceAfterEscape(s[1..], done, c);
      if s[0] in done {
        assert ReplaceAll(head, c) == ['\\'] + ReplaceAll([s[0]], c) by {
          assert head == ['\\'] + [s[0]];
          ReplaceAllConcat(['\\'], [s[0]], c);
        }
        assert ReplaceAll(head, c) == EscapedChar(s[0], done + [c]);
      } else {
        assert ReplaceAll(head, c) == EscapedChar(s[0], done + [c]);
      }
    }
  }

  lemma DistinctSplit(done: seq<char>, rest: seq<char>)
    requires Distinct(done + rest) && |rest| > 0
    ensures rest[0] !in done && Distinct(done + [rest[0]] + rest[1..])
  {
    assert done + [rest[0]] + rest[1..] == done + rest;
    forall i | 0 <= i < |done| ensures done[i] != rest[0] {
      assert (done + rest)[i] == done[i];
      assert (done + rest)[|done|] == rest[0];
    }
  }

  /** The chain of `replace` calls on an escaped text equals one pass over the union of the
      character sets, provided no character comes twice and none is the backslash. */
  lemma {:induction false} ChainEscapes(s: string, done: seq<char>, rest: seq<char>)
    requires '\\' !in done + rest && Distinct(done + rest)
    ensures ReplaceEach(EscapeWith(s, done), rest) == EscapeWith(s, done + rest)
    decreases |rest|
  {
    if |rest| == 0 {
      assert done + rest == done;
    } else {
      DistinctSplit(done, rest);
      assert rest[0] in done + rest;
      ReplaceAfterEscape(s, done, rest[0]);
      assert done + [rest[0]] + rest[1..] == done + rest;
      ChainEscapes(s, done + [rest[0]], rest[1..]);
    }
  }

  lemma {:induction false} EscapeWithNothing(s: string)
    ensures EscapeWith(s, []) == s
    decreases |s|
  {
    if |s| > 0 {
      EscapeWithNothing(s[1..]);
      assert s == [s[0]] + s[1..];
    }
  }

  /** The fourteen `replace` calls amount to one pass that puts a backslash before each of the
      fourteen characters and keeps everything else, backslashes and brackets included: no call
      re-escapes what an earlier one inserted. */
  lemma EscapeMarkdownSinglePass(s: string)
    ensures EscapeMarkdown(s) == EscapeWith(s, SPECIALS)
  {
    SpecialsDistinct();
    EscapeWithNothing(s);
    assert [] + SPECIALS == SPECIALS;
    ChainEscapes(s, [], SPECIALS);
  }

  lemma SpecialsDistinct()
    ensures Distinct(SPECIALS) && '\\' !in SPECIALS
  {
  }

  /** Escaping adds exactly one character per special character. */
  lemma {:induction false} EscapedLength(s: string, cs: seq<char>)
    ensures |EscapeWith(s, cs)| == |s| + Occurrences(s, cs)
    decreases |s|
  {
    if |s| > 0 {
      EscapedLength(s[1..], cs);
    }
  }

  /** Reading an escaped text back: a backslash before a special character is dropped. */
  function Unescape(t: string): string
    decreases |t|
  {
    if |t| == 0 then ""
    else if |t| >= 2 && t[0] == '\\' && t[1] in SPECIALS then [t[1]] + Unescape(t[2..])
    else [t[0]] + Unescape(t[1..])
  }

  lemma EscapedStart(s: string)
    requires |EscapeWith(s, SPECIALS)| > 0
    ensures EscapeWith(s, SPECIALS)[0] !in SPECIALS
  {
    assert '\\' !in SPECIALS;
  }

  /** Escaping loses nothing: the original text can be read back. */
  lemma {:induction false} UnescapeEscape(s: string)
    ensures Unescape(EscapeWith(s, SPECIALS)) == s
    decreases |s|
  {
    if |s| > 0 {
      var e := EscapeWith(s, SPECIALS);
      var rest := EscapeWith(s[1..], SPECIALS);
      UnescapeEscape(s[1..]);
      assert '\\' !in SPECIALS;
      if s[0] in SPECIALS {
        assert e == ['\\', s[0]] + rest;
        assert e[2..] == rest;
      } else {
        assert e == [s[0]] + rest;
        assert e[1..] == rest;
        if |rest| > 0 {
          EscapedStart(s[1..]);
        }
      }
      assert s == [s[0]] + s[1..];
    }
  }

  /** `escapeMarkdown(v)` for whatever value it is handed: `undefined` takes the default `''`,
      a string is escaped, anything else has no `replace`. */
  function EscapeValue(v: Value): (r: Result<string, Thrown>)
    ensures v.Undefined? ==> r == Ok("")
    ensures v.Str? ==> r == Ok(EscapeMarkdown(v.s))
    ensures r.Err? <==> !v.Undefined? && !v.Str?
  {
    match v
    case Undefined => Ok("")
    case Str(s) => Ok(EscapeMarkdown(s))
    case _ => Err(TypeError("text.replace is not a function"))
  }

  // ---------------------------------------------------------------------------------------
  // formatSignal

  /** What the message is built from: a stored signal or a fresh insight, both of which carry
      the four content fields and `meta.generatedAt`. */
  datatype Shown = Shown(content: Content, generatedAt: string)

  function ShownSignal(s: Signal): Shown {
    Shown(s.content, s.meta.generatedAt)
  }

  function ShownInsight(i: Insight): Shown {
    Shown(ContentOf(i), i.meta.generatedAt)
  }

  /** `prefix + text` when the text could be produced. */
  function Prefixed(prefix: string, r: Result<string, Thrown>): (q: Result<string, Thrown>)
    ensures r.Err? ==> q == Err(r.error)
    ensures r.Ok? ==> q == Ok(prefix + r.value)
  {
    match r
    case Err(e) => Err(e)
    case Ok(t) => Ok(prefix + t)
  }

  /** `(v * 100).toFixed(0)`. */
  function Percent(v: Value): string {
    match ToNumber(v)
    case Finite(x) => ToFixed(x * 100.0, 0)
    case NaN => "NaN"
    case PosInfinity => "Infinity"
    case NegInfinity => "-Infinity"
  }

  /** One bullet of the insight list; reading a field of `undefined` or `null` throws. */
  function InsightLine(item: Value): (r: Result<string, Thrown>)
    ensures r.Ok? ==> |r.value| > 0 && r.value[0] == '\U{2022}'
  {
    if item.Undefined? || item.Null? then Err(TypeError("Cannot read properties of " + Display(item)))
    else
      match EscapeValue(Get(item, "symbol"))
      case Err(e) => Err(e)
      case Ok(symbol) =>
        match EscapeValue(Get(item, "insight"))
        case Err(e) => Err(e)
        case Ok(text) =>
          Ok("\U{2022} *" + symbol + "*: " + text + " (confidence " + Percent(Get(item, "confidence")) + "%)")
  }

  /** `items.map(...)`: the bullets in order, or the first error. */
  function InsightLines(items: seq<Value>): (r: Result<seq<string>, Thrown>)
    ensures r.Ok? ==> |r.value| == |items|
    ensures r.Ok? ==> forall i :: 0 <= i < |r.value| ==> r.value[i] != ""
  {
    MapAll(items, InsightLine)
  }

  /** `(nextSteps || []).join(' • ') || 'Follow up later'`. */
  function StepsText(nextSteps: Value): (r: Result<string, Thrown>)
    ensures r.Ok? ==> r.value != ""
  {
    match Or(nextSteps, Arr([]))
    case Arr(items) =>
      var joined := JoinValues(items, " \U{2022} ");
      Ok(if joined == "" then "Follow up later" else joined)
    case _ => Err(TypeError("join is not a function"))
  }

  function HeaderLine(date: string): (r: string)
    ensures r != ""
  {
    "*MetaPulse Signal Update* \U{2014} " + EscapeMarkdown(date)
  }

  function SummaryLine(c: Content): (r: Result<string, Thrown>)
    ensures r.Ok? ==> r.value != ""
  {
    Prefixed("*Summary*: ", EscapeValue(Or(c.summary, Str("N/A"))))
  }

  function RiskLine(c: Content): (r: Result<string, Thrown>)
    ensures r.Ok? ==> r.value != ""
  {
    Prefixed("*Risk*: ", EscapeValue(Or(c.risk, Str("N/A"))))
  }

  function StepsLine(c: Content): (r: Result<string, Thrown>)
    ensures r.Ok? ==> r.value != ""
  {
    match StepsText(c.nextSteps)
    case Err(e) => Err(e)
    case Ok(t) => Ok("Next steps: " + EscapeMarkdown(t))
  }

  lemma {:induction false} EscapeWithout(s: string, cs: seq<char>)
    requires forall i :: 0 <= i < |s| ==> s[i] !in cs
    ensures EscapeWith(s, cs) == s
    decreases |s|
  {
    if |s| > 0 {
      EscapeWithout(s[1..], cs);
      assert s == [s[0]] + s[1..];
    }
  }

  /** Text without any of the fourteen characters passes through `escapeMarkdown` unchanged. */
  lemma PlainText(s: string)
    requires forall i :: 0 <= i < |s| ==> s[i] !in SPECIALS
    ensures EscapeMarkdown(s) == s
  {
    EscapeMarkdownSinglePass(s);
    EscapeWithout(s, SPECIALS);
  }

  lemma DefaultTextsPlain(s: string)
    requires s == "N/A" || s == "Follow up later"
    ensures EscapeMarkdown(s) == s
  {
    assert forall i :: 0 <= i < |s| ==> s[i] !in SPECIALS;
    PlainText(s);
  }

  lemma SummaryDefault(c: Content)
    requires !Truthy(c.summary)
    ensures SummaryLine(c) == Ok("*Summary*: " + "N/A")
  {
    DefaultTextsPlain("N/A");
  }

  lemma RiskDefault(c: Content)
    requires !Truthy(c.risk)
    ensures RiskLine(c) == Ok("*Risk*: " + "N/A")
  {
    DefaultTextsPlain("N/A");
  }

  lemma StepsDefault(c: Content)
    requires !Truthy(c.nextSteps) || c.nextSteps == Arr([])
    ensures StepsLine(c) == Ok("Next steps: " + "Follow up later")
  {
    DefaultTextsPlain("Follow up later");
  }

  /** A missing summary or risk reads `N/A`; missing or empty next steps read
      `Follow up later`. */
  lemma FormatSignalDefaults(c: Content)
    ensures !Truthy(c.summary) ==> SummaryLine(c) == Ok("*Summary*: " + "N/A")
    ensures !Truthy(c.risk) ==> RiskLine(c) == Ok("*Risk*: " + "N/A")
    ensures !Truthy(c.nextSteps) || c.nextSteps == Arr([]) ==> StepsLine(c) == Ok("Next steps: " + "Follow up later")
  {
    if !Truthy(c.summary) { SummaryDefault(c); }
    if !Truthy(c.risk) { RiskDefault(c); }
    if !Truthy(c.nextSteps) || c.nextSteps == Arr([]) { StepsDefault(c); }
  }

  /** The rendering time: `generatedAt`, or the current time when it is empty. */
  function ShownAt(generatedAt: string, now: string): string {
    if generatedAt != "" then generatedAt else now
  }

  /** The parts of `formatSignal`'s message. */
  datatype Parts = Parts(header: string, summary: string, lines: seq<string>, risk: string, steps: string)

  /** The insight lines: one per item of an array, `Insights pending.` for anything else. */
  function InsightBlock(insights: Value): (r: Result<seq<string>, Thrown>)
    ensures r.Ok? ==> forall i :: 0 <= i < |r.value| ==> r.value[i] != ""
    ensures !insights.Arr? ==> r == Ok(["Insights pending."])
  {
    match insights
    case Arr(items) => InsightLines(items)
    case _ => Ok(["Insights pending."])
  }

  /** The parts, taken in the order they are evaluated; the first that threw decides the error. */
  function Assemble(block: Result<seq<string>, Thrown>, header: string, summary: Result<string, Thrown>,
                    risk: Result<string, Thrown>, steps: Result<string, Thrown>): (r: Result<Parts, Thrown>)
    ensures r.Ok? <==> block.Ok? && summary.Ok? && risk.Ok? && steps.Ok?
    ensures r.Ok? ==> r.value == Parts(header, summary.value, block.value, risk.value, steps.value)
    ensures block.Err? ==> r == Err(block.error)
    ensures block.Ok? && summary.Err? ==> r == Err(summary.error)
  {
    match block
    case Err(e) => Err(e)
    case Ok(lines) =>
      match summary
      case Err(e) => Err(e)
      case Ok(sum) =>
        match risk
        case Err(e) => Err(e)
        case Ok(rsk) =>
          match steps
          case Err(e) => Err(e)
          case Ok(stp) => Ok(Parts(header, sum, lines, rsk, stp))
  }

  /** The parts of `formatSignal`'s message in its evaluation order: the insight lines first,
      then the header, summary, risk and next-step lines. */
  function MessageParts(s: Shown, localeDateTime: string -> string, now: string): Result<Parts, Thrown> {
    Assemble(InsightBlock(s.content.insights), HeaderLine(localeDateTime(ShownAt(s.generatedAt, now))),
      SummaryLine(s.content), RiskLine(s.content), StepsLine(s.content))
  }

  /** Every part has text, and so does each insight line. */
  lemma PartsNonEmpty(s: Shown, localeDateTime: string -> string, now: string)
    requires MessageParts(s, localeDateTime, now).Ok?
    ensures var p := MessageParts(s, localeDateTime, now).value;
      && p.header != "" && p.summary != "" && p.risk != "" && p.steps != ""
      && forall i :: 0 <= i < |p.lines| ==> p.lines[i] != ""
  {
  }

  /** The array literal of `formatSignal`: the parts with an empty separator between each two,
      the insight lines joined into one block. */
  function Sections(s: Shown, localeDateTime: string -> string, now: string): Result<seq<string>, Thrown> {
    match MessageParts(s, localeDateTime, now)
    case Err(e) => Err(e)
    case Ok(p) => Ok([p.header, "", p.summary, "", Join(p.lines, "\n"), "", p.risk, "", p.steps])
  }

  /** `.filter(Boolean)` on strings: the non-empty ones, in order. */
  function Kept(parts: seq<string>): (r: seq<string>)
    ensures forall i :: 0 <= i < |r| ==> r[i] != ""
    decreases |parts|
  {
    if |parts| == 0 then [] else (if parts[0] == "" then [] else [parts[0]]) + Kept(parts[1..])
  }

  /** `formatSignal(signal)`. */
  function FormatSignal(signal: Option<Shown>, localeDateTime: string -> string, now: string): (r: Result<string, Thrown>)
    ensures signal.None? ==> r == Ok("No insights available yet.")
  {
    match signal
    case None => Ok("No insights available yet.")
    case Some(s) =>
      match Sections(s, localeDateTime, now)
      case Err(e) => Err(e)
      case Ok(parts) => Ok(Join(Kept(parts), "\n"))
  }

  /** The lines of the message, written out: header, summary, then one line per insight (or
      `Insights pending.` when `insights` is not an array), then risk and next steps. */
  function MessageLines(s: Shown, localeDateTime: string -> string, now: string): Result<seq<string>, Thrown> {
    match MessageParts(s, localeDateTime, now)
    case Err(e) => Err(e)
    case Ok(p) => Ok([p.header, p.summary] + p.lines + [p.risk, p.steps])
  }

  lemma KeptCons(x: string, rest: seq<string>)
    ensures Kept([x] + rest) == (if x == "" then [] else [x]) + Kept(rest)
  {
    assert ([x] + rest)[1..] == rest;
  }

  /** `filter(Boolean)` on the nine sections keeps the four fixed lines and the block when it
      is non-empty. */
  lemma KeptSections(header: string, summary: string, block: string, risk: string, steps: string)
    requires header != "" && summary != "" && risk != "" && steps != ""
    ensures Kept([header, "", summary, "", block, "", risk, "", steps])
         == [header, summary] + (if block == "" then [] else [block]) + [risk, steps]
  {
    KeptCons(steps, []);
    KeptCons("", [steps]);
    KeptCons(risk, ["", steps]);
    KeptCons("", [risk, "", steps]);
    KeptCons(block, ["", risk, "", steps]);
    KeptCons("", [block, "", risk, "", steps]);
    KeptCons(summary, ["", block, "", risk, "", steps]);
    KeptCons("", [summary, "", block, "", risk, "", steps]);
    KeptCons(header, ["", summary, "", block, "", risk, "", steps]);
  }

  /** Joining the block as one part is joining its lines as parts. */
  lemma JoinBlock(header: string, summary: string, lines: seq<string>, risk: string, steps: string)
    requires |lines| > 0
    ensures Join([header, summary] + [Join(lines, "\n")] + [risk, steps], "\n")
         == Join([header, summary] + lines + [risk, steps], "\n")
  {
    var block := Join(lines, "\n");
    JoinConcat([header, summary], [block], '\n');
    JoinConcat([header, summary] + [block], [risk, steps], '\n');
    JoinConcat([header, summary], lines, '\n');
    JoinConcat([header, summary] + lines, [risk, steps], '\n');
  }

  /** With the four fixed lines non-empty, dropping the empty separators and joining gives the
      insight lines spread between summary and risk. */
  lemma JoinSections(header: string, summary: string, lines: seq<string>, risk: string, steps: string)
    requires header != "" && summary != "" && risk != "" && steps != ""
    requires forall i :: 0 <= i < |lines| ==> lines[i] != ""
    ensures Join(Kept([header, "", summary, "", Join(lines, "\n"), "", risk, "", steps]), "\n")
         == Join([header, summary] + lines + [risk, steps], "\n")
  {
    var block := Join(lines, "\n");
    var parts := [header, "", summary, "", block, "", risk, "", steps];
    var target := [header, summary] + lines + [risk, steps];
    if |lines| == 0 {
      assert Kept(parts) == target by {
        KeptSections(header, summary, block, risk, steps);
        assert lines == [];
        assert [header, summary] + [] == [header, summary];
      }
    } else {
      assert block != "" by { JoinHead(lines); }
      var spread := [header, summary] + [block] + [risk, steps];
      assert Kept(parts) == spread by {
        KeptSections(header, summary, block, risk, steps);
      }
      assert Join(spread, "\n") == Join(target, "\n") by {
        JoinBlock(header, summary, lines, risk, steps);
      }
    }
  }

  lemma FramedNonEmpty(a: string, b: string, mid: seq<string>, c: string, d: string)
    requires a != "" && b != "" && c != "" && d != ""
    requires forall i :: 0 <= i < |mid| ==> mid[i] != ""
    ensures var all := [a, b] + mid + [c, d];
      forall i :: 0 <= i < |all| ==> all[i] != ""
  {
    var all := [a, b] + mid + [c, d];
    forall i | 0 <= i < |all| ensures all[i] != "" {
      if 2 <= i < 2 + |mid| {
        assert all[i] == mid[i - 2];
      }
    }
  }

  /** Every written-out line has text: the fixed lines start with their labels, and each
      insight line with its bullet. */
  lemma MessageLinesNonEmpty(s: Shown, localeDateTime: string -> string, now: string)
    requires MessageLines(s, localeDateTime, now).Ok?
    ensures var lines := MessageLines(s, localeDateTime, now).value;
      forall i :: 0 <= i < |lines| ==> lines[i] != ""
  {
    var p := MessageParts(s, localeDateTime, now).value;
    PartsNonEmpty(s, localeDateTime, now);
    FramedNonEmpty(p.header, p.summary, p.lines, p.risk, p.steps);
  }

  /** `formatSignal` joins exactly the written-out lines: the empty separators are gone, and
      an insight list is spread one insight per line. Every line is non-empty. */
  lemma FormatSignalLines(s: Shown, localeDateTime: string -> string, now: string)
    ensures FormatSignal(Some(s), localeDateTime, now).Ok? <==> MessageLines(s, localeDateTime, now).Ok?
    ensures MessageLines(s, localeDateTime, now).Ok? ==>
      && FormatSignal(Some(s), localeDateTime, now).value == Join(MessageLines(s, localeDateTime, now).value, "\n")
      && forall i :: 0 <= i < |MessageLines(s, localeDateTime, now).value| ==> MessageLines(s, localeDateTime, now).value[i] != ""
  {
    if MessageParts(s, localeDateTime, now).Ok? {
      var p := MessageParts(s, localeDateTime, now).value;
      PartsNonEmpty(s, localeDateTime, now);
      JoinSections(p.header, p.summary, p.lines, p.risk, p.steps);
      MessageLinesNonEmpty(s, localeDateTime, now);
    }
  }

  /** When no line itself contains a newline, the message splits back into those lines: the
      message has no empty line. */
  lemma MessageHasNoEmptyLine(s: Shown, localeDateTime: string -> string, now: string)
    requires MessageLines(s, localeDateTime, now).Ok?
    requires forall i :: 0 <= i < |MessageLines(s, localeDateTime, now).value| ==>
      Excludes(MessageLines(s, localeDateTime, now).value[i], '\n')
    ensures var lines := Split(FormatSignal(Some(s), localeDateTime, now).value, '\n');
      && lines == MessageLines(s, localeDateTime, now).value
      && forall i :: 0 <= i < |lines| ==> lines[i] != ""
  {
    FormatSignalLines(s, localeDateTime, now);
    SplitJoin(MessageLines(s, localeDateTime, now).value, '\n');
  }

  // ---------------------------------------------------------------------------------------
  // The bot instance

  /** `initTelegramBot(io)`: without a bot token the bot is a stub; otherwise it runs, with or
      without a broadcast chat id. */
  datatype Bot = Disabled | Enabled(broadcastChatId: Option<string>)

  function BotFor(token: Option<string>, broadcastChatId: Option<string>): (r: Bot)
    ensures r.Disabled? <==> token.None? || token.value == ""
    ensures r.Enabled? ==> r.broadcastChatId == broadcastChatId
  {
    if token.Some? && token.value != "" then Enabled(broadcastChatId) else Disabled
  }

  /** A message to a chat. */
  datatype Outgoing = Outgoing(chatId: string, text: string)

  /** What calling `notifyChannel(signal)` returns: the stub returns `undefined`; the real one
      returns a promise that always resolves, after sending `message` if it sent anything. */
  datatype Notified = NoPromise | Resolves(message: Option<Outgoing>)

  /** `notifyChannel(signal)`. A failed send is caught and logged, so its outcome does not
      matter here. */
  function NotifyChannel(bot: Bot, s: Shown, localeDateTime: string -> string, now: string): (r: Notified)
    ensures bot.Disabled? <==> r == NoPromise
    ensures bot.Enabled? && (bot.broadcastChatId.None? || bot.broadcastChatId == Some("")) ==> r == Resolves(None)
    ensures r.Resolves? && r.message.Some? ==>
      && bot.broadcastChatId == Some(r.message.value.chatId) && r.message.value.chatId != ""
      && FormatSignal(Some(s), localeDateTime, now) == Ok(r.message.value.text)
    ensures (bot.Enabled? && bot.broadcastChatId.Some? && bot.broadcastChatId.value != "" &&
             FormatSignal(Some(s), localeDateTime, now).Ok?) ==>
      r == Resolves(Some(Outgoing(bot.broadcastChatId.value, FormatSignal(Some(s), localeDateTime, now).value)))
  {
    match bot
    case Disabled => NoPromise
    case Enabled(chat) =>
      if chat.None? || chat.value == "" then Resolves(None)
      else
        match FormatSignal(Some(s), localeDateTime, now)
        case Err(_) => Resolves(None)
        case Ok(text) => Resolves(Some(Outgoing(chat.value, text)))
  }

  /** `signalListener(signals)`: the newest signal is forwarded to the sockets, and nothing
      for an empty list. */
  function SignalListener(signals: seq<Signal>): (r: Option<Signal>)
    ensures r.None? <==> |signals| == 0
    ensures r.Some? ==> r.value == signals[0]
  {
    if |signals| > 0 then Some(signals[0]) else None
  }

  /** After `addSignal`, the listener forwards exactly the signal just stored. */
  lemma ListenerForwardsNewSignal(st: Store, d: Draft, id: string, createdAt: string)
    ensures var st1 := AddSignal(st, d, id, createdAt);
      && |st1.events| == |st.events| + 1
      && st1.events[|st.events|].SignalsUpdate?
      && SignalListener(st1.events[|st.events|].signals) == Some(Stamp(d, id, createdAt))
  {
  }

  // ---------------------------------------------------------------------------------------
  // Commands

  /** `/signals`: the newest stored signal as a message. */
  function SignalsCommand(st: Store, localeDateTime: string -> string, now: string): (r: Result<string, Thrown>)
    ensures |st.signals| == 0 ==> r == Ok("No insights available yet.")
  {
    var list := GetSignals(st);
    FormatSignal(if |list| > 0 then Some(ShownSignal(list[0])) else None, localeDateTime, now)
  }

  const TOP_FAILED: string := "Unable to fetch data at the moment."
  const TOP_EMPTY: string := "No data available."

  /** One line of `/top`; `localeNumber` is the default-locale `toLocaleString()`. */
  function TopRow(index: nat, t: Token, localeNumber: real -> string): (r: Result<string, Thrown>)
    ensures r.Ok? ==> |r.value| > 0 && r.value[0] == '#'
    ensures r.Err? <==> !t.symbol.Undefined? && !t.symbol.Str?
  {
    match EscapeValue(t.symbol)
    case Err(e) => Err(e)
    case Ok(symbol) =>
      Ok("#" + NatToString(index + 1) + " " + symbol + " \U{2014} $" + localeNumber(t.volume24hUsd)
         + " / 24h \U{0394} " + ToFixed(t.change24h, 1) + "%")
  }

  /** The rows numbered from `from + 1`, or the first error. */
  function TopRows(leaders: seq<Token>, from: nat, localeNumber: real -> string): (r: Result<seq<string>, Thrown>)
    ensures r.Ok? ==> |r.value| == |leaders|
    ensures r.Ok? ==> forall i :: 0 <= i < |r.value| ==> |r.value[i]| > 0 && r.value[i][0] == '#'
    decreases |leaders|
  {
    if |leaders| == 0 then Ok([])
    else
      match TopRow(from, leaders[0], localeNumber)
      case Err(e) => Err(e)
      case Ok(line) =>
        match TopRows(leaders[1..], from + 1, localeNumber)
        case Err(e) => Err(e)
        case Ok(rest) => Ok([line] + rest)
  }

  /** The reply for a snapshot: its volume leaders one per line, or `No data available.`. */
  function TopReply(snap: Snapshot, localeNumber: real -> string): Result<string, Thrown> {
    var leaders := match snap.highlights case Some(h) => h.volumeLeaders case None => [];
    match TopRows(leaders, 0, localeNumber)
    case Err(e) => Err(e)
    case Ok(rows) => Ok(if Join(rows, "\n") == "" then TOP_EMPTY else Join(rows, "\n"))
  }

  /** The handler's `catch`: an error becomes the apology. */
  function ReplyText(r: Result<string, Thrown>): string {
    match r
    case Ok(t) => t
    case Err(_) => TOP_FAILED
  }

  /** `/top` as written: when the snapshot is empty it refetches and stores `fresh.tokens`, the
      bare array, which resets the highlights to `null`. Any error becomes the apology. */
  function TopCommandAsWritten(st: Store, response: Result<Value, Thrown>, now: string, localeNumber: real -> string)
    : (r: (Store, string))
    ensures |st.snapshot.tokens| > 0 ==> r.0 == st
  {
    if |GetMarketSnapshot(st).tokens| > 0 then
      (st, ReplyText(TopReply(GetMarketSnapshot(st), localeNumber)))
    else
      match FetchLatestProfiles(response, now)
      case Err(_) => (st, TOP_FAILED)
      case Ok(latest) =>
        var st1 := SetMarketSnapshot(st, TokenArray(latest.tokens), now);
        (st1, ReplyText(TopReply(GetMarketSnapshot(st1), localeNumber)))
  }

  /** `/top` as evidently intended: the refetched snapshot is stored whole, as the market route
      and the schedulers store it, so its highlights are kept. */
  function TopCommand(st: Store, response: Result<Value, Thrown>, now: string, localeNumber: real -> string)
    : (r: (Store, string))
    ensures |st.snapshot.tokens| > 0 ==> r.0 == st
    ensures |st.snapshot.tokens| == 0 && FetchLatestProfiles(response, now).Ok? ==>
      && r.0.snapshot.tokens == FetchLatestProfiles(response, now).value.tokens
      && r.0.snapshot.highlights == Some(FetchLatestProfiles(response, now).value.highlights)
  {
    if |GetMarketSnapshot(st).tokens| > 0 then
      (st, ReplyText(TopReply(GetMarketSnapshot(st), localeNumber)))
    else
      match FetchLatestProfiles(response, now)
      case Err(_) => (st, TOP_FAILED)
      case Ok(latest) =>
        var st1 := SetMarketSnapshot(st, FromProfiles(latest), now);
        (st1, ReplyText(TopReply(GetMarketSnapshot(st1), localeNumber)))
  }

  /** The defect: on an empty snapshot, `/top` as written answers `No data available.` even
      when the refetch found tokens. */
  lemma TopAfterRefetchIsEmpty(st: Store, response: Result<Value, Thrown>, now: string, localeNumber: real -> string)
    requires |st.snapshot.tokens| == 0
    requires FetchLatestProfiles(response, now).Ok?
    ensures TopCommandAsWritten(st, response, now, localeNumber).1 == TOP_EMPTY
  {
  }

  /** Corrected, the same request answers with the `#`-numbered listing rather than the empty
      text whenever the refetch found tokens whose symbols are texts. */
  lemma TopAfterRefetchLists(st: Store, response: Result<Value, Thrown>, now: string, localeNumber: real -> string)
    requires |st.snapshot.tokens| == 0
    requires FetchLatestProfiles(response, now).Ok?
    requires var tokens := FetchLatestProfiles(response, now).value.tokens;
      |tokens| > 0 && forall i :: 0 <= i < |tokens| ==> tokens[i].symbol.Str?
    ensures var reply := TopCommand(st, response, now, localeNumber).1;
      |reply| > 0 && reply[0] == '#'
  {
    var latest := FetchLatestProfiles(response, now).value;
    LeadersNamed(latest.tokens);
    var st1 := SetMarketSnapshot(st, FromProfiles(latest), now);
    assert GetMarketSnapshot(st1).highlights == Some(BuildHighlights(latest.tokens));
    ListedReply(GetMarketSnapshot(st1), localeNumber);
  }

  /** The volume leaders of tokens whose symbols are all texts are there, and so are theirs. */
  lemma LeadersNamed(tokens: seq<Token>)
    requires |tokens| > 0 && forall i :: 0 <= i < |tokens| ==> tokens[i].symbol.Str?
    ensures var leaders := VolumeLeaders(tokens);
      |leaders| > 0 && forall i :: 0 <= i < |leaders| ==> leaders[i].symbol.Str?
  {
    var leaders := VolumeLeaders(tokens);
    forall i | 0 <= i < |leaders| ensures leaders[i].symbol.Str? {
      assert leaders[i] in multiset(tokens);
    }
  }

  /** A snapshot with named volume leaders gets the ranked list, which opens with `#1`. */
  lemma ListedReply(snap: Snapshot, localeNumber: real -> string)
    requires snap.highlights.Some?
    requires var leaders := snap.highlights.value.volumeLeaders;
      |leaders| > 0 && forall i :: 0 <= i < |leaders| ==> leaders[i].symbol.Str?
    ensures var reply := ReplyText(TopReply(snap, localeNumber));
      |reply| > 0 && reply[0] == '#'
  {
    var leaders := snap.highlights.value.volumeLeaders;
    TopRowsOk(leaders, 0, localeNumber);
    var rows := TopRows(leaders, 0, localeNumber).value;
    JoinHead(rows);
  }

  lemma {:induction false} TopRowsOk(leaders: seq<Token>, from: nat, localeNumber: real -> string)
    requires forall i :: 0 <= i < |leaders| ==> leaders[i].symbol.Str?
    ensures TopRows(leaders, from, localeNumber).Ok?
    decreases |leaders|
  {
    if |leaders| > 0 {
      TopRowsOk(leaders[1..], from + 1, localeNumber);
    }
  }

  lemma JoinHead(rows: seq<string>)
    requires |rows| > 0 && |rows[0]| > 0
    ensures |Join(rows, "\n")| > 0 && Join(rows, "\n")[0] == rows[0][0]
  {
  }

  /** `/link`: a code for this chat, carrying the sender's username and first name. */
  function LinkCommand(st: Store, chatId: Value, username: Value, firstName: Value, code: string, now: int)
    : (r: (Store, LinkCode))
    ensures r.1 == LinkCode(code, now + LINK_CODE_TTL_MS)
    ensures code in r.0.linkCodes
    ensures var f := r.0.linkCodes[code].fields;
      "chatId" in f && f["chatId"] == chatId && "username" in f && f["username"] == username
      && "firstName" in f && f["firstName"] == firstName
  {
    var chatProfile := map["chatId" := chatId, "username" := username, "firstName" := firstName];
    LinkProfileMerge(st, chatId, chatProfile, code, now);
    IssueLinkCode(st, chatId, chatProfile, code, now)
  }
}

=== FILE: twitter_poster.dfy ===
/** The Twitter poster (`backend/services/twitterPoster.js`): it posts a trimmed text through the
    API client when all four credentials are configured, guarded by its own three-per-day quota.
    The API call is the parameter `tweet`, which maps the posted text to the response or to what
    the call threw. */
module TwitterPoster {
  import opened Wrappers
  import opened Js
  import opened RateLimit

  /** The four credentials read from the environment. */
  datatype Credentials = Credentials(appKey: Option<string>, appSecret: Option<string>, accessToken: Option<string>, accessSecret: Option<string>)

  predicate Set(v: Option<string>) {
    v.Some? && v.value != ""
  }

  /** A client is created only when every credential is set. */
  predicate HasClient(c: Credentials) {
    Set(c.appKey) && Set(c.appSecret) && Set(c.accessToken) && Set(c.accessSecret)
  }

  /** What `publishUpdate` resolves to: `{ skipped: true }`, or `{ id, rateLimit }`. */
  datatype Published = Skipped | Posted(id: Value, rateLimit: nat)

  /** The limiter afterwards, the text handed to the API (if the API was called), and the
      outcome. */
  datatype Publish = Publish(limiter: Limiter, sent: Option<string>, outcome: Result<Published, Rejection<Thrown>>)

  /** `tweet.data?.id` of the API's answer; reading `data` of `undefined` or `null` throws. */
  function TweetId(response: Result<Value, Thrown>): (r: Result<Value, Thrown>)
    ensures response.Err? ==> r == response
    ensures response.Ok? ==> (r.Err? <==> response.value == Undefined || response.value == Null)
  {
    match response
    case Err(e) => Err(e)
    case Ok(v) =>
      if v.Undefined? || v.Null? then Err(TypeError("Cannot read properties of " + Display(v)))
      else Ok(Get(Get(v, "data"), "id"))
  }

  /** `publishUpdate(text)`. */
  function PublishUpdate(l: Limiter, creds: Credentials, text: string, tweet: string -> Result<Value, Thrown>): (r: Publish)
    ensures r.limiter.points == l.points
    ensures !HasClient(creds) ==> r == Publish(l, None, Ok(Skipped))
    ensures HasClient(creds) && Blank(text) ==> r == Publish(l, None, Err(Raised(Error("tweet_empty"))))
    ensures r.sent.Some? <==> HasClient(creds) && !Blank(text) && Used(l) < l.points
    ensures r.sent.Some? ==> r.sent.value == Trim(text) && r.sent.value != ""
    ensures HasClient(creds) && !Blank(text) && Used(l) >= l.points ==>
      r.outcome == Err(RateLimited) && Used(r.limiter) == Used(l) + 1
    ensures r.outcome.Err? && r.outcome.error.Raised? ==> Used(r.limiter) == Used(l)
    ensures r.outcome.Ok? && r.outcome.value.Posted? ==>
      && r.sent.Some? && tweet(r.sent.value).Ok?
      && Used(r.limiter) == Used(l) + 1
      && r.outcome.value.rateLimit == Remaining(r.limiter)
      && r.outcome.value.id == Get(Get(tweet(r.sent.value).value, "data"), "id")
    ensures HasClient(creds) && !Blank(text) && Used(l) < l.points ==>
      var id := TweetId(tweet(Trim(text)));
      && (id.Err? ==> r.outcome == Err(Raised(id.error)) && Used(r.limiter) == Used(l))
      && (id.Ok? ==> r.outcome.Ok? && r.outcome.value.Posted?)
  {
    if !HasClient(creds) then Publish(l, None, Ok(Skipped))
    else if Blank(text) then Publish(l, None, Err(Raised(Error("tweet_empty"))))
    else
      var g := Guard(l, TweetId(tweet(Trim(text))));
      var sent := if g.invoked then Some(Trim(text)) else None;
      match g.outcome
      case Err(e) => Publish(g.limiter, sent, Err(e))
      case Ok(granted) => Publish(g.limiter, sent, Ok(Posted(granted.value, granted.remaining)))
  }

  /** The posted text has nothing left to trim, and it is never empty. */
  lemma PostedTextTrimmed(l: Limiter, creds: Credentials, text: string, tweet: string -> Result<Value, Thrown>)
    requires PublishUpdate(l, creds, text, tweet).sent.Some?
    ensures var s := PublishUpdate(l, creds, text, tweet).sent.value;
      Trim(s) == s && !Blank(s) && |s| <= |text|
  {
    TrimIdempotent(text);
  }

  /** A refused or failed post leaves the quota as it was, unless the quota itself refused it. */
  lemma FailedPostIsFree(l: Limiter, creds: Credentials, text: string, tweet: string -> Result<Value, Thrown>)
    requires PublishUpdate(l, creds, text, tweet).outcome.Err?
    requires PublishUpdate(l, creds, text, tweet).outcome.error.Raised?
    ensures Remaining(PublishUpdate(l, creds, text, tweet).limiter) == Remaining(l)
  {
  }

  /** The quota reported after a post, like `remainingQuota()`, stays within 0 and 3. */
  lemma PostedQuotaInRange(l: Limiter, creds: Credentials, text: string, tweet: string -> Result<Value, Thrown>)
    requires Valid(l) && l.points == POINTS
    requires PublishUpdate(l, creds, text, tweet).outcome.Ok?
    ensures var p := PublishUpdate(l, creds, text, tweet).outcome.value;
      p.Posted? ==> 0 <= p.rateLimit < POINTS
  {
  }

  /** `remainingQuota()`. */
  function RemainingQuota(l: Limiter): (r: nat)
    ensures Valid(l) ==> r <= l.points
    ensures l.consumed.None? ==> r == l.points
    ensures l.consumed.Some? && Used(l) <= l.points ==> r == l.points - Used(l)
    ensures l.consumed.Some? && Used(l) >= l.points ==> r == 0
  {
    Remaining(l)
  }

  /** A post the quota refuses still counts its point, so the quota reported afterwards is 0. */
  lemma RefusedPostLeavesNone(l: Limiter, creds: Credentials, text: string, tweet: string -> Result<Value, Thrown>)
    requires HasClient(creds) && !Blank(text) && Used(l) >= l.points
    ensures var p := PublishUpdate(l, creds, text, tweet);
      p.outcome == Err(RateLimited) && p.sent.None? && RemainingQuota(p.limiter) == 0
  {
  }
}

=== FILE: wrappers.dfy ===
/** Failure-compatible wrappers used across the model: `Option` stands for a value or JavaScript
    `null`, `Result` for a value or a thrown exception / rejected promise. */
module Wrappers {

  datatype Option<+T> = None | Some(value: T) {

    /** The wrapped value, or `default` when absent. */
    function GetOr(default: T): T {
      match this
      case Some(v) => v
      case None => default
    }
  }

  datatype Result<+T, +E> = Ok(value: T) | Err(error: E)

  /** `items.map(f)` where `f` may throw: every result in order, or the first error. */
  function MapAll<T, U, E>(items: seq<T>, f: T -> Result<U, E>): (r: Result<seq<U>, E>)
    ensures r.Ok? ==> |r.value| == |items|
    ensures r.Ok? ==> forall i :: 0 <= i < |items| ==> f(items[i]) == Ok(r.value[i])
    decreases |items|
  {
    if |items| == 0 then Ok([])
    else
      match f(items[0])
      case Err(e) => Err(e)
      case Ok(head) =>
        match MapAll(items[1..], f)
        case Err(e) => Err(e)
        case Ok(rest) =>
          assert forall i :: 1 <= i < |items| ==> items[i] == items[1..][i - 1];
          Ok([head] + rest)
  }
}
